=== FILE: README.md ===
# go-sff decoding layer in Dafny

This project models the pure decoding layer of go-sff, a Go package that reads the
EEPROM of SFP and QSFP transceiver modules. The model covers four parts:

- **Family detection.** `GetType` decides the module family from the buffer length
  and the signature bytes 0, 1 and 128. `Read` then dispatches to the family's decoder.
- **Field codecs.** These are the big-endian 16-bit integers, Q8.8 temperature and the
  linearly scaled power, voltage, current, wavelength and tolerance. They also cover the
  padded fixed-length strings, the date code, the vendor OUI and the "rebuild a field
  from N bytes" step of every JSON decoder.
- **Memory maps.** The two families' memory maps are SFF-8079/SFF-8472 (A0h followed
  by A2h, 384 bytes) and SFF-8636 (lower page followed by upper page 00h, 256 bytes).
  The Go code overlays a struct on the buffer. Here the record is read off the buffer
  by explicit offsets, and an `Encode` function writes it back.
- **Bit-register decoders.** These are SFF-8079 Options, and SFF-8636 Options,
  ExtIdentifier, DeviceTechnology, ControlStatus, RevisionCompliance, Diagnostic
  Monitoring Type and Enhanced Options. Each comes with its accessors, precedence
  rules, ordered label lists and summaries.

Bytes are `bv8` and buffers are `seq<bv8>`. Scaled quantities are exact `real`s.
Errors are the `Base.Error` datatype, which keeps the data of the Go error messages.
One value, `UnknownType`, stands for two Go errors: GetType's "eeprom unknown type"
(sff.go:69) and the sentinel `ErrUnknownType` (sff.go:26), which `Read` returns in
its last branch (sff.go:156). That branch is unreachable, because GetType reports
an error with every unknown family. A Go string is a byte sequence, so the model's
`string` holds one character per byte, with the same code. Go map lookups are functions to `Option<string>`. A missing key
reads as the empty string, as in Go.

Files, one module each:

- `base.dfy`: results, bits, label lists, join/split and hex digits.
- `codec.dfy`: `common/types.go`.
- `sff8079_options.dfy` and `sff8079_model.dfy`: the SFF-8079 Options register and memory map.
- One file per SFF-8636 source: `sff8636_options.dfy`, `sff8636_ext_identifier.dfy`,
  `sff8636_device_technology.dfy`, `sff8636_diagnostic_monitoring_type.dfy`,
  `sff8636_enhanced_options.dfy` and `sff8636_page00.dfy`.
- `sff8636_model.dfy`: the SFF-8636 memory map.
- `sff.dfy`: family detection and `Read`.

Where the tests and the code disagree, the model follows the code:

- `sff_test.go:72-89` expects a 256-byte SFF-8079 buffer to decode. `sff8079/model.go:68-70`
  asks for 512 bytes, so the model rejects it (`Sff.Sff8079ReadNeedsTwoPages`). The
  package's own readers return exactly 256 bytes (sff.go:91, sff.go:114), so reading an
  SFP module through them always fails with the 512-byte size error.
- The comments in `sff8636/page00_test.go` name bits 5 and 4 for the two power-class
  enables. The code masks 0x08 and 0x04 (`sff8636/page00.go:98` and `sff8636/page00.go:102`), so the model uses bits 3 and 2.

## Model

| member | source | states |
|---|---|---|
| Codec.Uint16 | common/types.go:234-236 | the unsigned big-endian value 256·b0 + b1, below 65536 |
| Codec.Uint16RoundTrip | common/types.go:234-236 | re-encoding the value gives back both bytes, so no two byte pairs share a value |
| Codec.Uint16BytesRoundTrip | common/types.go:234-236 | every value below 65536 is the value of the two bytes encoding it |
| Codec.Uint16Injective | common/types.go:234-236 | different byte pairs have different values |
| Codec.Int16 | common/types.go:273-275 | two's complement: the unsigned value, less 65536 exactly when the sign bit is set; range [-32768, 32767] |
| Codec.Int16RoundTrip | common/types.go:273-275 | the signed value determines the two bytes |
| Codec.Int16BytesRoundTrip | common/types.go:273-275 | every value in range is the value of its encoding |
| Codec.ByteValue | common/types.go:130-132 | a ValueM/ValueKm/ValuePerc reading is the byte itself, below 256 |
| Codec.MegabitsPerSecond | common/types.go:178-180 | Value100Mbps is a multiple of 100 of at most 25500 whose hundreds give the byte back |
| Codec.Celsius | common/types.go:309-322 | Q8.8 temperature stays in [-128, 127.99609375] |
| Codec.CelsiusRecoversRaw | common/types.go:315-322 | the temperature times 256 is exactly the raw signed value, which re-encodes to the bytes |
| Codec.MilliWatt | common/types.go:357-370 | optical power stays in [0, 6.5535] mW |
| Codec.MilliWattRecoversRaw | common/types.go:362-370 | power in units of 0.1 uW is exactly the raw value |
| Codec.Volts | common/types.go:415-428 | supply voltage stays in [0, 6.5535] V |
| Codec.VoltsRecoversRaw | common/types.go:420-428 | voltage in units of 100 uV is exactly the raw value |
| Codec.MilliAmp | common/types.go:462-475 | bias current stays in [0, 131.07] mA |
| Codec.MilliAmpRecoversRaw | common/types.go:467-475 | current in units of 2 uA is exactly the raw value |
| Codec.WavelengthNm | common/types.go:583-597 | wavelength stays in [0, 3276.75] nm |
| Codec.WavelengthNmRecoversRaw | common/types.go:589-597 | wavelength in units of 0.05 nm is exactly the raw value |
| Codec.ToleranceNm | common/types.go:633-646 | tolerance stays in [0, 327.675] nm |
| Codec.ToleranceNmRecoversRaw | common/types.go:638-646 | tolerance in units of 0.005 nm is exactly the raw value |
| Codec.TrimSpace | common/types.go:23-25 | the trimmed string is one contiguous slice of the raw bytes; everything cut off is white space and the result neither starts nor ends with white space |
| Codec.TrimSpaceIdempotent | common/types.go:23-25 | trimming twice is trimming once |
| Codec.TrimPadded | common/types.go:85-87 | trailing pad spaces are removed and nothing of the text itself |
| Codec.Display | common/types.go:85-87 | String2/4/16.String is no longer than the field and has no white space at either end |
| Codec.DisplayPadded | common/types.go:85-87 | a name padded with spaces reads back as the name |
| Codec.DateString | common/types.go:548-550 | the date code renders as ten characters "20YY-MM-DD": bytes 0-1 at positions 2-3, bytes 2-3 at 5-6 and bytes 4-5 at 8-9 |
| Codec.DateStringDeterminesDate | common/types.go:548-550 | two date codes render alike exactly when their first six bytes agree; the lot code bytes 6-7 are not shown |
| Codec.OuiString | common/types.go:511-513 | the OUI renders as 5 to 8 characters in three ':'-separated parts |
| Codec.OuiStringInjective | common/types.go:511-513 | different OUIs render differently, though the hex digits are unpadded |
| Codec.Rebuild | common/types.go:43-51 | rebuilding an N-byte field (N in 2, 3, 4, 8, 16) fails exactly when fewer than N bytes are given; otherwise it keeps the first N bytes, so an N-byte input comes back unchanged |
| Codec.RebuildByteAsWritten | common/types.go:140-151 | as written, an empty hex string panics with index 0 out of range; any other input gives its first byte |
| Codec.RebuildByte | common/types.go:43-51 | with the length check of the wider types, fewer than one byte is the short-field error; otherwise the first byte |
| Codec.RebuildByteRoundTrip | common/types.go:121-151 | the one hex byte valueToJSON writes reads back as the value |
| Codec.RebuildByteFixesEmptyOnly | common/types.go:140-151 | the two readings differ exactly on the empty input: the panic as written, the short-field error corrected |
| Sff8079Options.DecodeOptions | sff8079/options.go:37-39 | DecodeOptions keeps both raw bytes unchanged |
| Sff8079Options.DecodeOptionsRoundTrip | sff8079/options.go:37-39 | decoding and taking the raw bytes are inverse to each other |
| Sff8079Options.HasReadsItsBit | sff8079/options.go:42-59 | each of the 16 accessors is one bit: byte 64 or 65, bit 7 to 0 |
| Sff8079Options.FlagsAreDistinctBits | sff8079/options.go:42-59 | no two accessors read the same bit |
| Sff8079Options.GetPowerLevel | sff8079/options.go:62-72 | bit 6 gives level 4, else bit 5 level 3, else bit 1 level 2, else level 1; each label exactly under its condition |
| Sff8079Options.PowerLabelAgreesWithGetPowerLevel | sff8079/options.go:62-87 | the first entry of String follows the same precedence as GetPowerLevel |
| Sff8079Options.PartsCount | sff8079/options.go:75-127 | the entries are the power label plus one per set bit of byte 64 bits 4, 3, 2, 0 and of byte 65: 1 + popcount(b64 & 0x1D) + popcount(b65) |
| Sff8079Options.String | sff8079/options.go:75-133 | the summary starts with the power label and is never "No special options" |
| Sff8079Options.PartsListSetFlags | sff8079/options.go:89-127 | a flag's label is listed exactly when its bit is set |
| Sff8079Options.StringDeterminesFlags | sff8079/options.go:75-133 | equal summaries mean the same power label and the same listed flags |
| Sff8079Options.ReservedBitIgnored | sff8079/options.go:42-133 | byte 64 bit 7 changes neither the summary nor the power level |
| Sff8079Options.StringNoFlags | sff8079/options_test.go:86-88 | {0x00, 0x00} gives "Power Level 1" |
| Sff8079Options.StringHighPower | sff8079/options_test.go:90-93 | {0x58, 0x00} gives "High Power Level 4, Paging Implemented, Retimer/CDR" |
| Sff8079Options.StringMixed | sff8079/options_test.go:95-100 | {0x1A, 0x25} gives the six listed parts joined by ", " |
| Sff8079Model.Decode | sff8079/model.go:67-78 | under 512 bytes fails with the size error; otherwise fails with byte 0 exactly when the signature is missing, and succeeds exactly when it is present; an accepted record is the first 384 bytes unchanged, with the A2h diagnostics at 352-361 |
| Sff8079Model.FieldsLoseNothing | sff8079/model.go:22-65 | the fields are contiguous, do not overlap and cover bytes 0-383: writing the record back gives the bytes read |
| Sff8079Model.DecodeReadsRecordBytes | sff8079/model.go:22-78 | two accepted buffers decode alike exactly when their first 384 bytes agree; bytes 384-511 are never read |
| Sff8079Model.ShowsVendorSa | sff8079/model.go:105-107 | byte 120 is shown exactly for an Arista cable; then the trimmed vendor name fills 15 of its 16 bytes and the trimmed part number keeps at least the 8 bytes of its prefix |
| Sff8079Model.AristaCable | sff8079/model.go:105-107 | the trimmed vendor name equals "Arista Networks" and the trimmed part number starts with "CAB-Q-S-"; fields shorter than 15 and 8 bytes never qualify |
| Sff8079Model.VendorSaShownFromBytes | sff8079/model.go:105-107 | whether byte 120 is shown depends only on the vendor name at bytes 20-35 and the part number at bytes 40-55, both trimmed |
| Sff8079Model.PaddedAristaCable | sff8079/model.go:105-107 | every "Arista Networks" vendor with a "CAB-Q-S-" part number qualifies, whatever space padding follows either |
| Sff8079Model.AristaCableOfPadded | sff8079/model.go:105-107 | for padded names without white space at their ends, the test holds exactly when the vendor is "Arista Networks" and the part number starts with "CAB-Q-S-" |
| Sff8636Options.DecodeByte0 | sff8636/options.go:49-61 | each field of byte 193 is its bit |
| Sff8636Options.DecodeByte1 | sff8636/options.go:62-72 | each field of byte 194 is its bit |
| Sff8636Options.DecodeByte2 | sff8636/options.go:73-84 | each field of byte 195 is its bit |
| Sff8636Options.DecodeRoundTrip | sff8636/options.go:49-85 | the 24 decoded flags give back all three bytes |
| Sff8636Options.EncodeRoundTrip | sff8636/options.go:49-85 | every combination of the 24 flags is the decoding of some bytes |
| Sff8636Options.TextInjective | sff8636/options.go:178-261 | no two entries share a label |
| Sff8636Options.List | sff8636/options.go:178-261 | one entry per set bit of byte 193 bits 6-0, of byte 194 and of byte 195 other than bit 2, plus one squelch-type entry when byte 195 bit 2 or byte 194 bit 0 is set |
| Sff8636Options.EntriesFollowLines | sff8636/options.go:178-261 | the entries keep the fixed order: byte 193 bits 6-0, byte 194 bits 7-0, byte 195 bits 7-0 |
| Sff8636Options.ListShowsEntry | sff8636/options.go:178-261 | an entry's label is listed exactly when its flag is set |
| Sff8636Options.SquelchTypeReported | sff8636/options.go:248-252 | "reduces Pave" appears exactly when byte 195 bit 2 is set, "reduces OMA" exactly when it is clear and byte 194 bit 0 is set; never both |
| Sff8636Options.ListEmpty | sff8636/options.go:178-261 | the list is empty exactly when no bit but the reserved one is set |
| Sff8636Options.ListDeterminesOptions | sff8636/options.go:178-261 | equal lists mean equal bytes outside the reserved bit 7 of byte 193 |
| Sff8636Options.String | sff8636/options.go:88-175 | "No options implemented" exactly when the list is empty, the list joined by ", " otherwise |
| Sff8636Options.StringDeterminesOptions | sff8636/options.go:88-175 | two summaries are equal exactly when the bytes agree outside the reserved bit |
| Sff8636Options.ListExamples | sff8636/options_test.go:100-114 | {0, 0, 0} lists nothing and {0x10, 0x80, 0x20} lists three entries |
| ExtIdentifier.GetPowerClass | sff8636/ext_identifier.go:71-111 | bit 5 gives class 8 whatever else is set; then bits 1-0 give classes 5-7; then bits 7-6 give classes 1-4; "Power Class Unknown" is never returned |
| ExtIdentifier.PowerClass | sff8636/ext_identifier.go:71-111 | the power class read from the bits by their meaning is always 1 to 8 |
| ExtIdentifier.GetPowerClassNamesClass | sff8636/ext_identifier.go:71-111 | the label of the precedence chain is the name of that class |
| ExtIdentifier.ClassNameInjective | sff8636/ext_identifier.go:75-108 | different classes have different labels |
| ExtIdentifier.EveryClassOccurs | sff8636/ext_identifier.go:71-111 | each of the eight classes is reached by some byte |
| ExtIdentifier.LookupsHit | sff8636/ext_identifier.go:46-121 | no map lookup of List misses its table |
| ExtIdentifier.List | sff8636/ext_identifier.go:113-121 | three entries: the power class, the CLEI label of bit 4, and the TX and RX CDR labels of bits 3 and 2 |
| ExtIdentifier.ListDeterminesFields | sff8636/ext_identifier.go:113-121 | two lists are equal exactly when the power class and bits 4, 3 and 2 agree |
| ExtIdentifier.String | sff8636/ext_identifier.go:123-125 | splitting the text at newlines gives the list back |
| DeviceTechnology.GetTransmitterTechnology | sff8636/device_technology.go:61-63 | the technology keeps bits 7-4 and clears bits 3-0 |
| DeviceTechnology.NameTableTotal | sff8636/device_technology.go:41-95 | all 16 technologies are in the table, so "Unknown (0x..)" is never returned |
| DeviceTechnology.TechOfNameInverts | sff8636/device_technology.go:41-58 | the technology can be read back from its name |
| DeviceTechnology.NamesDistinct | sff8636/device_technology.go:41-58 | the 16 names are pairwise distinct |
| DeviceTechnology.NameDeterminesTechnology | sff8636/device_technology.go:61-95 | two bytes have the same name exactly when their high nibbles agree |
| DeviceTechnology.GetDetectorType | sff8636/device_technology.go:76-81 | "APD" exactly when bit 1 is set, "Pin" otherwise |
| DeviceTechnology.AccessorsAreBits | sff8636/device_technology.go:66-86 | wavelength control is bit 3, cooled transmitter bit 2, tunable bit 0 |
| DeviceTechnology.ReportDeterminesByte | sff8636/device_technology.go:61-95 | the name, the three flags and the detector type together determine the byte |
| DiagnosticMonitoringType.Decode | sff8636/diagnostic_monitoring_type.go:13-22 | the reserved pairs 7-6 and 1-0 are each folded into one flag, and bits 5-2 are read one by one |
| DiagnosticMonitoringType.AccessorsAgreeWithDecode | sff8636/diagnostic_monitoring_type.go:128-146 | each accessor agrees with its Decode field |
| DiagnosticMonitoringType.List | sff8636/diagnostic_monitoring_type.go:62-82 | 1 + popcount(d & 0x34) entries, with "Average Power" exactly when bit 3 is set and "OMA" exactly when it is clear |
| DiagnosticMonitoringType.ListShowsBits | sff8636/diagnostic_monitoring_type.go:62-82 | the temperature, voltage and transmit power labels appear exactly when bits 5, 4 and 2 are set |
| DiagnosticMonitoringType.ListDeterminesBits | sff8636/diagnostic_monitoring_type.go:62-82 | two lists are equal exactly when bits 5-2 agree; the reserved bits never matter |
| DiagnosticMonitoringType.String | sff8636/diagnostic_monitoring_type.go:35-59 | the list joined by ", "; the "no features" text is never returned |
| DiagnosticMonitoringType.StringDeterminesBits | sff8636/diagnostic_monitoring_type.go:35-59 | two summaries are equal exactly when bits 5-2 agree |
| EnhancedOptions.Decode | sff8636/enhanced_options.go:13-22 | the reserved bits 7-5 are folded into one flag, and bits 4-0 are read one by one |
| EnhancedOptions.AccessorsAgreeWithDecode | sff8636/enhanced_options.go:119-136 | each accessor agrees with its Decode field |
| EnhancedOptions.List | sff8636/enhanced_options.go:60-78 | popcount(e & 0x1B) entries, each label present exactly when its bit is set |
| EnhancedOptions.ListDeterminesBits | sff8636/enhanced_options.go:60-78 | two lists are equal exactly when bits 4, 3, 1 and 0 agree |
| EnhancedOptions.String | sff8636/enhanced_options.go:35-57 | "No enhanced options implemented" exactly when e & 0x1B is 0, the list joined by ", " otherwise |
| EnhancedOptions.StringDeterminesBits | sff8636/enhanced_options.go:35-57 | two summaries are equal exactly when bits 4, 3, 1 and 0 agree |
| Page00.RevisionString | sff8636/page00.go:27-44 | values 0-8 give their table name, every other value "Reserved (0xNN)" in lower-case hex |
| Page00.RevisionOfNameInverts | sff8636/page00.go:27-37 | the value can be read back from its table name |
| Page00.RevisionStringInjective | sff8636/page00.go:27-44 | different values give different texts |
| Page00.RevisionExamples | sff8636/page00_test.go:13-16 | 0x00, 0x01 and 0x07 give their table names and 0xFF gives "Reserved (0xff)" |
| Page00.DecodeChannelMonitoring | sff8636/page00.go:55-68 | the twelve monitors sit at consecutive 2-byte offsets and cover the 24 bytes exactly |
| Page00.ChannelMonitoringRoundTrip | sff8636/page00.go:55-68 | reading the monitors back from their bytes gives the same monitors |
| Page00.StatusOf | sff8636/page00.go:114-132 | software reset is bit 7, the class-8 enable bit 3, the class 5-7 enable bit 2, low power bit 1, override bit 0 |
| Page00.StatusDeterminesBits | sff8636/page00.go:90-132 | two bytes report the same status exactly when they agree outside bits 6-4 |
| Page00.EachAccessorIsOneBit | sff8636/page00.go:90-132 | toggling a bit changes only its own accessor, and toggling bits 6-4 changes none |
| Page00.StatusExamples | sff8636/page00_test.go:62-92 | 0xFF makes every accessor true and 0x00 every accessor false |
| Sff8636Model.Decode | sff8636/model.go:70-81 | under 256 bytes fails with the size error; otherwise fails with byte 128 exactly when it is not 12, 13 or 17, and succeeds exactly when it is; an accepted record is the first 256 bytes unchanged, with each page 00h field at its offset |
| Sff8636Model.FieldsLoseNothing | sff8636/model.go:22-68 | the fields are contiguous, do not overlap and cover bytes 0-255: writing the record back gives the bytes read |
| Sff8636Model.DecodeReadsRecordBytes | sff8636/model.go:22-81 | two accepted buffers decode alike exactly when their first 256 bytes agree |
| Sff8636Model.AcceptanceIgnoresOtherBytes | sff8636/model.go:70-81 | changing any byte but 128 never changes whether a buffer is accepted, so byte 0 and the check codes at 191 and 223 are not validated |
| Sff8636Model.LaserWavelenTolerAsWritten | sff8636/model.go:56 | the tolerance read with the wavelength type is ten times the intended value |
| Sff8636Model.LaserWavelenToler | sff8636/model.go:56 | the tolerance read in units of 0.005 nm stays in [0, 327.675] nm, and times 200 it is exactly the raw value |
| Sff8636Model.ToleranceScaleMismatch | sff8636/model.go:56 | raw 100 is 0.5 nm but is read as 5 nm, and raw 65535 is read as 3276.75 nm, beyond any tolerance |
| Sff.GetType | sff.go:54-70 | under 256 bytes gives Unknown with the size error; the SFF-8079 signature wins; otherwise byte 128 in 12, 13, 17 gives SFF-8636; an error comes exactly with Unknown |
| Sff.GetTypeReadsSignatureBytes | sff.go:54-70 | the family depends only on the length and bytes 0, 1 and 128 |
| Sff.Sff8079SignatureWins | sff.go:61-63 | a buffer with both signatures is SFF-8079 |
| Sff.Read | sff.go:131-157 | reader and detection errors are passed on; an accepted module's tag names the one record present, which is the chosen decoder's result |
| Sff.Sff8636ReadSucceeds | sff.go:149-154 | once detected as SFF-8636, reading cannot fail |
| Sff.Sff8079ReadNeedsTwoPages | sff.go:143-148 | a detected SFF-8079 buffer is read exactly when it has 512 bytes, and a shorter one fails with the 512-byte size error |
| Sff.ReadSucceedsIff | sff.go:131-157 | reading succeeds exactly for buffers of 256 bytes or more that carry the SFF-8079 signature and 512 bytes, or else the SFF-8636 identifier |

## Left out

- Transport: i2c.go, `I2CReader.Read` and `FileReader.Read` (sff.go:72-128) are I/O. `Sff.Read` takes the reader's result as its input instead, and any reader error is passed on unchanged.
- Text rendering of whole records: `String`, `StringCol`, the colour helpers and the `%-50s` layout are presentation only. The one decision inside them that is not layout, whether byte 120 of SFF-8079 is shown, is modelled as `Sff8079Model.ShowsVendorSa`.
- JSON: `MarshalJSON`, map building and hex encoding and decoding are library calls. Only the length check and copy that follow the hex decoding are modelled, as `Codec.Rebuild` and `Codec.RebuildByte`.
- Floating point: float64 rounding, `math.Log10` for dBm, "-inf dBm" and `%.3f`-style formatting. Scaled values are exact reals.
- The `unsafe.Pointer` overlay: the aliasing between record and buffer is not modelled. Decoding copies the bytes into an immutable record.
- `common.Identifier`, `common.Connector`, `Transceiver`, `Encoding`, `LinkCodes` and the SFF-8079 `ExtIdentifier` are not defined in any modelled file, so their fields are kept as raw bytes.
- The `ChannelMonitoring` accessors `GetRxPower`, `GetTxBias` and `GetTxPower` are not defined in any modelled file. The monitors are kept as raw 2-byte fields, which the `Codec` scalings apply to.
- Codec.TrimSpace: trims the six ASCII white-space bytes only. Go's `strings.TrimSpace` also trims Unicode white space such as U+0085 and U+00A0, which this model does not.
- `pwrClassNames` and `extPwrClassNames` (sff8636/ext_identifier.go:39-44, 61-66) are never read by the code, so they are not modelled.

## Findings

| source | as written | input that shows it | evidently intended | confidence | as-written member | corrected member |
|---|---|---|---|---|---|---|
| common/types.go:150 | `ValueM.UnmarshalJSON` takes `b[0]` with no length check, as do `ValueKm`, `Value100Mbps` and `ValuePerc` (types.go:174, 203, 227) | `{"hex":""}` decodes to no bytes, so `b[0]` panics with an index out of range | the "length is shorter then" error every wider type returns (types.go:43) | not executed; every multi-byte sibling checks the length before copying | Codec.RebuildByteAsWritten | Codec.RebuildByte |
| sff8636/model.go:56 | `LaserWavelenToler` has the type `WavelengthNanometerBE`, so the tolerance at bytes 188-189 is divided by 20 | bytes 188-189 = 00 64 (raw 100) read as 5 nm | the tolerance type `ToleranceNanometerBE`, divided by 200, giving 0.5 nm | not executed; the byte comment and the tolerance type's own doc comment name a 0.005 nm unit | Sff8636Model.LaserWavelenTolerAsWritten | Sff8636Model.LaserWavelenToler |

=== FILE: base.dfy ===
/** Shared vocabulary of the decoder: the error taxonomy, the result type,
    bits of a byte, selection of labels by flags (the "append the label if
    the flag is set" idiom of every bit-register summary) and Go's
    strings.Join together with a Split that inverts it. */
module Base {

  /** The conventional Some/None datatype. */
  datatype Option<+T> = None | Some(value: T)

  /** The error conditions of the decoding layer. The Go code returns
      formatted error values; only their data is kept. UnknownType stands
      for both GetType's "eeprom unknown type" and the sentinel "unknown
      type" of Read's last branch, which GetType's result never reaches. */
  datatype Error =
    | SizeTooSmall(need: nat, got: nat)   // "eeprom size to small needs to be <need> bytes or larger"
    | UnknownType                         // "eeprom unknown type" or the sentinel "unknown type"
    | UnknownStandard(identifier: bv8)    // Decode: "unknown eeprom standard, identifier: 0x.."
    | FieldTooShort(width: nat, got: nat) // UnmarshalJSON: "length is shorter then <T> type"
    | IndexOutOfRange(index: nat, length: nat) // Go runtime panic: "index out of range [index] with length <length>"
    | ReadFailed                          // the reader's own error, passed through by Read

  /** A value or the error that prevented it. */
  datatype Result<+T> = Ok(value: T) | Err(error: Error)

  /** Bit k of b, bit 0 being the least significant one. */
  predicate Bit(b: bv8, k: nat)
    requires k < 8
  {
    (b >> k) & 1 == 1
  }

  /** The number of set bits of b. */
  function PopCount(b: bv8): (n: nat)
    ensures n <= 8
  {
    (if Bit(b, 7) then 1 else 0) + (if Bit(b, 6) then 1 else 0)
    + (if Bit(b, 5) then 1 else 0) + (if Bit(b, 4) then 1 else 0)
    + (if Bit(b, 3) then 1 else 0) + (if Bit(b, 2) then 1 else 0)
    + (if Bit(b, 1) then 1 else 0) + (if Bit(b, 0) then 1 else 0)
  }

  /** A byte sequence shown as text: Go's string(b) keeps every byte, so each
      byte becomes the character with the same code. */
  function Chars(b: seq<bv8>): (s: string)
    ensures |s| == |b|
    ensures forall i :: 0 <= i < |b| ==> s[i] as int == b[i] as int
  {
    seq(|b|, i requires 0 <= i < |b| => (b[i] as int) as char)
  }

  /** The bytes of a text whose characters are all below 256: the inverse
      of Chars. */
  function Ascii(t: string): (b: seq<bv8>)
    requires forall i :: 0 <= i < |t| ==> t[i] as int < 256
    ensures Chars(b) == t
  {
    seq(|t|, i requires 0 <= i < |t| => ByteOf(t[i] as int))
  }

  lemma {:induction false} CharsAppend(a: seq<bv8>, b: seq<bv8>)
    ensures Chars(a + b) == Chars(a) + Chars(b)
  {
    assert forall i :: 0 <= i < |a + b| ==> Chars(a + b)[i] == (Chars(a) + Chars(b))[i];
  }

  /** Chars loses nothing: different byte strings give different texts. */
  lemma CharsInjective(a: seq<bv8>, b: seq<bv8>)
    requires Chars(a) == Chars(b)
    ensures a == b
  {
    assert |a| == |b|;
    forall i | 0 <= i < |a|
      ensures a[i] == b[i]
    {
      assert Chars(a)[i] == Chars(b)[i];
      assert a[i] as int == b[i] as int;
    }
  }

  // ---------------------------------------------------------------------
  // Labels selected by flags

  /** One entry of a register summary: the label and whether its flag is set. */
  datatype Labelled = Labelled(text: string, on: bool)

  /** The labels of the set entries, in table order: the Go code's chain of
      `if flag { parts = append(parts, label) }`. */
  function Selected(e: seq<Labelled>): seq<string>
  {
    if |e| == 0 then [] else Selected(e[..|e| - 1]) + (if e[|e| - 1].on then [e[|e| - 1].text] else [])
  }

  /** The label x when its flag is set, nothing otherwise: what one entry
      contributes to Selected. */
  function Shown(x: string, on: bool): seq<string>
  {
    if on then [x] else []
  }

  /** Unfolds Selected over a table written as a chain of one-entry
      sequences, which is how every register table below is written. */
  lemma SelectedUnfold()
    ensures forall x: Labelled {:trigger Selected([x])} ::
      Selected([x]) == (if x.on then [x.text] else [])
    ensures forall e: seq<Labelled>, x: Labelled {:trigger Selected(e + [x])} ::
      Selected(e + [x]) == Selected(e) + (if x.on then [x.text] else [])
  {
    forall x: Labelled
      ensures Selected([x]) == (if x.on then [x.text] else [])
    {
      assert [x][..0] == [];
    }
    forall e: seq<Labelled>, x: Labelled
      ensures Selected(e + [x]) == Selected(e) + (if x.on then [x.text] else [])
    {
      assert (e + [x])[..|e + [x]| - 1] == e;
    }
  }

  /** The number of set entries of a table. */
  function CountOn(e: seq<Labelled>): nat
  {
    if |e| == 0 then 0 else CountOn(e[..|e| - 1]) + (if e[|e| - 1].on then 1 else 0)
  }

  /** As many labels are selected as entries are set. */
  lemma {:induction false} SelectedLength(e: seq<Labelled>)
    ensures |Selected(e)| == CountOn(e)
  {
    if |e| > 0 {
      SelectedLength(e[..|e| - 1]);
    }
  }

  /** Unfolds CountOn over a table written as a chain of one-entry sequences. */
  lemma CountOnUnfold()
    ensures forall x: Labelled {:trigger CountOn([x])} ::
      CountOn([x]) == (if x.on then 1 else 0)
    ensures forall e: seq<Labelled>, x: Labelled {:trigger CountOn(e + [x])} ::
      CountOn(e + [x]) == CountOn(e) + (if x.on then 1 else 0)
  {
    forall x: Labelled
      ensures CountOn([x]) == (if x.on then 1 else 0)
    {
      assert [x][..0] == [];
    }
    forall e: seq<Labelled>, x: Labelled
      ensures CountOn(e + [x]) == CountOn(e) + (if x.on then 1 else 0)
    {
      assert (e + [x])[..|e + [x]| - 1] == e;
    }
  }

  /** Order is kept: the labels selected from a table's first part all come
      before those selected from the rest. */
  lemma {:induction false} SelectedAppend(a: seq<Labelled>, b: seq<Labelled>)
    ensures Selected(a + b) == Selected(a) + Selected(b)
    decreases |b|
  {
    if |b| == 0 {
      assert a + b == a;
    } else {
      var b' := b[..|b| - 1];
      assert (a + b)[..|a + b| - 1] == a + b';
      SelectedAppend(a, b');
    }
  }

  /** Every selected label comes from a set entry of the table. */
  lemma {:induction false} SelectedFromSetEntries(e: seq<Labelled>, x: string)
    requires x in Selected(e)
    ensures exists i :: 0 <= i < |e| && e[i].on && e[i].text == x
    decreases |e|
  {
    var last := e[|e| - 1];
    if x in Selected(e[..|e| - 1]) {
      SelectedFromSetEntries(e[..|e| - 1], x);
      var i :| 0 <= i < |e| - 1 && e[..|e| - 1][i].on && e[..|e| - 1][i].text == x;
      assert e[i] == e[..|e| - 1][i];
    } else {
      assert last.on && last.text == x;
    }
  }

  /** No other entry of the table carries the label of entry i. */
  predicate UniqueAt(e: seq<Labelled>, i: nat)
    requires i < |e|
  {
    forall j :: 0 <= j < |e| && j != i ==> e[j].text != e[i].text
  }

  /** A label that no other entry carries is listed exactly when its flag
      is set. */
  lemma {:induction false} SelectedContains(e: seq<Labelled>, i: nat)
    requires i < |e|
    requires UniqueAt(e, i)
    ensures e[i].text in Selected(e) <==> e[i].on
    decreases |e|
  {
    var init := e[..|e| - 1];
    var last := e[|e| - 1];
    if i == |e| - 1 {
      if e[i].text in Selected(init) {
        SelectedFromSetEntries(init, e[i].text);
        assert false;
      }
    } else {
      assert init[i] == e[i];
      assert UniqueAt(init, i) by {
        forall j | 0 <= j < |init| && j != i
          ensures init[j].text != init[i].text
        {
          assert init[j] == e[j];
        }
      }
      SelectedContains(init, i);
      assert last.text != e[i].text;
    }
  }

  // ---------------------------------------------------------------------
  // Join and Split

  /** Go's strings.Join. */
  function Join(parts: seq<string>, sep: string): string
  {
    if |parts| == 0 then ""
    else if |parts| == 1 then parts[0]
    else parts[0] + sep + Join(parts[1..], sep)
  }

  /** Go's strings.Split on a one-character separator. */
  function Split(s: string, c: char): (r: seq<string>)
    ensures |r| >= 1
    decreases |s|
  {
    if |s| == 0 then [""]
    else
      var rest := Split(s[1..], c);
      if s[0] == c then [""] + rest else [[s[0]] + rest[0]] + rest[1..]
  }

  /** The first part of a join is its prefix. */
  lemma {:induction false} JoinStartsWithFirst(parts: seq<string>, sep: string)
    requires |parts| >= 1
    ensures |parts[0]| <= |Join(parts, sep)|
    ensures Join(parts, sep)[..|parts[0]|] == parts[0]
  {
    if |parts| > 1 {
      var j := Join(parts, sep);
      assert j == parts[0] + (sep + Join(parts[1..], sep));
    }
  }

  lemma {:induction false} SplitWithout(a: string, c: char)
    requires c !in a
    ensures Split(a, c) == [a]
    decreases |a|
  {
    if |a| > 0 {
      SplitWithout(a[1..], c);
      assert [a[0]] + a[1..] == a;
    }
  }

  lemma {:induction false} SplitPrefix(t: string, x: string, c: char)
    requires c !in t
    ensures Split(t + x, c) == [t + Split(x, c)[0]] + Split(x, c)[1..]
    decreases |t|
  {
    if |t| > 0 {
      assert (t + x)[1..] == t[1..] + x;
      assert (t + x)[0] == t[0];
      SplitPrefix(t[1..], x, c);
      assert [t[0]] + (t[1..] + Split(x, c)[0]) == t + Split(x, c)[0];
    } else {
      var sx := Split(x, c);
      assert t + x == x;
      assert t + sx[0] == sx[0];
      assert [sx[0]] + sx[1..] == sx;
    }
  }

  lemma SplitAtSeparator(a: string, c: char, rest: string)
    requires c !in a
    ensures Split(a + [c] + rest, c) == [a] + Split(rest, c)
  {
    var s := [c] + rest;
    assert Split(s, c) == [""] + Split(rest, c) by {
      assert s[0] == c && s[1..] == rest;
    }
    assert a + [c] + rest == a + s;
    SplitPrefix(a, s, c);
    assert Split(s, c)[0] == "" && Split(s, c)[1..] == Split(rest, c);
    assert a + "" == a;
  }

  /** Each part after the first, preceded by tail. */
  function Prefixed(tail: string, parts: seq<string>): (r: seq<string>)
    ensures |r| == |parts|
    ensures forall i :: 0 <= i < |parts| ==> r[i] == tail + parts[i]
  {
    seq(|parts|, i requires 0 <= i < |parts| => tail + parts[i])
  }

  /** Splitting a join on the first character of its separator gives the
      parts back, each later one still carrying the rest of the separator,
      provided that character occurs in no part and not again in the
      separator. */
  lemma {:induction false} SplitJoin(parts: seq<string>, c: char, tail: string)
    requires |parts| >= 1
    requires forall p :: p in parts ==> c !in p
    requires c !in tail
    ensures Split(Join(parts, [c] + tail), c) == [parts[0]] + Prefixed(tail, parts[1..])
    decreases |parts|
  {
    if |parts| == 1 {
      SplitWithout(parts[0], c);
      assert Prefixed(tail, parts[1..]) == [];
    } else {
      var sep := [c] + tail;
      var j' := Join(parts[1..], sep);
      assert Join(parts, sep) == parts[0] + [c] + (tail + j') by {
        assert Join(parts, sep) == parts[0] + sep + j';
      }
      assert forall p :: p in parts[1..] ==> p in parts;
      SplitAtSeparator(parts[0], c, tail + j');
      SplitPrefix(tail, j', c);
      SplitJoin(parts[1..], c, tail);
      JoinTail(parts, tail);
    }
  }

  lemma JoinTail(parts: seq<string>, tail: string)
    requires |parts| >= 2
    ensures
      var s' := [parts[1..][0]] + Prefixed(tail, parts[1..][1..]);
      [tail + s'[0]] + s'[1..] == Prefixed(tail, parts[1..])
  {
    assert parts[1..][1..] == parts[2..];
  }

  /** The plain case: a one-character separator. */
  lemma SplitJoinChar(parts: seq<string>, c: char)
    requires |parts| >= 1
    requires forall p :: p in parts ==> c !in p
    ensures Split(Join(parts, [c]), c) == parts
  {
    assert [c] + "" == [c];
    SplitJoin(parts, c, "");
    assert [parts[0]] + Prefixed("", parts[1..]) == parts by {
      assert forall i :: 0 <= i < |parts| - 1 ==> Prefixed("", parts[1..])[i] == parts[1..][i];
    }
  }

  /** One step of a join: the first part, the separator, the join of the rest. */
  lemma JoinCons(x: string, rest: seq<string>, sep: string)
    requires |rest| >= 1
    ensures Join([x] + rest, sep) == x + sep + Join(rest, sep)
  {
    assert ([x] + rest)[1..] == rest;
  }

  lemma JoinThree(x: string, y: string, z: string, sep: string)
    ensures Join([x, y, z], sep) == x + sep + y + sep + z
  {
    assert [x, y, z][1..] == [y, z];
    assert [y, z][1..] == [z];
    assert Join([z], sep) == z;
    assert Join([y, z], sep) == y + sep + z;
    assert Join([x, y, z], sep) == x + sep + (y + sep + z);
  }

  /** A join whose separator starts with a character found in no part
      loses nothing: equal joins come from equal part lists. */
  lemma JoinInjective(p: seq<string>, q: seq<string>, c: char, tail: string)
    requires |p| >= 1 && |q| >= 1
    requires forall x :: x in p ==> c !in x
    requires forall x :: x in q ==> c !in x
    requires c !in tail
    requires Join(p, [c] + tail) == Join(q, [c] + tail)
    ensures p == q
  {
    SplitJoin(p, c, tail);
    SplitJoin(q, c, tail);
    var sp := [p[0]] + Prefixed(tail, p[1..]);
    var sq := [q[0]] + Prefixed(tail, q[1..]);
    assert sp == sq;
    assert |p| == |q|;
    forall i | 0 <= i < |p|
      ensures p[i] == q[i]
    {
      if i > 0 {
        assert sp[i] == tail + p[i] && sq[i] == tail + q[i];
        assert (tail + p[i])[|tail|..] == p[i];
        assert (tail + q[i])[|tail|..] == q[i];
      } else {
        assert sp[0] == p[0] && sq[0] == q[0];
      }
    }
  }

  /** The usual shape of a register summary: a fixed phrase when nothing is
      listed, otherwise the listed labels joined by sep. */
  function Summary(parts: seq<string>, none: string, sep: string): string
  {
    if |parts| == 0 then none else Join(parts, sep)
  }

  /** A label that can never be taken for the fixed phrase none: it starts
      with another character. */
  predicate Distinguishable(x: string, none: string)
  {
    |none| > 0 && |x| > 0 && x[0] != none[0]
  }

  predicate Printable(parts: seq<string>, none: string)
  {
    |none| > 0 && forall x :: x in parts ==> Distinguishable(x, none)
  }

  /** Labels none of which contains c, so that a join can be split at c. */
  predicate Separable(parts: seq<string>, c: char)
  {
    forall x :: x in parts ==> c !in x
  }

  /** A table of distinguishable labels gives a printable selection. */
  lemma SelectedPrintable(e: seq<Labelled>, none: string)
    requires |none| > 0
    requires forall i :: 0 <= i < |e| ==> Distinguishable(e[i].text, none)
    ensures Printable(Selected(e), none)
  {
    forall x | x in Selected(e)
      ensures Distinguishable(x, none)
    {
      SelectedFromSetEntries(e, x);
    }
  }

  lemma SelectedSeparable(e: seq<Labelled>, c: char)
    requires forall i :: 0 <= i < |e| ==> c !in e[i].text
    ensures Separable(Selected(e), c)
  {
    forall x | x in Selected(e)
      ensures c !in x
    {
      SelectedFromSetEntries(e, x);
    }
  }

  /** The summary is the fixed phrase exactly when nothing is listed. */
  lemma SummaryNone(parts: seq<string>, none: string, sep: string)
    requires Printable(parts, none)
    ensures Summary(parts, none, sep) == none <==> |parts| == 0
  {
    if |parts| > 0 {
      assert parts[0] in parts;
      JoinStartsWithFirst(parts, sep);
      var j := Join(parts, sep);
      assert j[..|parts[0]|][0] == parts[0][0];
    }
  }

  /** A summary determines the list it was made from. */
  lemma SummaryInjective(a: seq<string>, b: seq<string>, none: string, c: char, tail: string)
    requires Printable(a, none) && Printable(b, none)
    requires Separable(a, c) && Separable(b, c)
    requires c !in tail
    requires Summary(a, none, [c] + tail) == Summary(b, none, [c] + tail)
    ensures a == b
  {
    SummaryNone(a, none, [c] + tail);
    SummaryNone(b, none, [c] + tail);
    if |a| > 0 && |b| > 0 {
      JoinInjective(a, b, c, tail);
    }
  }

  // ---------------------------------------------------------------------
  // Hexadecimal rendering (Go's %x and %02x verbs on a byte)

  /** The lower-case hexadecimal digit of n. */
  function HexDigit(n: nat): (c: char)
    requires n < 16
    ensures c != ':' && c != ' ' && c != ','
  {
    "0123456789abcdef"[n]
  }

  lemma HexDigitInjective(m: nat, n: nat)
    requires m < 16 && n < 16
    requires HexDigit(m) == HexDigit(n)
    ensures m == n
  {
  }

  /** %x: lower-case hexadecimal without padding, so 0x00 is "0". */
  function Hex(b: bv8): (s: string)
    ensures |s| == (if b < 16 then 1 else 2)
    ensures ':' !in s
  {
    HexOf(b as int)
  }

  function HexOf(n: nat): (s: string)
    requires n < 256
    ensures |s| == (if n < 16 then 1 else 2)
    ensures ':' !in s
  {
    if n < 16 then [HexDigit(n)] else [HexDigit(n / 16), HexDigit(n % 16)]
  }

  /** %x renders different bytes differently. */
  lemma HexInjective(a: bv8, b: bv8)
    requires Hex(a) == Hex(b)
    ensures a == b
  {
    HexOfInjective(a as int, b as int);
    ByteOfInt(a, b);
  }

  lemma HexOfInjective(m: nat, n: nat)
    requires m < 256 && n < 256
    requires HexOf(m) == HexOf(n)
    ensures m == n
  {
    if m < 16 {
      assert HexOf(m)[0] == HexOf(n)[0];
      HexDigitInjective(m, n);
    } else {
      assert HexOf(m)[0] == HexOf(n)[0] && HexOf(m)[1] == HexOf(n)[1];
      HexDigitInjective(m / 16, n / 16);
      HexDigitInjective(m % 16, n % 16);
      DigitsDetermine(m, n);
    }
  }

  lemma DigitsDetermine(m: nat, n: nat)
    requires m / 16 == n / 16 && m % 16 == n % 16
    ensures m == n
  {
  }

  lemma ByteOfInt(a: bv8, b: bv8)
    requires a as int == b as int
    ensures a == b
  {
  }

  /** The byte whose unsigned value is n. */
  function ByteOf(n: nat): (b: bv8)
    requires n < 256
    ensures b as int == n
  {
    ByteOfNat(n);
    n as bv8
  }

  /** Casting n to a byte keeps its value: the byte put together from the
      two hexadecimal digits of n has value n, and casting its value back
      gives that byte. */
  lemma ByteOfNat(n: nat)
    requires n < 256
    ensures (n as bv8) as int == n
  {
    var h, l := Nibble(n / 16), Nibble(n % 16);
    NibblesCompose(h, l);
    var b := (h << 4) | l;
    assert (b as int) as bv8 == b;
  }

  /** The byte whose value is the digit k. */
  function Nibble(k: nat): (b: bv8)
    requires k < 16
    ensures b as int == k && b < 16
  {
    if k == 0 then 0x0 else if k == 1 then 0x1 else if k == 2 then 0x2 else if k == 3 then 0x3
    else if k == 4 then 0x4 else if k == 5 then 0x5 else if k == 6 then 0x6 else if k == 7 then 0x7
    else if k == 8 then 0x8 else if k == 9 then 0x9 else if k == 10 then 0xA else if k == 11 then 0xB
    else if k == 12 then 0xC else if k == 13 then 0xD else if k == 14 then 0xE else 0xF
  }

  lemma NibblesCompose(h: bv8, l: bv8)
    requires h < 16 && l < 16
    ensures ((h << 4) | l) as int == h as int * 16 + l as int
  {
  }

  /** %02x: exactly two lower-case hexadecimal digits. */
  function Hex2(b: bv8): (s: string)
    ensures |s| == 2
  {
    Hex2Of(b as int)
  }

  function Hex2Of(n: nat): (s: string)
    requires n < 256
    ensures |s| == 2
  {
    [HexDigit(n / 16), HexDigit(n % 16)]
  }

  lemma Hex2Injective(a: bv8, b: bv8)
    requires Hex2(a) == Hex2(b)
    ensures a == b
  {
    Hex2OfInjective(a as int, b as int);
    ByteOfInt(a, b);
  }

  lemma Hex2OfInjective(m: nat, n: nat)
    requires m < 256 && n < 256
    requires Hex2Of(m) == Hex2Of(n)
    ensures m == n
  {
    assert Hex2Of(m)[0] == Hex2Of(n)[0] && Hex2Of(m)[1] == Hex2Of(n)[1];
    HexDigitInjective(m / 16, n / 16);
    HexDigitInjective(m % 16, n % 16);
    DigitsDetermine(m, n);
  }

  // ---------------------------------------------------------------------
  // Adjacent slices

  lemma Glue(b: seq<bv8>, i: nat, j: nat, k: nat)
    requires i <= j <= k <= |b|
    ensures b[i..j] + b[j..k] == b[i..k]
  {
  }

  lemma GlueByte(b: seq<bv8>, i: nat, j: nat)
    requires i <= j < |b|
    ensures b[i..j] + [b[j]] == b[i..j + 1]
  {
  }
}

=== FILE: codec.dfy ===
/** The field codecs shared by both memory maps (common/types.go): fixed
    width byte arrays, big-endian 16-bit integers, the linearly scaled
    physical quantities as exact rationals, trimmed display strings, the
    date code, the vendor OUI, and the length-checked rebuild of a field
    from raw bytes. */
module Codec {
  import opened Base

  type Bytes2 = s: seq<bv8> | |s| == 2 witness [0, 0]
  type Bytes3 = s: seq<bv8> | |s| == 3 witness [0, 0, 0]
  type Bytes4 = s: seq<bv8> | |s| == 4 witness [0, 0, 0, 0]
  type Bytes8 = s: seq<bv8> | |s| == 8 witness [0, 0, 0, 0, 0, 0, 0, 0]
  type Bytes16 = s: seq<bv8> | |s| == 16 witness seq(16, i => 0 as bv8)

  // ---------------------------------------------------------------------
  // One-byte values: ValueM, ValueKm, ValuePerc and Value100Mbps

  /** ValueM, ValueKm and ValuePerc: the byte itself, in metres, kilometres
      or percent. */
  function ByteValue(v: bv8): (n: nat)
    ensures n < 256
    ensures n as bv8 == v
  {
    v as int
  }

  /** Value100Mbps: the byte counts units of 100 Mb/s. */
  function MegabitsPerSecond(v: bv8): (r: nat)
    ensures r <= 25500
    ensures r % 100 == 0
    ensures (r / 100) as bv8 == v
  {
    (v as int) * 100
  }

  // ---------------------------------------------------------------------
  // Big-endian 16-bit integers

  /** UInt16BE.Uint16: uint16(u[0])<<8 | uint16(u[1]). */
  function Uint16(u: Bytes2): (r: nat)
    ensures r < 0x1_0000
    ensures r == u[0] as int * 256 + u[1] as int
  {
    (((u[0] as bv16) << 8) | (u[1] as bv16)) as int
  }

  /** The two bytes that encode v, most significant first. */
  function Uint16Bytes(v: nat): (u: Bytes2)
    requires v < 0x1_0000
    ensures u[0] as int == v / 256 && u[1] as int == v % 256
  {
    [ByteOf(v / 256), ByteOf(v % 256)]
  }

  lemma Uint16RoundTrip(u: Bytes2)
    ensures Uint16Bytes(Uint16(u)) == u
  {
    BytesOfValue(u, Uint16(u));
  }

  /** The bytes of u[0]*256 + u[1] are u. */
  lemma BytesOfValue(u: Bytes2, n: nat)
    requires n == u[0] as int * 256 + u[1] as int
    ensures n < 0x1_0000 && Uint16Bytes(n) == u
  {
    assert n / 256 == u[0] as int && n % 256 == u[1] as int;
  }

  lemma Uint16BytesRoundTrip(v: nat)
    requires v < 0x1_0000
    ensures Uint16(Uint16Bytes(v)) == v
  {
  }

  /** Two byte pairs with the same unsigned value are the same pair. */
  lemma Uint16Injective(a: Bytes2, b: Bytes2)
    requires Uint16(a) == Uint16(b)
    ensures a == b
  {
    Uint16RoundTrip(a);
    Uint16RoundTrip(b);
  }

  /** Int16BE.Int16 and TemperatureQ8_8BE.Raw: int16(uint16(u[0])<<8 |
      uint16(u[1])), the two's complement reading of the same 16 bits. */
  function Int16(u: Bytes2): (r: int)
    ensures -0x8000 <= r < 0x8000
    ensures r == if u[0] < 0x80 then Uint16(u) else Uint16(u) - 0x1_0000
    ensures r < 0 <==> Bit(u[0], 7)
  {
    var w := ((u[0] as bv16) << 8) | (u[1] as bv16);
    if w & 0x8000 == 0 then w as int else w as int - 0x1_0000
  }

  /** The two bytes that encode the 16-bit signed value v. */
  function Int16Bytes(v: int): (u: Bytes2)
    requires -0x8000 <= v < 0x8000
  {
    Uint16Bytes(if v < 0 then v + 0x1_0000 else v)
  }

  lemma Int16RoundTrip(u: Bytes2)
    ensures Int16Bytes(Int16(u)) == u
  {
    Uint16RoundTrip(u);
  }

  lemma Int16BytesRoundTrip(v: int)
    requires -0x8000 <= v < 0x8000
    ensures Int16(Int16Bytes(v)) == v
  {
    var n := if v < 0 then v + 0x1_0000 else v;
    Uint16BytesRoundTrip(n);
    var u := Int16Bytes(v);
    assert u[0] < 0x80 <==> n < 0x8000;
  }

  // ---------------------------------------------------------------------
  // Scaled physical quantities, stated exactly

  /** TemperatureQ8_8BE.Celsius: the signed value over 256. */
  function Celsius(t: Bytes2): (c: real)
    ensures -128.0 <= c <= 127.99609375
  {
    var n := Int16(t);
    assert -32768.0 <= n as real <= 32767.0;
    n as real / 256.0
  }

  /** PowerMilliWattBE.MilliWatt: one unit is 0.1 uW. */
  function MilliWatt(p: Bytes2): (mw: real)
    ensures 0.0 <= mw <= 6.5535
  {
    var n := Uint16(p);
    assert 0.0 <= n as real <= 65535.0;
    n as real / 10000.0
  }

  /** VoltageVoltBE.Volts: one unit is 100 uV. */
  function Volts(v: Bytes2): (volts: real)
    ensures 0.0 <= volts <= 6.5535
  {
    var n := Uint16(v);
    assert 0.0 <= n as real <= 65535.0;
    n as real / 10000.0
  }

  /** CurrentMilliAmpBE.MilliAmp: one unit is 2 uA. */
  function MilliAmp(c: Bytes2): (ma: real)
    ensures 0.0 <= ma <= 131.07
  {
    var n := Uint16(c);
    assert 0.0 <= n as real <= 65535.0;
    n as real / 500.0
  }

  /** WavelengthNanometerBE.Nanometers: one unit is 0.05 nm. */
  function WavelengthNm(w: Bytes2): (nm: real)
    ensures 0.0 <= nm <= 3276.75
  {
    var n := Uint16(w);
    assert 0.0 <= n as real <= 65535.0;
    n as real / 20.0
  }

  /** ToleranceNanometerBE.Nanometers: one unit is 0.005 nm. */
  function ToleranceNm(w: Bytes2): (nm: real)
    ensures 0.0 <= nm <= 327.675
  {
    var n := Uint16(w);
    assert 0.0 <= n as real <= 65535.0;
    n as real / 200.0
  }

  // No scaled value loses information: multiplying back by the unit gives
  // exactly the raw value, a whole number, and re-encoding that number
  // gives back the raw bytes.

  lemma CelsiusRecoversRaw(a: Bytes2)
    ensures Celsius(a) * 256.0 == Int16(a) as real
    ensures (Celsius(a) * 256.0).Floor == Int16(a)
    ensures Int16Bytes((Celsius(a) * 256.0).Floor) == a
  {
    assert Celsius(a) * 256.0 == Int16(a) as real;
    Int16RoundTrip(a);
  }

  lemma MilliWattRecoversRaw(a: Bytes2)
    ensures MilliWatt(a) * 10000.0 == Uint16(a) as real
    ensures (MilliWatt(a) * 10000.0).Floor == Uint16(a)
    ensures Uint16Bytes((MilliWatt(a) * 10000.0).Floor) == a
  {
    assert MilliWatt(a) * 10000.0 == Uint16(a) as real;
    Uint16RoundTrip(a);
  }

  lemma VoltsRecoversRaw(a: Bytes2)
    ensures Volts(a) * 10000.0 == Uint16(a) as real
    ensures (Volts(a) * 10000.0).Floor == Uint16(a)
    ensures Uint16Bytes((Volts(a) * 10000.0).Floor) == a
  {
    assert Volts(a) * 10000.0 == Uint16(a) as real;
    Uint16RoundTrip(a);
  }

  lemma MilliAmpRecoversRaw(a: Bytes2)
    ensures MilliAmp(a) * 500.0 == Uint16(a) as real
    ensures (MilliAmp(a) * 500.0).Floor == Uint16(a)
    ensures Uint16Bytes((MilliAmp(a) * 500.0).Floor) == a
  {
    assert MilliAmp(a) * 500.0 == Uint16(a) as real;
    Uint16RoundTrip(a);
  }

  lemma WavelengthNmRecoversRaw(a: Bytes2)
    ensures WavelengthNm(a) * 20.0 == Uint16(a) as real
    ensures (WavelengthNm(a) * 20.0).Floor == Uint16(a)
    ensures Uint16Bytes((WavelengthNm(a) * 20.0).Floor) == a
  {
    assert WavelengthNm(a) * 20.0 == Uint16(a) as real;
    Uint16RoundTrip(a);
  }

  lemma ToleranceNmRecoversRaw(a: Bytes2)
    ensures ToleranceNm(a) * 200.0 == Uint16(a) as real
    ensures (ToleranceNm(a) * 200.0).Floor == Uint16(a)
    ensures Uint16Bytes((ToleranceNm(a) * 200.0).Floor) == a
  {
    assert ToleranceNm(a) * 200.0 == Uint16(a) as real;
    Uint16RoundTrip(a);
  }

  // ---------------------------------------------------------------------
  // Fixed-length strings: String2, String4 and String16

  /** The ASCII white space removed by Go's strings.TrimSpace. */
  predicate IsSpace(c: bv8)
  {
    c == 0x20 || c == 0x09 || c == 0x0A || c == 0x0B || c == 0x0C || c == 0x0D
  }

  /** Drops leading white space. */
  function TrimLeft(s: seq<bv8>): (r: seq<bv8>)
    ensures |r| <= |s| && r == s[|s| - |r|..]
    ensures |r| > 0 ==> !IsSpace(r[0])
    ensures forall k :: 0 <= k < |s| - |r| ==> IsSpace(s[k])
  {
    if |s| > 0 && IsSpace(s[0]) then
      var t := TrimLeft(s[1..]);
      assert forall k :: 1 <= k < |s| - |t| ==> s[k] == s[1..][k - 1];
      t
    else s
  }

  /** Drops trailing white space. */
  function TrimRight(s: seq<bv8>): (r: seq<bv8>)
    ensures |r| <= |s| && r == s[..|r|]
    ensures |r| > 0 ==> !IsSpace(r[|r| - 1])
    ensures forall k :: |r| <= k < |s| ==> IsSpace(s[k])
  {
    if |s| > 0 && IsSpace(s[|s| - 1]) then TrimRight(s[..|s| - 1]) else s
  }

  /** Go's strings.TrimSpace on ASCII text: the result is the slice of s
      that starts after the leading white space and leaves only white space
      after it. */
  function TrimSpace(s: seq<bv8>): (r: seq<bv8>)
    ensures |r| > 0 ==> !IsSpace(r[0]) && !IsSpace(r[|r| - 1])
    ensures var i := |s| - |TrimLeft(s)|;
              && i + |r| <= |s| && r == s[i..i + |r|]
              && (forall k :: 0 <= k < i ==> IsSpace(s[k]))
              && (forall k :: i + |r| <= k < |s| ==> IsSpace(s[k]))
  {
    var l := TrimLeft(s);
    var r := TrimRight(l);
    TrimSpaceSlice(s, l, r);
    r
  }

  lemma TrimSpaceSlice(s: seq<bv8>, l: seq<bv8>, r: seq<bv8>)
    requires |l| <= |s| && l == s[|s| - |l|..]
    requires |r| <= |l| && r == l[..|r|]
    requires forall k :: |r| <= k < |l| ==> IsSpace(l[k])
    ensures var i := |s| - |l|; r == s[i..i + |r|] && forall k :: i + |r| <= k < |s| ==> IsSpace(s[k])
  {
    var i := |s| - |l|;
    forall k | i + |r| <= k < |s|
      ensures IsSpace(s[k])
    {
      assert s[k] == l[k - i];
    }
  }

  /** Trimming an already trimmed text changes nothing. */
  lemma TrimSpaceIdempotent(s: seq<bv8>)
    ensures TrimSpace(TrimSpace(s)) == TrimSpace(s)
  {
    var t := TrimSpace(s);
    assert TrimLeft(t) == t;
    assert TrimRight(t) == t;
  }

  /** Padding comes off and nothing else: text that neither starts nor ends
      with white space survives TrimSpace whatever white space follows it. */
  lemma TrimPadded(t: seq<bv8>, pad: seq<bv8>)
    requires |t| > 0 && !IsSpace(t[0]) && !IsSpace(t[|t| - 1])
    requires forall k :: 0 <= k < |pad| ==> IsSpace(pad[k])
    ensures TrimSpace(t + pad) == t
  {
    var s := t + pad;
    assert TrimLeft(s) == s;
    TrimRightPadded(t, pad);
  }

  lemma {:induction false} TrimRightPadded(t: seq<bv8>, pad: seq<bv8>)
    requires |t| > 0 && !IsSpace(t[|t| - 1])
    requires forall k :: 0 <= k < |pad| ==> IsSpace(pad[k])
    ensures TrimRight(t + pad) == t
  {
    if |pad| == 0 {
      assert t + pad == t;
    } else {
      var s := t + pad;
      assert s[..|s| - 1] == t + pad[..|pad| - 1];
      TrimRightPadded(t, pad[..|pad| - 1]);
    }
  }

  /** String2/String4/String16.String: the raw bytes without the white space
      that pads them. The raw bytes themselves are kept in the record. */
  function Display(s: seq<bv8>): (text: string)
    ensures |text| <= |s|
    ensures |text| > 0 ==> !IsSpaceChar(text[0]) && !IsSpaceChar(text[|text| - 1])
  {
    var t := TrimSpace(s);
    var text := Chars(t);
    if |t| == 0 then text
    else
      SpaceByteChar(t[0], text[0]);
      SpaceByteChar(t[|t| - 1], text[|text| - 1]);
      text
  }

  /** A text without surrounding white space reads back from its bytes
      however many pad spaces follow it. */
  lemma DisplayPadded(t: string, n: nat)
    requires forall i :: 0 <= i < |t| ==> t[i] as int < 256
    requires |t| > 0 && !IsSpaceChar(t[0]) && !IsSpaceChar(t[|t| - 1])
    ensures Display(Ascii(t) + seq(n, i => 0x20 as bv8)) == t
  {
    var b := Ascii(t);
    SpaceByteChar(b[0], t[0]);
    SpaceByteChar(b[|b| - 1], t[|t| - 1]);
    TrimPadded(b, seq(n, i => 0x20 as bv8));
  }

  lemma SpaceByteChar(c: bv8, ch: char)
    requires c as int == ch as int
    ensures IsSpace(c) <==> IsSpaceChar(ch)
  {
  }

  /** IsSpace on a character rather than a byte. */
  predicate IsSpaceChar(c: char)
  {
    c as int in {0x20, 0x09, 0x0A, 0x0B, 0x0C, 0x0D}
  }

  // ---------------------------------------------------------------------
  // DateCode and VendorOUI

  /** DateCode.String: "20" + YY + "-" + MM + "-" + DD from the first six
      bytes; the lot code in bytes 6 and 7 is not shown. */
  function DateString(d: Bytes8): (r: string)
    ensures |r| == 10
    ensures r[..2] == "20" && r[4] == '-' && r[7] == '-'
    ensures r[2..4] == Chars(d[0..2]) && r[5..7] == Chars(d[2..4]) && r[8..10] == Chars(d[4..6])
  {
    "20" + Chars(d[0..2]) + "-" + Chars(d[2..4]) + "-" + Chars(d[4..6])
  }

  /** Two date codes render alike exactly when their first six bytes agree. */
  lemma DateStringDeterminesDate(a: Bytes8, b: Bytes8)
    ensures DateString(a) == DateString(b) <==> a[..6] == b[..6]
  {
    if DateString(a) == DateString(b) {
      var ra, rb := DateString(a), DateString(b);
      assert ra[2..4] == Chars(a[0..2]) && rb[2..4] == Chars(b[0..2]);
      assert ra[5..7] == Chars(a[2..4]) && rb[5..7] == Chars(b[2..4]);
      assert ra[8..10] == Chars(a[4..6]) && rb[8..10] == Chars(b[4..6]);
      CharsInjective(a[0..2], b[0..2]);
      CharsInjective(a[2..4], b[2..4]);
      CharsInjective(a[4..6], b[4..6]);
      assert a[..6] == a[0..2] + a[2..4] + a[4..6];
      assert b[..6] == b[0..2] + b[2..4] + b[4..6];
    }
    if a[..6] == b[..6] {
      assert a[0..2] == b[0..2] && a[2..4] == b[2..4] && a[4..6] == b[4..6];
    }
  }

  /** VendorOUI.String: the three octets in unpadded lower-case hexadecimal
      separated by colons (0x00 shows as "0"). */
  function OuiString(v: Bytes3): (r: string)
    ensures 5 <= |r| <= 8
    ensures |Split(r, ':')| == 3
  {
    var r := Hex(v[0]) + ":" + Hex(v[1]) + ":" + Hex(v[2]);
    assert Split(r, ':') == [Hex(v[0]), Hex(v[1]), Hex(v[2])] by {
      SplitJoinChar([Hex(v[0]), Hex(v[1]), Hex(v[2])], ':');
      JoinThree(Hex(v[0]), Hex(v[1]), Hex(v[2]), ":");
    }
    r
  }

  /** The rendered OUI determines the three octets: the colon-separated
      parts are exactly the three renderings, and %x is injective. */
  lemma OuiStringInjective(a: Bytes3, b: Bytes3)
    requires OuiString(a) == OuiString(b)
    ensures a == b
  {
    OuiParts(a);
    OuiParts(b);
    var pa, pb := Split(OuiString(a), ':'), Split(OuiString(b), ':');
    assert pa[0] == pb[0] && pa[1] == pb[1] && pa[2] == pb[2];
    HexInjective(a[0], b[0]);
    HexInjective(a[1], b[1]);
    HexInjective(a[2], b[2]);
  }

  lemma OuiParts(v: Bytes3)
    ensures Split(OuiString(v), ':') == [Hex(v[0]), Hex(v[1]), Hex(v[2])]
  {
    SplitJoinChar([Hex(v[0]), Hex(v[1]), Hex(v[2])], ':');
    JoinThree(Hex(v[0]), Hex(v[1]), Hex(v[2]), ":");
  }

  // ---------------------------------------------------------------------
  // Rebuilding a field from raw bytes (the tail of every UnmarshalJSON)

  /** The length check and the copy loop that every multi-byte type runs on
      the bytes decoded from its saved hex payload: too few bytes is an
      error, otherwise the first `width` bytes are copied and the rest
      ignored. */
  method Rebuild(width: nat, b: seq<bv8>) returns (r: Result<seq<bv8>>)
    requires width in {2, 3, 4, 8, 16}
    ensures r.Err? <==> |b| < width
    ensures r.Err? ==> r.error == FieldTooShort(width, |b|)
    ensures r.Ok? ==> |r.value| == width && r.value == b[..width]
    ensures |b| == width ==> r == Ok(b)
  {
    if |b| < width {
      return Err(FieldTooShort(width, |b|));
    }
    var field: seq<bv8> := seq(width, i => 0);
    var i := 0;
    while i < width
      invariant 0 <= i <= width
      invariant |field| == width
      invariant field[..i] == b[..i]
    {
      field := field[i := b[i]];
      i := i + 1;
    }
    assert field == field[..width];
    assert |b| == width ==> b[..width] == b;
    return Ok(field);
  }

  /** ValueM, ValueKm, Value100Mbps and ValuePerc.UnmarshalJSON as written:
      the first decoded byte is taken without a length check, so an empty
      hex string panics with an index out of range. */
  function RebuildByteAsWritten(b: seq<bv8>): (r: Result<bv8>)
    ensures r.Err? <==> |b| == 0
    ensures r.Err? ==> r.error == IndexOutOfRange(0, 0)
    ensures r.Ok? ==> [r.value] == b[..1]
  {
    if |b| == 0 then Err(IndexOutOfRange(0, |b|)) else Ok(b[0])
  }

  /** The one-byte types with the length check every wider type makes:
      fewer than one byte is "length is shorter then" the type. */
  function RebuildByte(b: seq<bv8>): (r: Result<bv8>)
    ensures r.Err? <==> |b| < 1
    ensures r.Err? ==> r.error == FieldTooShort(1, |b|)
    ensures r.Ok? ==> [r.value] == b[..1]
  {
    if |b| < 1 then Err(FieldTooShort(1, |b|)) else Ok(b[0])
  }

  /** The one byte valueToJSON writes as hex reads back as the value. */
  lemma RebuildByteRoundTrip(v: bv8)
    ensures RebuildByte([v]) == Ok(v)
    ensures RebuildByteAsWritten([v]) == Ok(v)
  {
  }

  /** The length check changes only the empty input, which panics as
      written and becomes the short-field error. */
  lemma RebuildByteFixesEmptyOnly(b: seq<bv8>)
    ensures RebuildByteAsWritten(b) != RebuildByte(b) <==> |b| == 0
    ensures |b| == 0 ==> RebuildByteAsWritten(b) == Err(IndexOutOfRange(0, 0))
    ensures |b| == 0 ==> RebuildByte(b) == Err(FieldTooShort(1, 0))
  {
  }
}

=== FILE: sff.dfy ===
/** Module-family detection and the decoding step of Read: which memory map a
    buffer holds, decided from its length and three signature bytes, and the
    module record that results. */
module Sff {
  import opened Base
  import Sff8079Model
  import Sff8636Model

  /** Type: the family of a module. */
  datatype Type = TypeUnknown | TypeSff8079 | TypeSff8636

  /** The text the package uses for each family. */
  function TypeName(t: Type): string
  {
    match t
    case TypeUnknown => "Unknown"
    case TypeSff8079 => "SFF-8079"
    case TypeSff8636 => "SFF-8636"
  }

  /** The shortest buffer GetType looks at. */
  const MinimumSize: nat := 256

  /** GetType: a buffer shorter than 256 bytes is refused; the SFP signature
      of bytes 0 and 1 is tested first and wins; then the QSFP identifier at
      byte 128. The family comes with an error exactly when it is unknown. */
  function GetType(eeprom: seq<bv8>): (r: (Type, Option<Error>))
    ensures |eeprom| < MinimumSize ==> r == (TypeUnknown, Some(SizeTooSmall(MinimumSize, |eeprom|)))
    ensures r.0 == TypeSff8079 <==> |eeprom| >= MinimumSize && Sff8079Model.Signature(eeprom)
    ensures r.0 == TypeSff8636 <==>
      |eeprom| >= MinimumSize && !Sff8079Model.Signature(eeprom) && Sff8636Model.Signature(eeprom)
    ensures r.1.None? <==> r.0 != TypeUnknown
    ensures |eeprom| >= MinimumSize && r.0 == TypeUnknown ==> r.1 == Some(UnknownType)
  {
    if |eeprom| < MinimumSize then (TypeUnknown, Some(SizeTooSmall(MinimumSize, |eeprom|)))
    else if Sff8079Model.Signature(eeprom) then (TypeSff8079, None)
    else if Sff8636Model.Signature(eeprom) then (TypeSff8636, None)
    else (TypeUnknown, Some(UnknownType))
  }

  /** Module: the family tag and at most one decoded record. */
  datatype Module = Module(
    typ: Type,
    sff8079: Option<Sff8079Model.Sff8079>,
    sff8636: Option<Sff8636Model.Sff8636>)

  /** The tag names the record that is present, and only that one. */
  predicate TagMatches(m: Module)
  {
    match m.typ
    case TypeSff8079 => m.sff8079.Some? && m.sff8636.None?
    case TypeSff8636 => m.sff8636.Some? && m.sff8079.None?
    case TypeUnknown => false
  }

  /** Read, once the reader has run: a reader error is passed on, then the
      detection error, then the chosen decoder's error; otherwise the module
      carries the decoded record under its family's tag. */
  function Read(input: Result<seq<bv8>>): (r: Result<Module>)
    ensures input.Err? ==> r == Err(input.error)
    ensures input.Ok? && GetType(input.value).1.Some? ==> r == Err(GetType(input.value).1.value)
    ensures r.Ok? ==> TagMatches(r.value)
    ensures r.Ok? && r.value.typ == TypeSff8079 ==>
      GetType(input.value).0 == TypeSff8079 && Sff8079Model.Decode(input.value) == Ok(r.value.sff8079.value)
    ensures r.Ok? && r.value.typ == TypeSff8636 ==>
      GetType(input.value).0 == TypeSff8636 && Sff8636Model.Decode(input.value) == Ok(r.value.sff8636.value)
  {
    match input
    case Err(e) => Err(e)
    case Ok(eeprom) =>
      var (t, err) := GetType(eeprom);
      if err.Some? then Err(err.value)
      else match t
        case TypeSff8079 =>
          (match Sff8079Model.Decode(eeprom)
           case Err(e) => Err(e)
           case Ok(m) => Ok(Module(TypeSff8079, Some(m), None)))
        case TypeSff8636 =>
          (match Sff8636Model.Decode(eeprom)
           case Err(e) => Err(e)
           case Ok(m) => Ok(Module(TypeSff8636, None, Some(m))))
        case TypeUnknown => Err(UnknownType)
  }

  /** The family depends on the length and on bytes 0, 1 and 128 only (the
      length only through the size error when the buffer is short). */
  lemma GetTypeReadsSignatureBytes(a: seq<bv8>, b: seq<bv8>)
    requires |a| < MinimumSize ==> |b| == |a|
    requires |a| >= MinimumSize ==> |b| >= MinimumSize && a[0] == b[0] && a[1] == b[1] && a[128] == b[128]
    ensures GetType(a) == GetType(b)
  {
  }

  /** A buffer carrying both signatures is an SFF-8079 module. */
  lemma Sff8079SignatureWins(eeprom: seq<bv8>)
    requires |eeprom| >= MinimumSize && Sff8079Model.Signature(eeprom) && Sff8636Model.Signature(eeprom)
    ensures GetType(eeprom) == (TypeSff8079, None)
  {
  }

  /** The SFF-8636 decoder repeats the checks GetType made, so once a buffer
      is detected as SFF-8636 reading it cannot fail. */
  lemma Sff8636ReadSucceeds(eeprom: seq<bv8>)
    requires GetType(eeprom).0 == TypeSff8636
    ensures Read(Ok(eeprom)).Ok? && Read(Ok(eeprom)).value.typ == TypeSff8636
  {
  }

  /** The SFF-8079 decoder asks for 512 bytes where GetType asked for 256:
      a detected SFF-8079 buffer is read exactly when it is that long. */
  lemma Sff8079ReadNeedsTwoPages(eeprom: seq<bv8>)
    requires GetType(eeprom).0 == TypeSff8079
    ensures Read(Ok(eeprom)).Ok? <==> |eeprom| >= Sff8079Model.MinimumSize
    ensures |eeprom| < Sff8079Model.MinimumSize ==>
      Read(Ok(eeprom)) == Err(SizeTooSmall(Sff8079Model.MinimumSize, |eeprom|))
  {
  }

  /** Reading succeeds exactly for the buffers one of the two decoders
      accepts under the family GetType chose. */
  lemma ReadSucceedsIff(eeprom: seq<bv8>)
    ensures Read(Ok(eeprom)).Ok? <==>
      |eeprom| >= MinimumSize &&
      (if Sff8079Model.Signature(eeprom) then |eeprom| >= Sff8079Model.MinimumSize
       else Sff8636Model.Signature(eeprom))
  {
    if |eeprom| >= MinimumSize && Sff8079Model.Signature(eeprom) {
      Sff8079ReadNeedsTwoPages(eeprom);
    } else if |eeprom| >= MinimumSize && Sff8636Model.Signature(eeprom) {
      Sff8636ReadSucceeds(eeprom);
    }
  }
}

=== FILE: sff8079_model.dfy ===
/** The SFF-8079 memory map of an SFP module, as the SFF-8472 standard lays
    it out: the 256 bytes at address A0h followed by the first 128 bytes at
    address A2h. The record is read off the buffer by explicit offsets. */
module Sff8079Model {
  import opened Base
  import opened Codec
  import opened Sff8079Options

  type Bytes7 = s: seq<bv8> | |s| == 7 witness seq(7, i => 0 as bv8)
  type Bytes22 = s: seq<bv8> | |s| == 22 witness seq(22, i => 0 as bv8)
  type Bytes24 = s: seq<bv8> | |s| == 24 witness seq(24, i => 0 as bv8)
  type Bytes96 = s: seq<bv8> | |s| == 96 witness seq(96, i => 0 as bv8)
  type Bytes128 = s: seq<bv8> | |s| == 128 witness seq(128, i => 0 as bv8)

  /** The Sff8079 record, field by field in memory order. */
  datatype Sff8079 = Sff8079(
    identifier: bv8,
    extIdentifier: bv8,
    connector: bv8,
    transceiver: Bytes8,
    encoding: bv8,
    brNominal: bv8,
    rateIdentifier: bv8,
    lengthSmfKm: bv8,
    lengthSmfM: bv8,
    length50umM: bv8,
    length625umM: bv8,
    lengthCopper: bv8,
    lengthOm3: bv8,
    vendor: Bytes16,
    transcComp: bv8,
    vendorOui: Bytes3,
    vendorPn: Bytes16,
    vendorRev: Bytes4,
    laserWavelength: Bytes2,
    unallocated: bv8,
    ccBase: bv8,
    options: Options,
    brMax: bv8,
    brMin: bv8,
    vendorSn: Bytes16,
    dateCode: Bytes8,
    diagMonitType: bv8,
    enhancedOpts: bv8,
    sff8472Comp: bv8,
    ccExt: bv8,
    vendorSpec1: Bytes24,
    vendorAristaSa: bv8,
    vendorSpec2: Bytes7,
    reserved: Bytes128,
    a2hReserved0: Bytes96,
    temperature: Bytes2,
    vcc: Bytes2,
    txBias: Bytes2,
    txPower: Bytes2,
    rxPower: Bytes2,
    a2hReserved1: Bytes22)

  /** The bytes the record spans, and the buffer size Decode asks for. */
  const RecordSize: nat := 384
  const MinimumSize: nat := 512

  /** The identifier (byte 0) names an SFP, GBIC or soldered module, and the
      extended identifier (byte 1) says the serial ID is defined by two-wire
      interface. */
  predicate Signature(eeprom: seq<bv8>)
    requires |eeprom| >= 2
  {
    (eeprom[0] == 2 || eeprom[0] == 3 || eeprom[0] == 0x0B) && eeprom[1] == 4
  }

  /** The record laid over the first 384 bytes of a buffer. */
  function Fields(b: seq<bv8>): Sff8079
    requires |b| >= RecordSize
  {
    Sff8079(
      b[0],
      b[1],
      b[2],
      b[3..11],
      b[11],
      b[12],
      b[13],
      b[14],
      b[15],
      b[16],
      b[17],
      b[18],
      b[19],
      b[20..36],
      b[36],
      b[37..40],
      b[40..56],
      b[56..60],
      b[60..62],
      b[62],
      b[63],
      DecodeOptions(b[64..66]),
      b[66],
      b[67],
      b[68..84],
      b[84..92],
      b[92],
      b[93],
      b[94],
      b[95],
      b[96..120],
      b[120],
      b[121..128],
      b[128..256],
      b[256..352],
      b[352..354],
      b[354..356],
      b[356..358],
      b[358..360],
      b[360..362],
      b[362..384])
  }

  // The record's bytes, in four stretches: the base and extended ID fields
  // of A0h, the vendor-specific bytes, the reserved upper half of A0h, and
  // the diagnostics of A2h.

  function BaseIdBytes(s: Sff8079): (r: seq<bv8>)
    ensures |r| == 64
  {
    [s.identifier] + [s.extIdentifier] + [s.connector] + s.transceiver + [s.encoding]
    + [s.brNominal] + [s.rateIdentifier] + [s.lengthSmfKm] + [s.lengthSmfM]
    + [s.length50umM] + [s.length625umM] + [s.lengthCopper] + [s.lengthOm3] + s.vendor
    + [s.transcComp] + s.vendorOui + s.vendorPn + s.vendorRev + s.laserWavelength
    + [s.unallocated] + [s.ccBase]
  }

  function ExtendedIdBytes(s: Sff8079): (r: seq<bv8>)
    ensures |r| == 64
  {
    Raw(s.options) + [s.brMax] + [s.brMin] + s.vendorSn + s.dateCode + [s.diagMonitType]
    + [s.enhancedOpts] + [s.sff8472Comp] + [s.ccExt] + s.vendorSpec1 + [s.vendorAristaSa]
    + s.vendorSpec2
  }

  function ReservedBytes(s: Sff8079): (r: seq<bv8>)
    ensures |r| == 128
  {
    s.reserved
  }

  function DiagnosticsBytes(s: Sff8079): (r: seq<bv8>)
    ensures |r| == 128
  {
    s.a2hReserved0 + s.temperature + s.vcc + s.txBias + s.txPower + s.rxPower
    + s.a2hReserved1
  }

  /** The bytes a record stands for: the inverse of Fields. */
  function Encode(s: Sff8079): (b: seq<bv8>)
    ensures |b| == RecordSize
  {
    BaseIdBytes(s) + ExtendedIdBytes(s) + ReservedBytes(s) + DiagnosticsBytes(s)
  }

  /** Sff8079 Decode: a buffer shorter than 512 bytes is refused, then one
      without the SFP signature; otherwise the record is the buffer's first
      384 bytes, unchanged. */
  function Decode(eeprom: seq<bv8>): (r: Result<Sff8079>)
    ensures |eeprom| < MinimumSize <==> r == Err(SizeTooSmall(MinimumSize, |eeprom|))
    ensures r.Err? && r.error.UnknownStandard? <==> |eeprom| >= MinimumSize && !Signature(eeprom)
    ensures r.Err? && r.error.UnknownStandard? ==> r.error.identifier == eeprom[0]
    ensures r.Ok? <==> |eeprom| >= MinimumSize && Signature(eeprom)
    ensures r.Ok? ==> Encode(r.value) == eeprom[..RecordSize]
    ensures r.Ok? ==> (
      && r.value.temperature == eeprom[352..354] && r.value.vcc == eeprom[354..356]
      && r.value.txBias == eeprom[356..358] && r.value.txPower == eeprom[358..360]
      && r.value.rxPower == eeprom[360..362])
  {
    if |eeprom| < MinimumSize then Err(SizeTooSmall(MinimumSize, |eeprom|))
    else if Signature(eeprom) then
      FieldsLoseNothing(eeprom);
      Ok(Fields(eeprom))
    else Err(UnknownStandard(eeprom[0]))
  }

  /** Reading the record and writing it back gives the buffer's bytes: the
      fields are contiguous, do not overlap, and cover all 384 bytes. */
  lemma FieldsLoseNothing(b: seq<bv8>)
    requires |b| >= RecordSize
    ensures Encode(Fields(b)) == b[..RecordSize]
  {
    BaseIdLosesNothing(b);
    ExtendedIdLosesNothing(b);
    ReservedLosesNothing(b);
    DiagnosticsLoseNothing(b);
    Glue(b, 0, 64, 128);
    Glue(b, 0, 128, 256);
    Glue(b, 0, 256, 384);
  }

  lemma BaseIdLosesNothing(b: seq<bv8>)
    requires |b| >= RecordSize
    ensures BaseIdBytes(Fields(b)) == b[0..64]
  {
    assert [b[0]] == b[0..1];
    GlueByte(b, 0, 1);
    GlueByte(b, 0, 2);
    Glue(b, 0, 3, 11);
    GlueByte(b, 0, 11);
    GlueByte(b, 0, 12);
    GlueByte(b, 0, 13);
    GlueByte(b, 0, 14);
    GlueByte(b, 0, 15);
    GlueByte(b, 0, 16);
    GlueByte(b, 0, 17);
    GlueByte(b, 0, 18);
    GlueByte(b, 0, 19);
    Glue(b, 0, 20, 36);
    GlueByte(b, 0, 36);
    Glue(b, 0, 37, 40);
    Glue(b, 0, 40, 56);
    Glue(b, 0, 56, 60);
    Glue(b, 0, 60, 62);
    GlueByte(b, 0, 62);
    GlueByte(b, 0, 63);
  }

  lemma ExtendedIdLosesNothing(b: seq<bv8>)
    requires |b| >= RecordSize
    ensures ExtendedIdBytes(Fields(b)) == b[64..128]
  {
    DecodeOptionsRoundTrip(b[64..66], Fields(b).options);
    GlueByte(b, 64, 66);
    GlueByte(b, 64, 67);
    Glue(b, 64, 68, 84);
    Glue(b, 64, 84, 92);
    GlueByte(b, 64, 92);
    GlueByte(b, 64, 93);
    GlueByte(b, 64, 94);
    GlueByte(b, 64, 95);
    Glue(b, 64, 96, 120);
    GlueByte(b, 64, 120);
    Glue(b, 64, 121, 128);
  }

  lemma ReservedLosesNothing(b: seq<bv8>)
    requires |b| >= RecordSize
    ensures ReservedBytes(Fields(b)) == b[128..256]
  {
  }

  lemma DiagnosticsLoseNothing(b: seq<bv8>)
    requires |b| >= RecordSize
    ensures DiagnosticsBytes(Fields(b)) == b[256..384]
  {
    Glue(b, 256, 352, 354);
    Glue(b, 256, 354, 356);
    Glue(b, 256, 356, 358);
    Glue(b, 256, 358, 360);
    Glue(b, 256, 360, 362);
    Glue(b, 256, 362, 384);
  }

  /** Two accepted buffers decode to the same record exactly when their first
      384 bytes agree: bytes 384 to 511 are never read. */
  lemma DecodeReadsRecordBytes(b: seq<bv8>, c: seq<bv8>)
    requires Decode(b).Ok? && Decode(c).Ok?
    ensures Decode(b) == Decode(c) <==> b[..RecordSize] == c[..RecordSize]
  {
    if b[..RecordSize] == c[..RecordSize] {
      FieldsReadPrefix(b, c);
    }
  }

  lemma FieldsReadPrefix(b: seq<bv8>, c: seq<bv8>)
    requires |b| >= RecordSize && |c| >= RecordSize
    requires b[..RecordSize] == c[..RecordSize]
    ensures Fields(b) == Fields(c)
  {
    FieldsOfPrefix(b);
    FieldsOfPrefix(c);
  }

  lemma FieldsOfPrefix(b: seq<bv8>)
    requires |b| >= RecordSize
    ensures Fields(b) == Fields(b[..RecordSize])
  {
    var p := b[..RecordSize];
    forall i, j | 0 <= i <= j <= RecordSize
      ensures p[i..j] == b[i..j]
    {
      assert forall k :: 0 <= k < j - i ==> p[i..j][k] == b[i..j][k];
    }
  }

  // ---------------------------------------------------------------------
  // The vendor-specific byte 120

  predicate HasPrefix(s: string, p: string)
  {
    |p| <= |s| && s[..|p|] == p
  }

  /** The rendered record shows byte 120 only for an Arista cable, whose
      vendor name fills 15 of the 16 bytes once trimmed and whose part
      number keeps at least the 8 bytes of its prefix. */
  predicate ShowsVendorSa(s: Sff8079): (shown: bool)
    ensures shown ==> |TrimSpace(s.vendor)| == 15 && |TrimSpace(s.vendorPn)| >= 8
  {
    AristaCable(s.vendor, s.vendorPn)
  }

  /** The trimmed vendor name is "Arista Networks" and the trimmed part
      number starts with "CAB-Q-S-". */
  predicate AristaCable(vendor: seq<bv8>, pn: seq<bv8>): (arista: bool)
    ensures arista ==> |vendor| >= 15 && |pn| >= 8
  {
    Display(vendor) == "Arista Networks" && HasPrefix(Display(pn), "CAB-Q-S-")
  }

  /** Whether byte 120 is shown is decided by the vendor name at bytes 20-35
      and the part number at bytes 40-55, never by byte 120 itself. */
  lemma VendorSaShownFromBytes(eeprom: seq<bv8>)
    requires Decode(eeprom).Ok?
    ensures ShowsVendorSa(Decode(eeprom).value) <==> AristaCable(eeprom[20..36], eeprom[40..56])
  {
    assert Decode(eeprom).value == Fields(eeprom);
  }

  /** Text a padded field is meant to hold: one byte per character and no
      white space at either end. */
  predicate PlainText(t: string)
  {
    && |t| > 0
    && (forall i :: 0 <= i < |t| ==> t[i] as int < 256)
    && !IsSpaceChar(t[0]) && !IsSpaceChar(t[|t| - 1])
  }

  /** n bytes of space padding. */
  function Padding(n: nat): seq<bv8>
  {
    seq(n, i => 0x20 as bv8)
  }

  /** The names are compared after the padding is trimmed, so every
      "Arista Networks" vendor with a "CAB-Q-S-" part number qualifies,
      however much space follows either. */
  lemma PaddedAristaCable(p: string, m: nat, n: nat)
    requires PlainText(p) && HasPrefix(p, "CAB-Q-S-")
    ensures AristaCable(Ascii("Arista Networks") + Padding(m), Ascii(p) + Padding(n))
  {
    DisplayPadded("Arista Networks", m);
    DisplayPadded(p, n);
  }

  /** For padded fields the test is exact in both directions: the vendor
      must be "Arista Networks" and the part number must start with
      "CAB-Q-S-". */
  lemma AristaCableOfPadded(t: string, p: string, m: nat, n: nat)
    requires PlainText(t) && PlainText(p)
    ensures AristaCable(Ascii(t) + Padding(m), Ascii(p) + Padding(n))
      <==> t == "Arista Networks" && HasPrefix(p, "CAB-Q-S-")
  {
    DisplayPadded(t, m);
    DisplayPadded(p, n);
  }
}

=== FILE: sff8079_options.dfy ===
/** The SFF-8079 options field, bytes 64-65 of page A0h (sff8079/options.go):
    sixteen one-bit flags read straight from the two raw bytes, the power
    level they declare, and the comma-separated summary of the set flags. */
module Sff8079Options {
  import opened Base
  import opened Codec

  /** The field keeps the two raw bytes, so it maps 1:1 onto the memory. */
  datatype Options = Options(b64: bv8, b65: bv8)

  /** DecodeOptions: no decoding at all; the raw bytes are the field. */
  function DecodeOptions(raw: Bytes2): (o: Options)
    ensures o.b64 == raw[0] && o.b65 == raw[1]
  {
    Options(raw[0], raw[1])
  }

  /** The bytes the field occupies in memory. */
  function Raw(o: Options): (raw: Bytes2)
  {
    [o.b64, o.b65]
  }

  /** Decoding and storing the field are inverse to each other. */
  lemma DecodeOptionsRoundTrip(raw: Bytes2, o: Options)
    ensures Raw(DecodeOptions(raw)) == raw
    ensures DecodeOptions(Raw(o)) == o
  {
  }

  /** The sixteen flags, bit 7 of byte 64 first. */
  datatype Flag =
    | Reserved | HighPowerLevel4 | HighPowerLevel3 | PagingImplemented
    | RetimerOrCdr | CooledTransceiver | PowerLevelDeclaration | LinearReceiverOutput
    | ReceiverDecisionThreshold | TunableTransmitter | RateSelect | TxDisable
    | TxFault | LossOfSignalInverted | LossOfSignalStandard | AdditionalPages

  /** Which of the two bytes holds the flag: 0 for byte 64, 1 for byte 65. */
  function ByteIndex(f: Flag): nat
  {
    match f
    case Reserved | HighPowerLevel4 | HighPowerLevel3 | PagingImplemented
      | RetimerOrCdr | CooledTransceiver | PowerLevelDeclaration | LinearReceiverOutput => 0
    case _ => 1
  }

  /** The bit position the flag occupies within its byte. */
  function BitIndex(f: Flag): (k: nat)
    ensures k < 8
  {
    match f
    case Reserved | ReceiverDecisionThreshold => 7
    case HighPowerLevel4 | TunableTransmitter => 6
    case HighPowerLevel3 | RateSelect => 5
    case PagingImplemented | TxDisable => 4
    case RetimerOrCdr | TxFault => 3
    case CooledTransceiver | LossOfSignalInverted => 2
    case PowerLevelDeclaration | LossOfSignalStandard => 1
    case LinearReceiverOutput | AdditionalPages => 0
  }

  /** The mask each Is* accessor tests. */
  function Mask(f: Flag): bv8
  {
    match f
    case Reserved | ReceiverDecisionThreshold => 0x80
    case HighPowerLevel4 | TunableTransmitter => 0x40
    case HighPowerLevel3 | RateSelect => 0x20
    case PagingImplemented | TxDisable => 0x10
    case RetimerOrCdr | TxFault => 0x08
    case CooledTransceiver | LossOfSignalInverted => 0x04
    case PowerLevelDeclaration | LossOfSignalStandard => 0x02
    case LinearReceiverOutput | AdditionalPages => 0x01
  }

  /** The Is* accessors: the flag's mask tested against its byte. */
  predicate Has(o: Options, f: Flag)
  {
    (if ByteIndex(f) == 0 then o.b64 else o.b65) & Mask(f) != 0
  }

  /** Each accessor's mask selects exactly the flag's own bit of its own
      byte. */
  lemma HasReadsItsBit(o: Options, f: Flag)
    ensures Has(o, f) <==> Bit(if ByteIndex(f) == 0 then o.b64 else o.b65, BitIndex(f))
  {
  }

  /** The sixteen accessors read sixteen different bits: together they
      cover the whole field, one bit each. */
  lemma FlagsAreDistinctBits(f: Flag, g: Flag)
    requires f != g
    ensures ByteIndex(f) != ByteIndex(g) || BitIndex(f) != BitIndex(g)
  {
  }

  /** GetPowerLevel: the highest power level the flags declare. */
  function GetPowerLevel(o: Options): (s: string)
    ensures s == "Power Level 4" <==> Has(o, HighPowerLevel4)
    ensures s == "Power Level 3" <==> !Has(o, HighPowerLevel4) && Has(o, HighPowerLevel3)
    ensures s == "Power Level 2" <==>
      !Has(o, HighPowerLevel4) && !Has(o, HighPowerLevel3) && Has(o, PowerLevelDeclaration)
    ensures s == "Power Level 1 (or unspecified)" <==>
      !Has(o, HighPowerLevel4) && !Has(o, HighPowerLevel3) && !Has(o, PowerLevelDeclaration)
  {
    if Has(o, HighPowerLevel4) then "Power Level 4"
    else if Has(o, HighPowerLevel3) then "Power Level 3"
    else if Has(o, PowerLevelDeclaration) then "Power Level 2"
    else "Power Level 1 (or unspecified)"
  }

  /** The first entry of the summary: the same power level, worded as the
      summary words it. */
  function PowerLabel(o: Options): (s: string)
    ensures s in {"High Power Level 4", "High Power Level 3", "Power Level 2", "Power Level 1"}
  {
    if Has(o, HighPowerLevel4) then "High Power Level 4"
    else if Has(o, HighPowerLevel3) then "High Power Level 3"
    else if Has(o, PowerLevelDeclaration) then "Power Level 2"
    else "Power Level 1"
  }

  /** The summary's first entry and GetPowerLevel always name the same level. */
  lemma PowerLabelAgreesWithGetPowerLevel(o: Options)
    ensures PowerLabel(o) == "High Power Level 4" <==> GetPowerLevel(o) == "Power Level 4"
    ensures PowerLabel(o) == "High Power Level 3" <==> GetPowerLevel(o) == "Power Level 3"
    ensures PowerLabel(o) == "Power Level 2" <==> GetPowerLevel(o) == "Power Level 2"
    ensures PowerLabel(o) == "Power Level 1" <==> GetPowerLevel(o) == "Power Level 1 (or unspecified)"
  {
  }

  /** The flags the summary lists individually, in summary order. */
  const Listed: seq<Flag> := [
    PagingImplemented, RetimerOrCdr, CooledTransceiver, LinearReceiverOutput,
    ReceiverDecisionThreshold, TunableTransmitter, RateSelect, TxDisable,
    TxFault, LossOfSignalInverted, LossOfSignalStandard, AdditionalPages]

  function Label(f: Flag): string
  {
    match f
    case PagingImplemented => "Paging Implemented"
    case RetimerOrCdr => "Retimer/CDR"
    case CooledTransceiver => "Cooled Transceiver"
    case LinearReceiverOutput => "Linear Receiver Output"
    case ReceiverDecisionThreshold => "RDT Implemented"
    case TunableTransmitter => "Tunable Transmitter"
    case RateSelect => "Rate Select"
    case TxDisable => "TX Disable"
    case TxFault => "TX Fault"
    case LossOfSignalInverted => "Loss of Signal (Inverted)"
    case LossOfSignalStandard => "Loss of Signal (Standard)"
    case AdditionalPages => "Additional Pages"
    case _ => ""
  }

  function Entry(o: Options, f: Flag): Labelled
  {
    Labelled(Label(f), Has(o, f))
  }

  /** The listed flags of byte 64, in summary order. */
  function Entries64(o: Options): seq<Labelled>
  {
    [Entry(o, PagingImplemented)] + [Entry(o, RetimerOrCdr)]
    + [Entry(o, CooledTransceiver)] + [Entry(o, LinearReceiverOutput)]
  }

  /** The flags of byte 65, in summary order: bits 7-4, then bits 3-0. */
  function Entries65(o: Options): seq<Labelled>
  {
    Entries65High(o) + Entries65Low(o)
  }

  function Entries65High(o: Options): seq<Labelled>
  {
    [Entry(o, ReceiverDecisionThreshold)] + [Entry(o, TunableTransmitter)]
    + [Entry(o, RateSelect)] + [Entry(o, TxDisable)]
  }

  function Entries65Low(o: Options): seq<Labelled>
  {
    [Entry(o, TxFault)] + [Entry(o, LossOfSignalInverted)]
    + [Entry(o, LossOfSignalStandard)] + [Entry(o, AdditionalPages)]
  }

  function Entries(o: Options): seq<Labelled>
  {
    Entries64(o) + Entries65(o)
  }

  /** The entries of the summary, as String collects them: the power level,
      then one label per set flag among bits 4, 3, 2 and 0 of byte 64 and
      all of byte 65. Bits 7, 6, 5 and 1 of byte 64 only choose the power
      level. */
  function Parts(o: Options): (r: seq<string>)
    ensures |r| >= 1 && r[0] == PowerLabel(o)
  {
    [PowerLabel(o)] + Selected(Entries(o))
  }

  /** One entry for the power level and one per set flag. */
  lemma PartsCount(o: Options)
    ensures |Parts(o)| == 1 + PopCount(o.b64 & 0x1D) + PopCount(o.b65)
  {
    SelectedCount(o);
  }

  lemma SelectedCount(o: Options)
    ensures |Selected(Entries(o))| == PopCount(o.b64 & 0x1D) + PopCount(o.b65)
  {
    SelectedAppend(Entries64(o), Entries65(o));
    Count64(o);
    Count65(o);
    Bits64(o);
    Bits65(o);
  }

  lemma Count64(o: Options)
    ensures |Selected(Entries64(o))| == (if Has(o, PagingImplemented) then 1 else 0) + (if Has(o, RetimerOrCdr) then 1 else 0) + (if Has(o, CooledTransceiver) then 1 else 0) + (if Has(o, LinearReceiverOutput) then 1 else 0)
  {
    SelectedUnfold();
  }

  lemma Count65(o: Options)
    ensures |Selected(Entries65(o))| == (if Has(o, ReceiverDecisionThreshold) then 1 else 0) + (if Has(o, TunableTransmitter) then 1 else 0) + (if Has(o, RateSelect) then 1 else 0) + (if Has(o, TxDisable) then 1 else 0) + (if Has(o, TxFault) then 1 else 0) + (if Has(o, LossOfSignalInverted) then 1 else 0) + (if Has(o, LossOfSignalStandard) then 1 else 0) + (if Has(o, AdditionalPages) then 1 else 0)
  {
    SelectedAppend(Entries65High(o), Entries65Low(o));
    Count65High(o);
    Count65Low(o);
  }

  lemma Count65High(o: Options)
    ensures |Selected(Entries65High(o))| == (if Has(o, ReceiverDecisionThreshold) then 1 else 0) + (if Has(o, TunableTransmitter) then 1 else 0) + (if Has(o, RateSelect) then 1 else 0) + (if Has(o, TxDisable) then 1 else 0)
  {
    SelectedUnfold();
  }

  lemma Count65Low(o: Options)
    ensures |Selected(Entries65Low(o))| == (if Has(o, TxFault) then 1 else 0) + (if Has(o, LossOfSignalInverted) then 1 else 0) + (if Has(o, LossOfSignalStandard) then 1 else 0) + (if Has(o, AdditionalPages) then 1 else 0)
  {
    SelectedUnfold();
  }

  lemma Bits64(o: Options)
    ensures (if Has(o, PagingImplemented) then 1 else 0) + (if Has(o, RetimerOrCdr) then 1 else 0) + (if Has(o, CooledTransceiver) then 1 else 0) + (if Has(o, LinearReceiverOutput) then 1 else 0) == PopCount(o.b64 & 0x1D)
  {
  }

  lemma Bits65(o: Options)
    ensures (if Has(o, ReceiverDecisionThreshold) then 1 else 0) + (if Has(o, TunableTransmitter) then 1 else 0) + (if Has(o, RateSelect) then 1 else 0) + (if Has(o, TxDisable) then 1 else 0) + (if Has(o, TxFault) then 1 else 0) + (if Has(o, LossOfSignalInverted) then 1 else 0) + (if Has(o, LossOfSignalStandard) then 1 else 0) + (if Has(o, AdditionalPages) then 1 else 0) == PopCount(o.b65)
  {
  }

  /** Options.String: the entries joined by ", ". The "No special options"
      alternative is kept although the power level makes the list non-empty. */
  function String(o: Options): (s: string)
    ensures s != "No special options"
    ensures |PowerLabel(o)| <= |s| && s[..|PowerLabel(o)|] == PowerLabel(o)
  {
    PartsPrintable(o);
    SummaryNone(Parts(o), "No special options", ", ");
    JoinStartsWithFirst(Parts(o), ", ");
    Summary(Parts(o), "No special options", ", ")
  }

  lemma EntriesFollowListed(o: Options)
    ensures |Entries(o)| == |Listed|
    ensures forall i :: 0 <= i < |Listed| ==> Entries(o)[i] == Entry(o, Listed[i])
  {
    forall i | 0 <= i < |Listed|
      ensures Entries(o)[i] == Entry(o, Listed[i])
    {
      if i < 4 {
        EntryAt64(o, i);
      } else if i < 8 {
        EntryAt65High(o, i);
      } else {
        EntryAt65Low(o, i);
      }
    }
  }

  lemma EntryAt64(o: Options, i: nat)
    requires i < 4
    ensures Entries(o)[i] == Entry(o, Listed[i])
  {
    assert Entries(o)[i] == Entries64(o)[i];
  }

  lemma EntryAt65High(o: Options, i: nat)
    requires 4 <= i < 8
    ensures Entries(o)[i] == Entry(o, Listed[i])
  {
    assert Entries(o)[i] == Entries65(o)[i - 4] == Entries65High(o)[i - 4];
  }

  lemma EntryAt65Low(o: Options, i: nat)
    requires 8 <= i < 12
    ensures Entries(o)[i] == Entry(o, Listed[i])
  {
    assert Entries(o)[i] == Entries65(o)[i - 4] == Entries65Low(o)[i - 8];
  }

  /** Where a listed flag stands in Listed. */
  function Position(f: Flag): nat
  {
    match f
    case PagingImplemented => 0
    case RetimerOrCdr => 1
    case CooledTransceiver => 2
    case LinearReceiverOutput => 3
    case ReceiverDecisionThreshold => 4
    case TunableTransmitter => 5
    case RateSelect => 6
    case TxDisable => 7
    case TxFault => 8
    case LossOfSignalInverted => 9
    case LossOfSignalStandard => 10
    case AdditionalPages => 11
    case _ => 12
  }

  lemma PositionInverts(i: nat)
    requires i < |Listed|
    ensures Position(Listed[i]) == i
  {
  }

  lemma PositionFinds(f: Flag)
    requires f in Listed
    ensures Position(f) < |Listed| && Listed[Position(f)] == f
  {
  }

  /** Reads a label back: the flag is told by its first characters. */
  function FlagOfLabel(t: string): Option<Flag>
  {
    if |t| < 8 then None
    else if t[0] == 'P' then Some(PagingImplemented)
    else if t[0] == 'R' then
      (if t[1] == 'e' then Some(RetimerOrCdr)
       else if t[1] == 'D' then Some(ReceiverDecisionThreshold)
       else Some(RateSelect))
    else if t[0] == 'C' then Some(CooledTransceiver)
    else if t[0] == 'L' then
      (if t[1] == 'i' then Some(LinearReceiverOutput)
       else if |t| > 16 && t[16] == 'I' then Some(LossOfSignalInverted)
       else Some(LossOfSignalStandard))
    else if t[0] == 'T' then
      (if t[1] == 'u' then Some(TunableTransmitter)
       else if t[3] == 'D' then Some(TxDisable)
       else Some(TxFault))
    else if t[0] == 'A' then Some(AdditionalPages)
    else None
  }

  lemma FlagOfLabelInverts(f: Flag)
    requires f in Listed
    ensures FlagOfLabel(Label(f)) == Some(f)
  {
    PositionFinds(f);
    if Position(f) < 6 {
      FlagOfLabelInverts0(f);
    } else {
      FlagOfLabelInverts1(f);
    }
  }

  lemma FlagOfLabelInverts0(f: Flag)
    requires f.PagingImplemented? || f.RetimerOrCdr? || f.CooledTransceiver?
      || f.LinearReceiverOutput? || f.ReceiverDecisionThreshold? || f.TunableTransmitter?
    ensures FlagOfLabel(Label(f)) == Some(f)
  {
  }

  lemma FlagOfLabelInverts1(f: Flag)
    requires f.RateSelect? || f.TxDisable? || f.TxFault?
      || f.LossOfSignalInverted? || f.LossOfSignalStandard? || f.AdditionalPages?
    ensures FlagOfLabel(Label(f)) == Some(f)
  {
  }

  lemma EntriesUnique(o: Options, i: nat)
    requires i < |Listed|
    ensures i < |Entries(o)| && UniqueAt(Entries(o), i)
  {
    EntriesFollowListed(o);
    var e := Entries(o);
    forall j | 0 <= j < |e| && j != i
      ensures e[j].text != e[i].text
    {
      FlagOfLabelInverts(Listed[i]);
      FlagOfLabelInverts(Listed[j]);
      PositionInverts(i);
      PositionInverts(j);
    }
  }

  lemma LabelPrintable(f: Flag)
    requires f in Listed
    ensures Distinguishable(Label(f), "No special options") && ',' !in Label(f)
  {
    PositionFinds(f);
    if Position(f) < 4 {
      LabelPrintable0(f);
    } else if Position(f) < 8 {
      LabelPrintable1(f);
    } else {
      LabelPrintable2(f);
    }
  }

  lemma LabelPrintable0(f: Flag)
    requires f.PagingImplemented? || f.RetimerOrCdr? || f.CooledTransceiver? || f.LinearReceiverOutput?
    ensures Distinguishable(Label(f), "No special options") && ',' !in Label(f)
  {
  }

  lemma LabelPrintable1(f: Flag)
    requires f.ReceiverDecisionThreshold? || f.TunableTransmitter? || f.RateSelect? || f.TxDisable?
    ensures Distinguishable(Label(f), "No special options") && ',' !in Label(f)
  {
  }

  lemma LabelPrintable2(f: Flag)
    requires f.TxFault? || f.LossOfSignalInverted? || f.LossOfSignalStandard? || f.AdditionalPages?
    ensures Distinguishable(Label(f), "No special options") && ',' !in Label(f)
  {
  }

  lemma PartsPrintable(o: Options)
    ensures Printable(Parts(o), "No special options") && Separable(Parts(o), ',')
  {
    var e := Entries(o);
    EntriesFollowListed(o);
    forall i | 0 <= i < |e|
      ensures Distinguishable(e[i].text, "No special options") && ',' !in e[i].text
    {
      LabelPrintable(Listed[i]);
    }
    SelectedPrintable(e, "No special options");
    SelectedSeparable(e, ',');
  }

  /** A listed flag's label is in the summary exactly when the flag is set,
      and it never clashes with the power level entry. */
  lemma PartsListSetFlags(o: Options, f: Flag)
    requires f in Listed
    ensures Label(f) in Parts(o) <==> Has(o, f)
  {
    EntriesFollowListed(o);
    PositionFinds(f);
    var i := Position(f);
    EntriesUnique(o, i);
    SelectedContains(Entries(o), i);
    LabelNotPowerLabel(o, f);
  }

  /** No listed label reads like a power level. */
  lemma LabelNotPowerLabel(o: Options, f: Flag)
    requires f in Listed
    ensures Label(f) != PowerLabel(o)
  {
    LabelStart(f);
    PowerLabelStart(o);
  }

  /** No listed label starts "H" or "Po". */
  lemma LabelStart(f: Flag)
    requires f in Listed
    ensures |Label(f)| > 1 && Label(f)[0] != 'H' && (Label(f)[0] == 'P' ==> Label(f)[1] == 'a')
  {
    PositionFinds(f);
    if Position(f) < 6 {
      LabelStart0(f);
    } else {
      LabelStart1(f);
    }
  }

  lemma LabelStart0(f: Flag)
    requires f.PagingImplemented? || f.RetimerOrCdr? || f.CooledTransceiver?
      || f.LinearReceiverOutput? || f.ReceiverDecisionThreshold? || f.TunableTransmitter?
    ensures |Label(f)| > 1 && Label(f)[0] != 'H' && (Label(f)[0] == 'P' ==> Label(f)[1] == 'a')
  {
  }

  lemma LabelStart1(f: Flag)
    requires f.RateSelect? || f.TxDisable? || f.TxFault?
      || f.LossOfSignalInverted? || f.LossOfSignalStandard? || f.AdditionalPages?
    ensures |Label(f)| > 1 && Label(f)[0] != 'H' && (Label(f)[0] == 'P' ==> Label(f)[1] == 'a')
  {
  }

  /** A power level entry starts "H" or "Po". */
  lemma PowerLabelStart(o: Options)
    ensures |PowerLabel(o)| > 1
    ensures PowerLabel(o)[0] == 'H' || (PowerLabel(o)[0] == 'P' && PowerLabel(o)[1] == 'o')
  {
  }

  /** The summary determines the power level entry and every listed flag. */
  lemma StringDeterminesFlags(a: Options, b: Options)
    requires String(a) == String(b)
    ensures PowerLabel(a) == PowerLabel(b)
    ensures forall f :: f in Listed ==> (Has(a, f) <==> Has(b, f))
  {
    PartsPrintable(a);
    PartsPrintable(b);
    assert [','] + " " == ", ";
    SummaryInjective(Parts(a), Parts(b), "No special options", ',', " ");
    forall f | f in Listed
      ensures Has(a, f) <==> Has(b, f)
    {
      PartsListSetFlags(a, f);
      PartsListSetFlags(b, f);
    }
  }

  /** The reserved bit 7 of byte 64 never shows. */
  lemma ReservedBitIgnored(a: Options, b: Options)
    requires a.b64 & 0x7F == b.b64 & 0x7F && a.b65 == b.b65
    ensures String(a) == String(b) && GetPowerLevel(a) == GetPowerLevel(b)
  {
    PowerIgnoresReserved(a, b);
    Entries64IgnoreReserved(a, b);
    Entries65IgnoreReserved(a, b);
    assert Entries(a) == Entries(b);
  }

  lemma PowerIgnoresReserved(a: Options, b: Options)
    requires a.b64 & 0x7F == b.b64 & 0x7F && a.b65 == b.b65
    ensures PowerLabel(a) == PowerLabel(b) && GetPowerLevel(a) == GetPowerLevel(b)
  {
    HasIgnoresReserved(a, b, HighPowerLevel4);
    HasIgnoresReserved(a, b, HighPowerLevel3);
    HasIgnoresReserved(a, b, PowerLevelDeclaration);
  }

  lemma Entries64IgnoreReserved(a: Options, b: Options)
    requires a.b64 & 0x7F == b.b64 & 0x7F && a.b65 == b.b65
    ensures Entries64(a) == Entries64(b)
  {
    HasIgnoresReserved(a, b, PagingImplemented);
    HasIgnoresReserved(a, b, RetimerOrCdr);
    HasIgnoresReserved(a, b, CooledTransceiver);
    HasIgnoresReserved(a, b, LinearReceiverOutput);
  }

  lemma Entries65IgnoreReserved(a: Options, b: Options)
    requires a.b64 & 0x7F == b.b64 & 0x7F && a.b65 == b.b65
    ensures Entries65(a) == Entries65(b)
  {
    HasIgnoresReserved(a, b, ReceiverDecisionThreshold);
    HasIgnoresReserved(a, b, TunableTransmitter);
    HasIgnoresReserved(a, b, RateSelect);
    HasIgnoresReserved(a, b, TxDisable);
    HasIgnoresReserved(a, b, TxFault);
    HasIgnoresReserved(a, b, LossOfSignalInverted);
    HasIgnoresReserved(a, b, LossOfSignalStandard);
    HasIgnoresReserved(a, b, AdditionalPages);
  }

  lemma HasIgnoresReserved(a: Options, b: Options, f: Flag)
    requires a.b64 & 0x7F == b.b64 & 0x7F && a.b65 == b.b65
    requires f != Reserved
    ensures Has(a, f) == Has(b, f)
  {
  }

  // The worked examples of the package's own tests.

  /** The labels a four-entry table selects, entry by entry. */
  function Picks(e: seq<Labelled>): seq<string>
    requires |e| == 4
  {
    Shown(e[0].text, e[0].on) + Shown(e[1].text, e[1].on) + Shown(e[2].text, e[2].on) + Shown(e[3].text, e[3].on)
  }

  lemma Selected4(e: seq<Labelled>)
    requires |e| == 4
    ensures Selected(e) == Picks(e)
  {
    SelectedUnfold();
    assert e == [e[0]] + [e[1]] + [e[2]] + [e[3]];
  }

  /** What three four-entry tables select together. */
  lemma SelectedTables(x: seq<Labelled>, y: seq<Labelled>, z: seq<Labelled>)
    requires |x| == 4 && |y| == 4 && |z| == 4
    ensures Selected(x + (y + z)) == Picks(x) + Picks(y) + Picks(z)
  {
    Selected4(x);
    Selected4(y);
    Selected4(z);
    SelectedAppend(y, z);
    SelectedAppend(x, y + z);
  }

  /** Parts from the three four-entry tables. */
  lemma PartsByTables(o: Options)
    ensures Parts(o) == [PowerLabel(o)] + Picks(Entries64(o)) + Picks(Entries65High(o)) + Picks(Entries65Low(o))
  {
    SelectedTables(Entries64(o), Entries65High(o), Entries65Low(o));
  }

  lemma PartsNoFlags()
    ensures Parts(Options(0x00, 0x00)) == ["Power Level 1"]
  {
    PartsByTables(Options(0x00, 0x00));
  }

  lemma StringNoFlags()
    ensures String(Options(0x00, 0x00)) == "Power Level 1"
  {
    PartsNoFlags();
  }

  lemma PartsHighPower()
    ensures Parts(Options(0x58, 0x00)) == ["High Power Level 4", "Paging Implemented", "Retimer/CDR"]
  {
    PartsByTables(Options(0x58, 0x00));
  }

  lemma StringHighPower()
    ensures String(Options(0x58, 0x00)) == "High Power Level 4" + ", " + "Paging Implemented" + ", " + "Retimer/CDR"
  {
    PartsHighPower();
    JoinThree("High Power Level 4", "Paging Implemented", "Retimer/CDR", ", ");
  }

  lemma PartsMixed()
    ensures Parts(Options(0x1A, 0x25)) == ["Power Level 2", "Paging Implemented", "Retimer/CDR",
      "Rate Select", "Loss of Signal (Inverted)", "Additional Pages"]
  {
    PartsByTables(Options(0x1A, 0x25));
    MixedTables();
  }

  lemma MixedTables()
    ensures PowerLabel(Options(0x1A, 0x25)) == "Power Level 2"
    ensures Picks(Entries64(Options(0x1A, 0x25))) == ["Paging Implemented", "Retimer/CDR"]
    ensures Picks(Entries65High(Options(0x1A, 0x25))) == ["Rate Select"]
    ensures Picks(Entries65Low(Options(0x1A, 0x25))) == ["Loss of Signal (Inverted)", "Additional Pages"]
  {
  }

  lemma StringMixed()
    ensures String(Options(0x1A, 0x25))
      == "Power Level 2" + ", " + "Paging Implemented" + ", " + "Retimer/CDR" + ", "
       + "Rate Select" + ", " + "Loss of Signal (Inverted)" + ", " + "Additional Pages"
  {
    PartsMixed();
    JoinSix("Power Level 2", "Paging Implemented", "Retimer/CDR",
      "Rate Select", "Loss of Signal (Inverted)", "Additional Pages", ", ");
  }

  lemma JoinSix(p0: string, p1: string, p2: string, p3: string, p4: string, p5: string, sep: string)
    ensures Join([p0, p1, p2, p3, p4, p5], sep)
      == p0 + sep + p1 + sep + p2 + sep + p3 + sep + p4 + sep + p5
  {
    JoinThree(p3, p4, p5, sep);
    JoinCons(p2, [p3, p4, p5], sep);
    assert [p2] + [p3, p4, p5] == [p2, p3, p4, p5];
    JoinCons(p1, [p2, p3, p4, p5], sep);
    assert [p1] + [p2, p3, p4, p5] == [p1, p2, p3, p4, p5];
    JoinCons(p0, [p1, p2, p3, p4, p5], sep);
    assert [p0] + [p1, p2, p3, p4, p5] == [p0, p1, p2, p3, p4, p5];
  }
}

=== FILE: sff8636_device_technology.dfy ===
/** The device technology byte of an SFF-8636 module (page 00h byte 147):
    the transmitter technology in bits 7-4 and four single-bit properties. */
module DeviceTechnology {
  import opened Base

  const TxTechMask: bv8 := 0xF0
  const WavelengthCtrlMask: bv8 := 0x08
  const CooledTxMask: bv8 := 0x04
  const DetectorMask: bv8 := 0x02
  const TunableTxMask: bv8 := 0x01

  /** The table of transmitter technology names, keyed by the high nibble
      with the low nibble clear; None for a key the table does not hold. */
  function TechName(t: bv8): Option<string>
  {
    if t == 0x00 then Some("850 nm VCSEL")
    else if t == 0x10 then Some("1310 nm VCSEL")
    else if t == 0x20 then Some("1550 nm VCSEL")
    else if t == 0x30 then Some("1310 nm FP")
    else if t == 0x40 then Some("1310 nm DFB")
    else if t == 0x50 then Some("1550 nm DFB")
    else if t == 0x60 then Some("1310 nm EML")
    else if t == 0x70 then Some("1550 nm EML")
    else if t == 0x80 then Some("Other / Undefined")
    else if t == 0x90 then Some("1490 nm DFB")
    else if t == 0xA0 then Some("Copper cable unequalized")
    else if t == 0xB0 then Some("Copper cable passive equalized")
    else if t == 0xC0 then Some("Copper cable, near and far end limiting active equalizers")
    else if t == 0xD0 then Some("Copper cable, far end limiting active equalizers")
    else if t == 0xE0 then Some("Copper cable, near end limiting active equalizers")
    else if t == 0xF0 then Some("Copper cable, linear active equalizers")
    else None
  }

  /** DeviceTechnology.GetTransmitterTechnology: the high nibble, in place. */
  function GetTransmitterTechnology(d: bv8): (t: bv8)
    ensures forall k :: 4 <= k < 8 ==> Bit(t, k) == Bit(d, k)
    ensures forall k :: 0 <= k < 4 ==> !Bit(t, k)
  {
    d & TxTechMask
  }

  /** DeviceTechnology.GetTransmitterTechnologyName: the table's name, or
      "Unknown (0xNN)" for a technology the table does not hold. */
  function GetTransmitterTechnologyName(d: bv8): string
  {
    var t := GetTransmitterTechnology(d);
    match TechName(t)
    case Some(name) => name
    case None => "Unknown (0x" + Hex2(t) + ")"
  }

  /** The table holds all sixteen technologies, so the fallback is never
      taken: the name is always one of the table's. */
  lemma NameTableTotal(d: bv8)
    ensures TechName(GetTransmitterTechnology(d)).Some?
    ensures GetTransmitterTechnologyName(d) == TechName(GetTransmitterTechnology(d)).value
  {
    var t := d & 0xF0;
    assert t >> 4 < 16;
    assert t == (t >> 4) << 4;
  }

  /** Reads a technology name back: the inverse of the table. */
  function TechOfName(s: string): Option<bv8>
  {
    if |s| == 12 then Some(0x00)
    else if |s| == 13 then (if s[1] == '3' then Some(0x10) else Some(0x20))
    else if |s| == 10 then Some(0x30)
    else if |s| == 11 then
      (if s[1] == '4' then Some(0x90)
       else if s[1] == '3' then (if s[8] == 'D' then Some(0x40) else Some(0x60))
       else (if s[8] == 'D' then Some(0x50) else Some(0x70)))
    else if |s| == 17 then Some(0x80)
    else if |s| == 24 then Some(0xA0)
    else if |s| == 30 then Some(0xB0)
    else if |s| == 57 then Some(0xC0)
    else if |s| == 48 then Some(0xD0)
    else if |s| == 49 then Some(0xE0)
    else if |s| == 38 then Some(0xF0)
    else None
  }

  lemma TechOfNameInverts(t: bv8)
    requires TechName(t).Some?
    ensures TechOfName(TechName(t).value) == Some(t)
  {
    if t < 0x80 {
      OpticalNamesInvert(t);
    } else {
      OtherNamesInvert(t);
    }
  }

  lemma OpticalNamesInvert(t: bv8)
    requires TechName(t).Some? && t < 0x80
    ensures TechOfName(TechName(t).value) == Some(t)
  {
  }

  lemma OtherNamesInvert(t: bv8)
    requires TechName(t).Some? && t >= 0x80
    ensures TechOfName(TechName(t).value) == Some(t)
  {
    if t < 0xC0 {
    } else {
      CopperNamesInvert(t);
    }
  }

  lemma CopperNamesInvert(t: bv8)
    requires TechName(t).Some? && t >= 0xC0
    ensures TechOfName(TechName(t).value) == Some(t)
  {
    if t == 0xC0 {
      assert |TechName(t).value| == 57;
    } else if t == 0xD0 {
      assert |TechName(t).value| == 48;
    } else if t == 0xE0 {
      assert |TechName(t).value| == 49;
    } else {
      assert |TechName(t).value| == 38;
    }
  }

  /** The name tells the technology and nothing else: two bytes have the
      same name exactly when their high nibbles agree. */
  lemma NameDeterminesTechnology(a: bv8, b: bv8)
    ensures GetTransmitterTechnologyName(a) == GetTransmitterTechnologyName(b)
      <==> GetTransmitterTechnology(a) == GetTransmitterTechnology(b)
  {
    NameTableTotal(a);
    NameTableTotal(b);
    TechOfNameInverts(GetTransmitterTechnology(a));
    TechOfNameInverts(GetTransmitterTechnology(b));
  }

  /** The sixteen names are pairwise distinct. */
  lemma NamesDistinct(s: bv8, t: bv8)
    requires TechName(s).Some? && TechName(t).Some?
    ensures TechName(s).value == TechName(t).value <==> s == t
  {
    TechOfNameInverts(s);
    TechOfNameInverts(t);
  }

  /** DeviceTechnology.HasActiveWavelengthControl. */
  predicate HasActiveWavelengthControl(d: bv8)
  {
    d & WavelengthCtrlMask == WavelengthCtrlMask
  }

  /** DeviceTechnology.HasCooledTransmitter. */
  predicate HasCooledTransmitter(d: bv8)
  {
    d & CooledTxMask == CooledTxMask
  }

  /** DeviceTechnology.IsTunableTransmitter. */
  predicate IsTunableTransmitter(d: bv8)
  {
    d & TunableTxMask == TunableTxMask
  }

  /** DeviceTechnology.GetDetectorType: an avalanche photodiode or a PIN. */
  function GetDetectorType(d: bv8): (r: string)
    ensures r == "APD" <==> Bit(d, 1)
    ensures r == "Pin" <==> !Bit(d, 1)
  {
    if d & DetectorMask == DetectorMask then "APD" else "Pin"
  }

  /** Each accessor is one bit of the byte. */
  lemma AccessorsAreBits(d: bv8)
    ensures HasActiveWavelengthControl(d) <==> Bit(d, 3)
    ensures HasCooledTransmitter(d) <==> Bit(d, 2)
    ensures IsTunableTransmitter(d) <==> Bit(d, 0)
  {
  }

  /** What the module reports about the byte (technology name, the three
      flags and the detector type) determines the byte. */
  lemma ReportDeterminesByte(a: bv8, b: bv8)
    requires GetTransmitterTechnologyName(a) == GetTransmitterTechnologyName(b)
    requires HasActiveWavelengthControl(a) == HasActiveWavelengthControl(b)
    requires HasCooledTransmitter(a) == HasCooledTransmitter(b)
    requires GetDetectorType(a) == GetDetectorType(b)
    requires IsTunableTransmitter(a) == IsTunableTransmitter(b)
    ensures a == b
  {
    NameDeterminesTechnology(a, b);
    AccessorsAreBits(a);
    AccessorsAreBits(b);
    assert a == (a & 0xF0) | (a & 0x0F);
    assert b == (b & 0xF0) | (b & 0x0F);
  }
}

=== FILE: sff8636_diagnostic_monitoring_type.dfy ===
/** The diagnostic monitoring type byte of an SFF-8636 module (page 00h
    byte 220): which quantities the module monitors, and whether received
    power is measured as OMA or as average power. */
module DiagnosticMonitoringType {
  import opened Base

  /** DiagnosticMonitoringTypeBits. */
  datatype Bits = Bits(
    reserved: bool,
    temperatureMonitoringImplemented: bool,
    supplyVoltageMonitoringImplemented: bool,
    receivedPowerMeasurementsType: bool,
    transmitterPowerMeasurement: bool,
    reservedBits: bool)

  /** DiagnosticMonitoringType.Decode: bits 5 to 2 one by one, and the two
      reserved pairs (7-6 and 1-0) each folded into one flag. */
  function Decode(d: bv8): (r: Bits)
    ensures r.reserved <==> Bit(d, 7) || Bit(d, 6)
    ensures r.temperatureMonitoringImplemented <==> Bit(d, 5)
    ensures r.supplyVoltageMonitoringImplemented <==> Bit(d, 4)
    ensures r.receivedPowerMeasurementsType <==> Bit(d, 3)
    ensures r.transmitterPowerMeasurement <==> Bit(d, 2)
    ensures r.reservedBits <==> Bit(d, 1) || Bit(d, 0)
  {
    Bits(d & 0xC0 != 0, d & 0x20 != 0, d & 0x10 != 0, d & 0x08 != 0, d & 0x04 != 0, d & 0x03 != 0)
  }

  // The accessors.

  predicate IsTemperatureMonitoringImplemented(d: bv8) { d & 0x20 != 0 }
  predicate IsSupplyVoltageMonitoringImplemented(d: bv8) { d & 0x10 != 0 }
  predicate IsReceivedPowerMeasurementsTypeAveragePower(d: bv8) { d & 0x08 != 0 }
  predicate IsTransmitterPowerMeasurementSupported(d: bv8) { d & 0x04 != 0 }

  /** Each accessor agrees with the matching field of Decode. */
  lemma AccessorsAgreeWithDecode(d: bv8)
    ensures IsTemperatureMonitoringImplemented(d) == Decode(d).temperatureMonitoringImplemented
    ensures IsSupplyVoltageMonitoringImplemented(d) == Decode(d).supplyVoltageMonitoringImplemented
    ensures IsReceivedPowerMeasurementsTypeAveragePower(d) == Decode(d).receivedPowerMeasurementsType
    ensures IsTransmitterPowerMeasurementSupported(d) == Decode(d).transmitterPowerMeasurement
  {
  }

  const Temperature := "Temperature"
  const SupplyVoltage := "Supply voltage"
  // Long labels are written as two literals denoting the same text, because
  // the verifier cannot look up single characters in one literal much longer than 40 characters.
  const AveragePower := "Received power measurements" + " type: Average Power"
  const Oma := "Received power measurements" + " type: OMA"
  const TransmitterPower := "Transmitter power"
  const NoFeatures := "No diagnostic monitoring" + " features implemented"

  /** The label for the received power measurement, always present. */
  function ReceivedPowerLabel(averagePower: bool): string
  {
    if averagePower then AveragePower else Oma
  }

  function Entries(bits: Bits): seq<Labelled>
  {
    [Labelled(Temperature, bits.temperatureMonitoringImplemented)]
    + [Labelled(SupplyVoltage, bits.supplyVoltageMonitoringImplemented)]
    + [Labelled(ReceivedPowerLabel(bits.receivedPowerMeasurementsType), true)]
    + [Labelled(TransmitterPower, bits.transmitterPowerMeasurement)]
  }

  /** DiagnosticMonitoringType.List: the monitored features in table order,
      with exactly one of the two received power labels. */
  function List(d: bv8): (r: seq<string>)
    ensures |r| == 1 + PopCount(d & 0x34)
    ensures AveragePower in r <==> Bit(d, 3)
    ensures Oma in r <==> !Bit(d, 3)
  {
    ListShape(d);
    MaskedCount(d);
    LabelLengths();
    Selected(Entries(Decode(d)))
  }

  /** The list, feature by feature. */
  lemma ListShape(d: bv8)
    ensures Selected(Entries(Decode(d))) ==
      Shown(Temperature, Bit(d, 5)) + Shown(SupplyVoltage, Bit(d, 4))
      + [ReceivedPowerLabel(Bit(d, 3))] + Shown(TransmitterPower, Bit(d, 2))
  {
    SelectedUnfold();
  }

  /** The five labels have five different lengths. */
  lemma LabelLengths()
    ensures |Temperature| == 11 && |SupplyVoltage| == 14 && |TransmitterPower| == 17
    ensures |AveragePower| == 47 && |Oma| == 37
  {
  }

  lemma MaskedCount(d: bv8)
    ensures PopCount(d & 0x34) ==
      (if Bit(d, 5) then 1 else 0) + (if Bit(d, 4) then 1 else 0) + (if Bit(d, 2) then 1 else 0)
  {
  }

  /** Each feature label is listed exactly when its bit is set. */
  lemma ListShowsBits(d: bv8)
    ensures Temperature in List(d) <==> Bit(d, 5)
    ensures SupplyVoltage in List(d) <==> Bit(d, 4)
    ensures TransmitterPower in List(d) <==> Bit(d, 2)
  {
    ListShape(d);
    LabelLengths();
  }

  /** The list determines bits 5 to 2 and is blind to the reserved ones. */
  lemma ListDeterminesBits(a: bv8, b: bv8)
    ensures List(a) == List(b) <==> a & 0x3C == b & 0x3C
  {
    ListShowsBits(a);
    ListShowsBits(b);
    if a & 0x3C == b & 0x3C {
      assert Decode(a) == Decode(b).(reserved := Decode(a).reserved, reservedBits := Decode(a).reservedBits);
      assert Entries(Decode(a)) == Entries(Decode(b));
    }
  }

  /** DiagnosticMonitoringType.String: the list joined by ", ". The list is
      never empty, so the "no features" answer is never given. */
  function String(d: bv8): (s: string)
    ensures s != NoFeatures
    ensures s == Join(List(d), ", ")
  {
    ListPrintable(d);
    SummaryNone(List(d), NoFeatures, ", ");
    Summary(List(d), NoFeatures, ", ")
  }

  lemma ListPrintable(d: bv8)
    ensures Printable(List(d), NoFeatures)
    ensures Separable(List(d), ',')
  {
    var e := Entries(Decode(d));
    forall i | 0 <= i < |e|
      ensures Distinguishable(e[i].text, NoFeatures) && ',' !in e[i].text
    {
      LabelsPrintable();
    }
    SelectedPrintable(e, NoFeatures);
    SelectedSeparable(e, ',');
  }

  lemma LabelsPrintable()
    ensures Distinguishable(Temperature, NoFeatures) && ',' !in Temperature
    ensures Distinguishable(SupplyVoltage, NoFeatures) && ',' !in SupplyVoltage
    ensures Distinguishable(AveragePower, NoFeatures) && ',' !in AveragePower
    ensures Distinguishable(Oma, NoFeatures) && ',' !in Oma
    ensures Distinguishable(TransmitterPower, NoFeatures) && ',' !in TransmitterPower
  {
  }

  /** The summary determines bits 5 to 2, like the list. */
  lemma StringDeterminesBits(a: bv8, b: bv8)
    ensures String(a) == String(b) <==> a & 0x3C == b & 0x3C
  {
    ListPrintable(a);
    ListPrintable(b);
    if String(a) == String(b) {
      assert [','] + " " == ", ";
      assert Summary(List(a), NoFeatures, [','] + " ") == Summary(List(b), NoFeatures, [','] + " ");
      SummaryInjective(List(a), List(b), NoFeatures, ',', " ");
    }
    ListDeterminesBits(a, b);
  }
}

=== FILE: sff8636_enhanced_options.dfy ===
/** The enhanced options byte of an SFF-8636 module (page 00h byte 221):
    optional flags and controls the module implements. */
module EnhancedOptions {
  import opened Base

  /** EnhancedOptionsBits. */
  datatype Bits = Bits(
    reserved: bool,
    initCompleteFlagImplemented: bool,
    rateSelectionImplemented: bool,
    sff8079SupportReserved: bool,
    tcReadinessFlagImplemented: bool,
    softwareResetImplemented: bool)

  /** EnhancedOptions.Decode: bits 4 to 0 one by one, and the reserved bits
      7-5 folded into one flag. */
  function Decode(e: bv8): (r: Bits)
    ensures r.reserved <==> Bit(e, 7) || Bit(e, 6) || Bit(e, 5)
    ensures r.initCompleteFlagImplemented <==> Bit(e, 4)
    ensures r.rateSelectionImplemented <==> Bit(e, 3)
    ensures r.sff8079SupportReserved <==> Bit(e, 2)
    ensures r.tcReadinessFlagImplemented <==> Bit(e, 1)
    ensures r.softwareResetImplemented <==> Bit(e, 0)
  {
    Bits(e & 0xE0 != 0, e & 0x10 != 0, e & 0x08 != 0, e & 0x04 != 0, e & 0x02 != 0, e & 0x01 != 0)
  }

  // The accessors.

  predicate IsInitCompleteFlagImplemented(e: bv8) { e & 0x10 != 0 }
  predicate IsRateSelectionImplemented(e: bv8) { e & 0x08 != 0 }
  predicate IsTcReadinessFlagImplemented(e: bv8) { e & 0x02 != 0 }
  predicate IsSoftwareResetImplemented(e: bv8) { e & 0x01 != 0 }

  /** Each accessor agrees with the matching field of Decode. */
  lemma AccessorsAgreeWithDecode(e: bv8)
    ensures IsInitCompleteFlagImplemented(e) == Decode(e).initCompleteFlagImplemented
    ensures IsRateSelectionImplemented(e) == Decode(e).rateSelectionImplemented
    ensures IsTcReadinessFlagImplemented(e) == Decode(e).tcReadinessFlagImplemented
    ensures IsSoftwareResetImplemented(e) == Decode(e).softwareResetImplemented
  {
  }

  // Long labels are written as two literals denoting the same text, because
  // the verifier cannot look up single characters in one literal much longer than 40 characters.
  const InitComplete := "Initialization Complete" + " Flag implemented"
  const RateSelection := "Rate Selection implemented"
  const TcReadiness := "TC readiness flag implemented"
  const SoftwareReset := "Software reset implemented"
  const NoEnhancedOptions := "No enhanced options implemented"

  function Entries(bits: Bits): seq<Labelled>
  {
    [Labelled(InitComplete, bits.initCompleteFlagImplemented)]
    + [Labelled(RateSelection, bits.rateSelectionImplemented)]
    + [Labelled(TcReadiness, bits.tcReadinessFlagImplemented)]
    + [Labelled(SoftwareReset, bits.softwareResetImplemented)]
  }

  /** EnhancedOptions.List: the implemented options in table order. */
  function List(e: bv8): (r: seq<string>)
    ensures |r| == PopCount(e & 0x1B)
    ensures InitComplete in r <==> Bit(e, 4)
    ensures RateSelection in r <==> Bit(e, 3)
    ensures TcReadiness in r <==> Bit(e, 1)
    ensures SoftwareReset in r <==> Bit(e, 0)
  {
    ListShape(e);
    LabelsDistinct();
    MaskedCount(e);
    Selected(Entries(Decode(e)))
  }

  /** The list, option by option. */
  lemma ListShape(e: bv8)
    ensures Selected(Entries(Decode(e))) ==
      Shown(InitComplete, Bit(e, 4)) + Shown(RateSelection, Bit(e, 3))
      + Shown(TcReadiness, Bit(e, 1)) + Shown(SoftwareReset, Bit(e, 0))
  {
    SelectedUnfold();
  }

  lemma MaskedCount(e: bv8)
    ensures PopCount(e & 0x1B) ==
      (if Bit(e, 4) then 1 else 0) + (if Bit(e, 3) then 1 else 0)
      + (if Bit(e, 1) then 1 else 0) + (if Bit(e, 0) then 1 else 0)
  {
  }

  lemma LabelsDistinct()
    ensures InitComplete != RateSelection && InitComplete != TcReadiness && InitComplete != SoftwareReset
    ensures RateSelection != TcReadiness && RateSelection != SoftwareReset
    ensures TcReadiness != SoftwareReset
  {
    assert InitComplete[0] == 'I' && RateSelection[0] == 'R';
    assert TcReadiness[0] == 'T' && SoftwareReset[0] == 'S';
  }

  /** The list determines bits 4, 3, 1 and 0 and is blind to the others. */
  lemma ListDeterminesBits(a: bv8, b: bv8)
    ensures List(a) == List(b) <==> a & 0x1B == b & 0x1B
  {
    if a & 0x1B == b & 0x1B {
      assert Entries(Decode(a)) == Entries(Decode(b));
    }
  }

  /** EnhancedOptions.String: "No enhanced options implemented" exactly when
      none of bits 4, 3, 1 and 0 is set, the list joined by ", " otherwise. */
  function String(e: bv8): (s: string)
    ensures s == NoEnhancedOptions <==> e & 0x1B == 0
    ensures e & 0x1B != 0 ==> s == Join(List(e), ", ")
  {
    ListPrintable(e);
    SummaryNone(List(e), NoEnhancedOptions, ", ");
    PopCountZero(e & 0x1B);
    Summary(List(e), NoEnhancedOptions, ", ")
  }

  lemma PopCountZero(b: bv8)
    ensures PopCount(b) == 0 <==> b == 0
  {
  }

  lemma ListPrintable(e: bv8)
    ensures Printable(List(e), NoEnhancedOptions)
    ensures Separable(List(e), ',')
  {
    var t := Entries(Decode(e));
    forall i | 0 <= i < |t|
      ensures Distinguishable(t[i].text, NoEnhancedOptions) && ',' !in t[i].text
    {
      LabelsPrintable();
    }
    SelectedPrintable(t, NoEnhancedOptions);
    SelectedSeparable(t, ',');
  }

  lemma LabelsPrintable()
    ensures Distinguishable(InitComplete, NoEnhancedOptions) && ',' !in InitComplete
    ensures Distinguishable(RateSelection, NoEnhancedOptions) && ',' !in RateSelection
    ensures Distinguishable(TcReadiness, NoEnhancedOptions) && ',' !in TcReadiness
    ensures Distinguishable(SoftwareReset, NoEnhancedOptions) && ',' !in SoftwareReset
  {
  }

  /** The summary determines bits 4, 3, 1 and 0, like the list. */
  lemma StringDeterminesBits(a: bv8, b: bv8)
    ensures String(a) == String(b) <==> a & 0x1B == b & 0x1B
  {
    ListPrintable(a);
    ListPrintable(b);
    if String(a) == String(b) {
      assert [','] + " " == ", ";
      assert Summary(List(a), NoEnhancedOptions, [','] + " ") == Summary(List(b), NoEnhancedOptions, [','] + " ");
      SummaryInjective(List(a), List(b), NoEnhancedOptions, ',', " ");
    }
    ListDeterminesBits(a, b);
  }
}

=== FILE: sff8636_ext_identifier.dfy ===
/** The extended identifier byte of an SFF-8636 module (page 00h byte 129):
    the power class, whether a CLEI code is present, and whether the module
    has CDRs in its transmit and receive paths. */
module ExtIdentifier {
  import opened Base

  // The byte's fields.
  const PwrClassMask: bv8 := 0xC0
  const ExtPwrClass8Mask: bv8 := 0x20
  const ClieCodeMask: bv8 := 0x10
  const CdrInTxMask: bv8 := 0x08
  const CdrInRxMask: bv8 := 0x04
  const ExtPwrClassMask: bv8 := 0x03

  // The label tables, keyed by the masked byte; None for a key the table
  // does not hold.

  function ClieCodeNames(k: bv8): Option<string>
  {
    if k == 0x00 then Some("No CLEI code present")
    else if k == 0x10 then Some("CLEI code present")
    else None
  }

  function CdrInTxNames(k: bv8): Option<string>
  {
    if k == 0x00 then Some("No CDR in TX")
    else if k == 0x08 then Some("CDR in TX")
    else None
  }

  function CdrInRxNames(k: bv8): Option<string>
  {
    if k == 0x00 then Some("No CDR in RX")
    else if k == 0x04 then Some("CDR in RX")
    else None
  }

  /** A map lookup with Go's semantics: a missing key yields the empty string. */
  function Lookup(entry: Option<string>): string
  {
    match entry
    case Some(s) => s
    case None => ""
  }

  /** ExtIdentifier.GetPowerClass: class 8 wins over everything, then the
      extended classes 5 to 7 of bits 1-0, then the base classes 1 to 4 of
      bits 7-6. The final "Unknown" answer is kept as the code has it. */
  function GetPowerClass(b: bv8): (r: string)
    ensures Bit(b, 5) ==> r == "Power Class 8"
    ensures !Bit(b, 5) && b & 0x03 == 1 ==> r == "Power Class 5"
    ensures !Bit(b, 5) && b & 0x03 == 2 ==> r == "Power Class 6"
    ensures !Bit(b, 5) && b & 0x03 == 3 ==> r == "Power Class 7"
    ensures !Bit(b, 5) && b & 0x03 == 0 && !Bit(b, 7) && !Bit(b, 6) ==> r == "Power Class 1"
    ensures !Bit(b, 5) && b & 0x03 == 0 && !Bit(b, 7) && Bit(b, 6) ==> r == "Power Class 2"
    ensures !Bit(b, 5) && b & 0x03 == 0 && Bit(b, 7) && !Bit(b, 6) ==> r == "Power Class 3"
    ensures !Bit(b, 5) && b & 0x03 == 0 && Bit(b, 7) && Bit(b, 6) ==> r == "Power Class 4"
    ensures r != "Power Class Unknown"
  {
    if b & ExtPwrClass8Mask == 0x20 then "Power Class 8"
    else
      var ext := b & ExtPwrClassMask;
      if ext != 0 && ext == 1 then "Power Class 5"
      else if ext != 0 && ext == 2 then "Power Class 6"
      else if ext != 0 && ext == 3 then "Power Class 7"
      else
        var base := b & PwrClassMask;
        if base == 0x00 then "Power Class 1"
        else if base == 0x40 then "Power Class 2"
        else if base == 0x80 then "Power Class 3"
        else if base == 0xC0 then "Power Class 4"
        else "Power Class Unknown"
  }

  /** The power class as a number, read from the bits by their meaning in
      the standard rather than by the code's chain of tests. */
  function PowerClass(b: bv8): (n: nat)
    ensures 1 <= n <= 8
  {
    if Bit(b, 5) then 8
    else if Bit(b, 1) || Bit(b, 0) then 4 + (if Bit(b, 1) then 2 else 0) + (if Bit(b, 0) then 1 else 0)
    else 1 + (if Bit(b, 7) then 2 else 0) + (if Bit(b, 6) then 1 else 0)
  }

  function ClassName(n: nat): string
    requires 1 <= n <= 8
  {
    "Power Class " + [(48 + n) as char]
  }

  /** The label the code computes is the name of the power class. */
  lemma GetPowerClassNamesClass(b: bv8)
    ensures GetPowerClass(b) == ClassName(PowerClass(b))
  {
    LowBits(b);
  }

  lemma LowBits(b: bv8)
    ensures b & 0x03 == 0 <==> !Bit(b, 1) && !Bit(b, 0)
    ensures b & 0x03 == 1 <==> !Bit(b, 1) && Bit(b, 0)
    ensures b & 0x03 == 2 <==> Bit(b, 1) && !Bit(b, 0)
    ensures b & 0x03 == 3 <==> Bit(b, 1) && Bit(b, 0)
  {
  }

  /** Different classes have different labels. */
  lemma ClassNameInjective(m: nat, n: nat)
    requires 1 <= m <= 8 && 1 <= n <= 8
    ensures ClassName(m) == ClassName(n) <==> m == n
  {
    if ClassName(m) == ClassName(n) {
      assert ClassName(m)[12] == ClassName(n)[12];
    }
  }

  /** Every one of the eight classes is reachable. */
  lemma EveryClassOccurs()
    ensures PowerClass(0x00) == 1 && PowerClass(0x40) == 2
    ensures PowerClass(0x80) == 3 && PowerClass(0xC0) == 4
    ensures PowerClass(0x01) == 5 && PowerClass(0x02) == 6
    ensures PowerClass(0x03) == 7 && PowerClass(0x20) == 8
  {
  }

  /** ExtIdentifier.List: power class, CLEI label and the two CDR labels. */
  function List(b: bv8): (r: seq<string>)
    ensures |r| == 3
    ensures r[0] == ClassName(PowerClass(b))
    ensures r[1] == (if Bit(b, 4) then "CLEI code present" else "No CLEI code present")
    ensures r[2] == CdrText(b)
  {
    GetPowerClassNamesClass(b);
    LookupsHit(b);
    [GetPowerClass(b),
     Lookup(ClieCodeNames(b & ClieCodeMask)),
     Lookup(CdrInTxNames(b & CdrInTxMask)) + ", " + Lookup(CdrInRxNames(b & CdrInRxMask))]
  }

  /** No lookup of List ever misses its table. */
  lemma LookupsHit(b: bv8)
    ensures ClieCodeNames(b & ClieCodeMask).Some?
    ensures CdrInTxNames(b & CdrInTxMask).Some?
    ensures CdrInRxNames(b & CdrInRxMask).Some?
    ensures Lookup(ClieCodeNames(b & ClieCodeMask)) == (if Bit(b, 4) then "CLEI code present" else "No CLEI code present")
    ensures Lookup(CdrInTxNames(b & CdrInTxMask)) == (if Bit(b, 3) then "CDR in TX" else "No CDR in TX")
    ensures Lookup(CdrInRxNames(b & CdrInRxMask)) == (if Bit(b, 2) then "CDR in RX" else "No CDR in RX")
  {
  }

  /** The list tells exactly the power class and bits 4, 3 and 2. */
  lemma ListDeterminesFields(a: bv8, b: bv8)
    ensures List(a) == List(b) <==>
      PowerClass(a) == PowerClass(b) && Bit(a, 4) == Bit(b, 4) && Bit(a, 3) == Bit(b, 3) && Bit(a, 2) == Bit(b, 2)
  {
    if List(a) == List(b) {
      ClassNameInjective(PowerClass(a), PowerClass(b));
      assert List(a)[1] == List(b)[1];
      CdrLabels(a, b);
    }
  }

  /** The third entry of List: the two CDR labels. */
  function CdrText(b: bv8): string
  {
    TxLabel(Bit(b, 3)) + ", " + RxLabel(Bit(b, 2))
  }

  function TxLabel(on: bool): string
  {
    if on then "CDR in TX" else "No CDR in TX"
  }

  function RxLabel(on: bool): string
  {
    if on then "CDR in RX" else "No CDR in RX"
  }

  lemma CdrLabels(a: bv8, b: bv8)
    requires CdrText(a) == CdrText(b)
    ensures Bit(a, 3) == Bit(b, 3) && Bit(a, 2) == Bit(b, 2)
  {
    var ta, tb := TxLabel(Bit(a, 3)), TxLabel(Bit(b, 3));
    var ra, rb := RxLabel(Bit(a, 2)), RxLabel(Bit(b, 2));
    FirstOfPair(ta, ra, ", ");
    FirstOfPair(tb, rb, ", ");
    assert ta[0] == tb[0];
    assert ta == tb;
    SecondOfPair(ta, ra, rb, ", ");
    assert ra[0] == rb[0];
  }

  lemma FirstOfPair(x: string, y: string, sep: string)
    requires |x| > 0
    ensures (x + sep + y)[0] == x[0]
  {
  }

  /** Behind the same first entry, equal pairs have equal second entries. */
  lemma SecondOfPair(x: string, y: string, z: string, sep: string)
    requires x + sep + y == x + sep + z
    ensures y == z
  {
    assert y == (x + sep + y)[|x + sep|..];
    assert z == (x + sep + z)[|x + sep|..];
  }

  /** ExtIdentifier.String: the list, one entry per line. */
  function String(b: bv8): (s: string)
    ensures Split(s, '\n') == List(b)
  {
    ListHasNoNewline(b);
    SplitJoinChar(List(b), '\n');
    Join(List(b), "\n")
  }

  lemma ListHasNoNewline(b: bv8)
    ensures forall p :: p in List(b) ==> '\n' !in p
  {
    var r := List(b);
    ClassNoNewline(PowerClass(b));
    CleiNoNewline(b);
    CdrNoNewline(b);
    assert r == [r[0], r[1], r[2]];
  }

  lemma ClassNoNewline(n: nat)
    requires 1 <= n <= 8
    ensures '\n' !in ClassName(n)
  {
    NoNewlineInEither("Power Class ", [(48 + n) as char]);
  }

  lemma CleiNoNewline(b: bv8)
    ensures '\n' !in (if Bit(b, 4) then "CLEI code present" else "No CLEI code present")
  {
  }

  lemma CdrNoNewline(b: bv8)
    ensures '\n' !in CdrText(b)
  {
    NoNewlineInEither(TxLabel(Bit(b, 3)), ", ");
    NoNewlineInEither(TxLabel(Bit(b, 3)) + ", ", RxLabel(Bit(b, 2)));
  }

  lemma NoNewlineInEither(x: string, y: string)
    requires '\n' !in x && '\n' !in y
    ensures '\n' !in x + y
  {
    assert forall k :: 0 <= k < |x + y| ==> (x + y)[k] == if k < |x| then x[k] else y[k - |x|];
  }
}

=== FILE: sff8636_model.dfy ===
/** The SFF-8636 memory map of a QSFP module: the lower page 00h (bytes
    0-127) followed by the upper page 00h, which the package calls page 01h
    (bytes 128-255), read as one flat record by explicit offsets. */
module Sff8636Model {
  import opened Base
  import opened Codec
  import Page00
  import Sff8636Options

  type Bytes6 = s: seq<bv8> | |s| == 6 witness seq(6, i => 0 as bv8)
  type Bytes20 = s: seq<bv8> | |s| == 20 witness seq(20, i => 0 as bv8)
  type Bytes32 = s: seq<bv8> | |s| == 32 witness seq(32, i => 0 as bv8)
  type Bytes34 = s: seq<bv8> | |s| == 34 witness seq(34, i => 0 as bv8)
  type Bytes35 = s: seq<bv8> | |s| == 35 witness seq(35, i => 0 as bv8)

  /** The Sff8636 record, field by field in memory order; the unnamed
      padding of the lower page is kept as reservedNN, named by its offset. */
  datatype Sff8636 = Sff8636(
    identifier: bv8,
    revisionCompliance: bv8,
    reserved2: Bytes20,
    temperature: Bytes2,
    reserved24: Bytes2,
    supplyVoltage: Bytes2,
    reserved28: Bytes6,
    channelMonitoring: Page00.ChannelMonitoring,
    reserved58: Bytes35,
    controlStatus: bv8,
    reserved94: Bytes34,
    identifierPage01: bv8,
    extIdentifier: bv8,
    connector: bv8,
    transceiver: Bytes8,
    encoding: bv8,
    brNominal: bv8,
    rateIdentifier: bv8,
    lengthSmf: bv8,
    lengthOm3: bv8,
    lengthOm2: bv8,
    lengthOm1: bv8,
    lengthCopper: bv8,
    devTech: bv8,
    vendor: Bytes16,
    extModule: bv8,
    vendorOui: Bytes3,
    vendorPn: Bytes16,
    vendorRev: Bytes2,
    laserWavelen: Bytes2,
    laserWavelenToler: Bytes2,
    maxCaseTempC: bv8,
    ccBase: bv8,
    linkCodes: bv8,
    options: Sff8636Options.Options,
    vendorSn: Bytes16,
    dateCode: Bytes8,
    diagMonType: bv8,
    enhOptions: bv8,
    brNominalExt: bv8,
    ccExt: bv8,
    vendorSpec: Bytes32)

  /** The bytes the record spans, which is also the size Decode asks for. */
  const RecordSize: nat := 256

  /** Byte 128 holds the module identifier: QSFP (12), QSFP+ (13) or
      QSFP28 (17). */
  predicate Signature(eeprom: seq<bv8>)
    requires |eeprom| > 128
  {
    eeprom[128] == 12 || eeprom[128] == 13 || eeprom[128] == 17
  }

  /** The record laid over the first 256 bytes of a buffer. */
  function Fields(b: seq<bv8>): Sff8636
    requires |b| >= RecordSize
  {
    Sff8636(
      b[0],
      b[1],
      b[2..22],
      b[22..24],
      b[24..26],
      b[26..28],
      b[28..34],
      Page00.DecodeChannelMonitoring(b[34..58]),
      b[58..93],
      b[93],
      b[94..128],
      b[128],
      b[129],
      b[130],
      b[131..139],
      b[139],
      b[140],
      b[141],
      b[142],
      b[143],
      b[144],
      b[145],
      b[146],
      b[147],
      b[148..164],
      b[164],
      b[165..168],
      b[168..184],
      b[184..186],
      b[186..188],
      b[188..190],
      b[190],
      b[191],
      b[192],
      Sff8636Options.Options(b[193], b[194], b[195]),
      b[196..212],
      b[212..220],
      b[220],
      b[221],
      b[222],
      b[223],
      b[224..256])
  }

  function OptionsBytes(o: Sff8636Options.Options): (r: seq<bv8>)
    ensures |r| == 3
  {
    [o.b193] + [o.b194] + [o.b195]
  }

  // The record's bytes, in three stretches: the lower page, and the two
  // halves of the upper page.

  function LowerPageBytes(s: Sff8636): (r: seq<bv8>)
    ensures |r| == 128
  {
    [s.identifier] + [s.revisionCompliance] + s.reserved2 + s.temperature + s.reserved24
    + s.supplyVoltage + s.reserved28 + Page00.ChannelMonitoringBytes(s.channelMonitoring)
    + s.reserved58 + [s.controlStatus] + s.reserved94
  }

  function UpperIdBytes(s: Sff8636): (r: seq<bv8>)
    ensures |r| == 64
  {
    [s.identifierPage01] + [s.extIdentifier] + [s.connector] + s.transceiver
    + [s.encoding] + [s.brNominal] + [s.rateIdentifier] + [s.lengthSmf] + [s.lengthOm3]
    + [s.lengthOm2] + [s.lengthOm1] + [s.lengthCopper] + [s.devTech] + s.vendor
    + [s.extModule] + s.vendorOui + s.vendorPn + s.vendorRev + s.laserWavelen
    + s.laserWavelenToler + [s.maxCaseTempC] + [s.ccBase]
  }

  function UpperExtendedBytes(s: Sff8636): (r: seq<bv8>)
    ensures |r| == 64
  {
    [s.linkCodes] + OptionsBytes(s.options) + s.vendorSn + s.dateCode + [s.diagMonType]
    + [s.enhOptions] + [s.brNominalExt] + [s.ccExt] + s.vendorSpec
  }

  /** The bytes a record stands for: the inverse of Fields. */
  function Encode(s: Sff8636): (b: seq<bv8>)
    ensures |b| == RecordSize
  {
    LowerPageBytes(s) + UpperIdBytes(s) + UpperExtendedBytes(s)
  }

  /** Sff8636 Decode: a buffer shorter than 256 bytes is refused, then one
      whose byte 128 is not a QSFP identifier; otherwise the record is the
      buffer's first 256 bytes, unchanged. Byte 0 is not looked at. */
  function Decode(eeprom: seq<bv8>): (r: Result<Sff8636>)
    ensures |eeprom| < RecordSize <==> r == Err(SizeTooSmall(RecordSize, |eeprom|))
    ensures r.Err? && r.error.UnknownStandard? <==> |eeprom| >= RecordSize && !Signature(eeprom)
    ensures r.Err? && r.error.UnknownStandard? ==> r.error.identifier == eeprom[128]
    ensures r.Ok? <==> |eeprom| >= RecordSize && Signature(eeprom)
    ensures r.Ok? ==> Encode(r.value) == eeprom[..RecordSize]
    ensures r.Ok? ==> (
      && r.value.identifier == eeprom[0] && r.value.identifierPage01 == eeprom[128]
      && r.value.temperature == eeprom[22..24] && r.value.supplyVoltage == eeprom[26..28]
      && Page00.ChannelMonitoringBytes(r.value.channelMonitoring) == eeprom[34..58]
      && r.value.controlStatus == eeprom[93]
      && r.value.laserWavelen == eeprom[186..188] && r.value.laserWavelenToler == eeprom[188..190]
      && r.value.options == Sff8636Options.Options(eeprom[193], eeprom[194], eeprom[195])
      && r.value.diagMonType == eeprom[220] && r.value.enhOptions == eeprom[221])
  {
    if |eeprom| < RecordSize then Err(SizeTooSmall(RecordSize, |eeprom|))
    else if Signature(eeprom) then
      FieldsLoseNothing(eeprom);
      Ok(Fields(eeprom))
    else Err(UnknownStandard(eeprom[128]))
  }

  /** Reading the record and writing it back gives the buffer's bytes: the
      fields are contiguous, do not overlap, and cover all 256 bytes. */
  lemma FieldsLoseNothing(b: seq<bv8>)
    requires |b| >= RecordSize
    ensures Encode(Fields(b)) == b[..RecordSize]
  {
    LowerPageLosesNothing(b);
    UpperIdLosesNothing(b);
    UpperExtendedLosesNothing(b);
    Glue(b, 0, 128, 192);
    Glue(b, 0, 192, 256);
  }

  lemma LowerPageLosesNothing(b: seq<bv8>)
    requires |b| >= RecordSize
    ensures LowerPageBytes(Fields(b)) == b[0..128]
  {
    assert [b[0]] == b[0..1];
    GlueByte(b, 0, 1);
    Glue(b, 0, 2, 22);
    Glue(b, 0, 22, 24);
    Glue(b, 0, 24, 26);
    Glue(b, 0, 26, 28);
    Glue(b, 0, 28, 34);
    Glue(b, 0, 34, 58);
    Glue(b, 0, 58, 93);
    GlueByte(b, 0, 93);
    Glue(b, 0, 94, 128);
  }

  lemma UpperIdLosesNothing(b: seq<bv8>)
    requires |b| >= RecordSize
    ensures UpperIdBytes(Fields(b)) == b[128..192]
  {
    assert [b[128]] == b[128..129];
    GlueByte(b, 128, 129);
    GlueByte(b, 128, 130);
    Glue(b, 128, 131, 139);
    GlueByte(b, 128, 139);
    GlueByte(b, 128, 140);
    GlueByte(b, 128, 141);
    GlueByte(b, 128, 142);
    GlueByte(b, 128, 143);
    GlueByte(b, 128, 144);
    GlueByte(b, 128, 145);
    GlueByte(b, 128, 146);
    GlueByte(b, 128, 147);
    Glue(b, 128, 148, 164);
    GlueByte(b, 128, 164);
    Glue(b, 128, 165, 168);
    Glue(b, 128, 168, 184);
    Glue(b, 128, 184, 186);
    Glue(b, 128, 186, 188);
    Glue(b, 128, 188, 190);
    GlueByte(b, 128, 190);
    GlueByte(b, 128, 191);
  }

  lemma UpperExtendedLosesNothing(b: seq<bv8>)
    requires |b| >= RecordSize
    ensures UpperExtendedBytes(Fields(b)) == b[192..256]
  {
    assert [b[192]] == b[192..193];
    assert OptionsBytes(Fields(b).options) == b[193..196];
    Glue(b, 192, 193, 196);
    Glue(b, 192, 196, 212);
    Glue(b, 192, 212, 220);
    GlueByte(b, 192, 220);
    GlueByte(b, 192, 221);
    GlueByte(b, 192, 222);
    GlueByte(b, 192, 223);
    Glue(b, 192, 224, 256);
  }

  /** Two accepted buffers decode to the same record exactly when their first
      256 bytes agree. */
  lemma DecodeReadsRecordBytes(b: seq<bv8>, c: seq<bv8>)
    requires Decode(b).Ok? && Decode(c).Ok?
    ensures Decode(b) == Decode(c) <==> b[..RecordSize] == c[..RecordSize]
  {
    if b[..RecordSize] == c[..RecordSize] {
      FieldsOfPrefix(b);
      FieldsOfPrefix(c);
    }
  }

  lemma FieldsOfPrefix(b: seq<bv8>)
    requires |b| >= RecordSize
    ensures Fields(b) == Fields(b[..RecordSize])
  {
    var p := b[..RecordSize];
    forall i, j | 0 <= i <= j <= RecordSize
      ensures p[i..j] == b[i..j]
    {
      assert forall k :: 0 <= k < j - i ==> p[i..j][k] == b[i..j][k];
    }
  }

  /** Whether a buffer is accepted depends on its length and byte 128 only:
      the identifier at byte 0 and the check codes at bytes 191 and 223 are
      never validated. */
  lemma AcceptanceIgnoresOtherBytes(b: seq<bv8>, i: nat, v: bv8)
    requires i < |b| && i != 128
    ensures Decode(b[i := v]).Ok? <==> Decode(b).Ok?
  {
    if |b| >= RecordSize {
      assert b[i := v][128] == b[128];
    }
  }

  // ---------------------------------------------------------------------
  // The wavelength tolerance (bytes 188-189)

  /** LaserWavelenToler as the record types it: a wavelength, whose unit is
      0.05 nm, so the raw value is divided by 20. */
  function LaserWavelenTolerAsWritten(s: Sff8636): (nm: real)
    ensures nm == 10.0 * LaserWavelenToler(s)
  {
    WavelengthNm(s.laserWavelenToler)
  }

  /** The tolerance read with the tolerance unit of 0.005 nm: at most
      327.675 nm, and exactly the raw value in units of 0.005 nm. */
  function LaserWavelenToler(s: Sff8636): (nm: real)
    ensures 0.0 <= nm <= 327.675
    ensures nm * 200.0 == Uint16(s.laserWavelenToler) as real
    ensures (nm * 200.0).Floor == Uint16(s.laserWavelenToler)
  {
    ToleranceNmRecoversRaw(s.laserWavelenToler);
    ToleranceNm(s.laserWavelenToler)
  }

  /** A raw tolerance of 100 (bytes 00 64) stands for 0.5 nm; the record
      reports 5 nm. The largest raw value is reported as 3276.75 nm, beyond
      anything a tolerance can hold. */
  lemma ToleranceScaleMismatch(s: Sff8636, t: Sff8636)
    requires s.laserWavelenToler == [0x00, 0x64]
    requires t.laserWavelenToler == [0xFF, 0xFF]
    ensures LaserWavelenToler(s) == 0.5 && LaserWavelenTolerAsWritten(s) == 5.0
    ensures LaserWavelenTolerAsWritten(t) == 3276.75 > 327.675
  {
    assert Uint16(s.laserWavelenToler) == 100;
    assert Uint16(t.laserWavelenToler) == 65535;
  }
}

=== FILE: sff8636_options.dfy ===
/** The SFF-8636 options field, bytes 193-195 of page 00h upper memory
    (sff8636/options.go): three bytes of one-bit flags, their decoding into
    three records, and the list and summary of the options they declare. */
module Sff8636Options {
  import opened Base

  /** The field keeps its three raw bytes. */
  datatype Options = Options(b193: bv8, b194: bv8, b195: bv8)

  /** Byte 193, bit 7 first. */
  datatype OptionsByte0 = OptionsByte0(
    reserved: bool,
    lpModeTxDisConfigurable: bool,
    intLRxLoslConfigurable: bool,
    txInputAdaptiveEqualizers: bool,
    txInputEqualizersAuto: bool,
    txInputEqualizersFixed: bool,
    rxOutputEmphasisFixed: bool,
    rxOutputAmplitudeFixed: bool)

  /** Byte 194, bit 7 first. */
  datatype OptionsByte1 = OptionsByte1(
    txCdrOnOffControl: bool,
    rxCdrOnOffControl: bool,
    txCdrLossOfLock: bool,
    rxCdrLossOfLock: bool,
    rxSquelchDisable: bool,
    rxOutputDisable: bool,
    txSquelchDisable: bool,
    txSquelch: bool)

  /** Byte 195, bit 7 first. Bit 2 tells which power Tx Squelch reduces:
      set for Pave, clear for OMA. */
  datatype OptionsByte2 = OptionsByte2(
    memoryPage02: bool,
    memoryPage01: bool,
    rateSelectImplemented: bool,
    txDisableImplemented: bool,
    txFaultImplemented: bool,
    txSquelchType: bool,
    txLossOfSignal: bool,
    pages20To21Implemented: bool)

  function DecodeByte0(b: bv8): (r: OptionsByte0)
    ensures r.reserved == Bit(b, 7) && r.lpModeTxDisConfigurable == Bit(b, 6)
    ensures r.intLRxLoslConfigurable == Bit(b, 5) && r.txInputAdaptiveEqualizers == Bit(b, 4)
    ensures r.txInputEqualizersAuto == Bit(b, 3) && r.txInputEqualizersFixed == Bit(b, 2)
    ensures r.rxOutputEmphasisFixed == Bit(b, 1) && r.rxOutputAmplitudeFixed == Bit(b, 0)
  {
    OptionsByte0(b & 0x80 != 0, b & 0x40 != 0, b & 0x20 != 0, b & 0x10 != 0,
                 b & 0x08 != 0, b & 0x04 != 0, b & 0x02 != 0, b & 0x01 != 0)
  }

  function DecodeByte1(b: bv8): (r: OptionsByte1)
    ensures r.txCdrOnOffControl == Bit(b, 7) && r.rxCdrOnOffControl == Bit(b, 6)
    ensures r.txCdrLossOfLock == Bit(b, 5) && r.rxCdrLossOfLock == Bit(b, 4)
    ensures r.rxSquelchDisable == Bit(b, 3) && r.rxOutputDisable == Bit(b, 2)
    ensures r.txSquelchDisable == Bit(b, 1) && r.txSquelch == Bit(b, 0)
  {
    OptionsByte1(b & 0x80 != 0, b & 0x40 != 0, b & 0x20 != 0, b & 0x10 != 0,
                 b & 0x08 != 0, b & 0x04 != 0, b & 0x02 != 0, b & 0x01 != 0)
  }

  function DecodeByte2(b: bv8): (r: OptionsByte2)
    ensures r.memoryPage02 == Bit(b, 7) && r.memoryPage01 == Bit(b, 6)
    ensures r.rateSelectImplemented == Bit(b, 5) && r.txDisableImplemented == Bit(b, 4)
    ensures r.txFaultImplemented == Bit(b, 3) && r.txSquelchType == Bit(b, 2)
    ensures r.txLossOfSignal == Bit(b, 1) && r.pages20To21Implemented == Bit(b, 0)
  {
    OptionsByte2(b & 0x80 != 0, b & 0x40 != 0, b & 0x20 != 0, b & 0x10 != 0,
                 b & 0x08 != 0, b & 0x04 != 0, b & 0x02 != 0, b & 0x01 != 0)
  }

  /** Options.Decode: the three bytes as three records of flags. */
  function Decode(o: Options): (r: (OptionsByte0, OptionsByte1, OptionsByte2))
    ensures r.0 == DecodeByte0(o.b193) && r.1 == DecodeByte1(o.b194) && r.2 == DecodeByte2(o.b195)
  {
    (DecodeByte0(o.b193), DecodeByte1(o.b194), DecodeByte2(o.b195))
  }

  /** The byte a record of eight flags stands for, bit 7 first. */
  function Pack(b7: bool, b6: bool, b5: bool, b4: bool, b3: bool, b2: bool, b1: bool, b0: bool): bv8
  {
    (if b7 then 0x80 else 0) | (if b6 then 0x40 else 0) | (if b5 then 0x20 else 0)
    | (if b4 then 0x10 else 0) | (if b3 then 0x08 else 0) | (if b2 then 0x04 else 0)
    | (if b1 then 0x02 else 0) | (if b0 then 0x01 else 0)
  }

  /** The bytes the three records stand for. */
  function Encode(r: (OptionsByte0, OptionsByte1, OptionsByte2)): Options
  {
    var (x, y, z) := r;
    Options(
      Pack(x.reserved, x.lpModeTxDisConfigurable, x.intLRxLoslConfigurable,
           x.txInputAdaptiveEqualizers, x.txInputEqualizersAuto, x.txInputEqualizersFixed,
           x.rxOutputEmphasisFixed, x.rxOutputAmplitudeFixed),
      Pack(y.txCdrOnOffControl, y.rxCdrOnOffControl, y.txCdrLossOfLock, y.rxCdrLossOfLock,
           y.rxSquelchDisable, y.rxOutputDisable, y.txSquelchDisable, y.txSquelch),
      Pack(z.memoryPage02, z.memoryPage01, z.rateSelectImplemented, z.txDisableImplemented,
           z.txFaultImplemented, z.txSquelchType, z.txLossOfSignal, z.pages20To21Implemented))
  }

  lemma PackBits(b: bv8)
    ensures Pack(Bit(b, 7), Bit(b, 6), Bit(b, 5), Bit(b, 4), Bit(b, 3), Bit(b, 2), Bit(b, 1), Bit(b, 0)) == b
  {
  }

  lemma BitsOfPack(b7: bool, b6: bool, b5: bool, b4: bool, b3: bool, b2: bool, b1: bool, b0: bool)
    ensures var p := Pack(b7, b6, b5, b4, b3, b2, b1, b0);
      Bit(p, 7) == b7 && Bit(p, 6) == b6 && Bit(p, 5) == b5 && Bit(p, 4) == b4
      && Bit(p, 3) == b3 && Bit(p, 2) == b2 && Bit(p, 1) == b1 && Bit(p, 0) == b0
  {
  }

  /** Decoding loses nothing: every one of the 24 bits, the reserved one
      included, has its own field, and the fields give the bytes back. */
  lemma DecodeRoundTrip(o: Options)
    ensures Encode(Decode(o)) == o
  {
    PackBits(o.b193);
    PackBits(o.b194);
    PackBits(o.b195);
  }

  lemma EncodeRoundTrip(r: (OptionsByte0, OptionsByte1, OptionsByte2))
    ensures Decode(Encode(r)) == r
  {
    var (x, y, z) := r;
    PackByte0(x);
    PackByte1(y);
    PackByte2(z);
  }

  lemma PackByte0(x: OptionsByte0)
    ensures DecodeByte0(Pack(x.reserved, x.lpModeTxDisConfigurable, x.intLRxLoslConfigurable,
      x.txInputAdaptiveEqualizers, x.txInputEqualizersAuto, x.txInputEqualizersFixed,
      x.rxOutputEmphasisFixed, x.rxOutputAmplitudeFixed)) == x
  {
    BitsOfPack(x.reserved, x.lpModeTxDisConfigurable, x.intLRxLoslConfigurable,
      x.txInputAdaptiveEqualizers, x.txInputEqualizersAuto, x.txInputEqualizersFixed,
      x.rxOutputEmphasisFixed, x.rxOutputAmplitudeFixed);
  }

  lemma PackByte1(y: OptionsByte1)
    ensures DecodeByte1(Pack(y.txCdrOnOffControl, y.rxCdrOnOffControl, y.txCdrLossOfLock,
      y.rxCdrLossOfLock, y.rxSquelchDisable, y.rxOutputDisable, y.txSquelchDisable, y.txSquelch)) == y
  {
    BitsOfPack(y.txCdrOnOffControl, y.rxCdrOnOffControl, y.txCdrLossOfLock, y.rxCdrLossOfLock,
      y.rxSquelchDisable, y.rxOutputDisable, y.txSquelchDisable, y.txSquelch);
  }

  lemma PackByte2(z: OptionsByte2)
    ensures DecodeByte2(Pack(z.memoryPage02, z.memoryPage01, z.rateSelectImplemented,
      z.txDisableImplemented, z.txFaultImplemented, z.txSquelchType, z.txLossOfSignal,
      z.pages20To21Implemented)) == z
  {
    BitsOfPack(z.memoryPage02, z.memoryPage01, z.rateSelectImplemented, z.txDisableImplemented,
      z.txFaultImplemented, z.txSquelchType, z.txLossOfSignal, z.pages20To21Implemented);
  }

  // ---------------------------------------------------------------------
  // The option list

  /** The lines the option list can hold, in list order. */
  datatype Line =
    | LpModeTxDisConfigurable | IntLRxLoslConfigurable | TxInputAdaptiveEqualizers | TxInputEqualizersAuto
    | TxInputEqualizersFixed | RxOutputEmphasisFixed | RxOutputAmplitudeFixed | TxCdrOnOffControl
    | RxCdrOnOffControl | TxCdrLossOfLock | RxCdrLossOfLock | RxSquelchDisable
    | RxOutputDisable | TxSquelchDisable | TxSquelch | MemoryPage02
    | MemoryPage01 | RateSelectImplemented | TxDisableImplemented | TxFaultImplemented
    | TxSquelchReducesPave | TxSquelchReducesOma | TxLossOfSignal | Pages20To21Implemented

  /** The label of each line. Long labels are written as two literals
      denoting the same text, because the verifier cannot look up single
      characters in one literal much longer than 40 characters. */
  function Text(l: Line): string
  {
    match l
    case LpModeTxDisConfigurable => "LPMode/TxDis configurable"
    case IntLRxLoslConfigurable => "IntL/RxLOSL configurable"
    case TxInputAdaptiveEqualizers => "Tx input adaptive equalizers" + " freeze capable"
    case TxInputEqualizersAuto => "Tx input equalizers" + " auto-adaptive capable"
    case TxInputEqualizersFixed => "Tx input equalizers" + " fixed-programmable"
    case RxOutputEmphasisFixed => "Rx output emphasis" + " fixed-programmable"
    case RxOutputAmplitudeFixed => "Rx output amplitude" + " fixed-programmable"
    case TxCdrOnOffControl => "Tx CDR On/Off Control"
    case RxCdrOnOffControl => "Rx CDR On/Off Control"
    case TxCdrLossOfLock => "Tx CDR Loss of Lock flag"
    case RxCdrLossOfLock => "Rx CDR Loss of Lock flag"
    case RxSquelchDisable => "Rx Squelch Disable"
    case RxOutputDisable => "Rx Output Disable"
    case TxSquelchDisable => "Tx Squelch Disable"
    case TxSquelch => "Tx Squelch"
    case MemoryPage02 => "Memory Page 02 provided"
    case MemoryPage01 => "Memory Page 01h provided"
    case RateSelectImplemented => "Rate select implemented"
    case TxDisableImplemented => "Tx_Disable implemented"
    case TxFaultImplemented => "Tx_Fault signal"
    case TxSquelchReducesPave => "Tx Squelch reduces Pave"
    case TxSquelchReducesOma => "Tx Squelch reduces OMA"
    case TxLossOfSignal => "Tx Loss of Signal"
    case Pages20To21Implemented => "Pages 20-21h implemented"
  }

  /** Tells the lines apart by their length and first and third
      characters: it gives every line back from its text. */
  function LineOf(t: string): Option<Line>
  {
    if |t| < 3 then None
    else if |t| == 10 then Some(TxSquelch)
    else if |t| == 15 then Some(TxFaultImplemented)
    else if |t| == 17 then
      if t[0] == 'R' then Some(RxOutputDisable) else Some(TxLossOfSignal)
    else if |t| == 18 then
      if t[0] == 'R' then Some(RxSquelchDisable) else Some(TxSquelchDisable)
    else if |t| == 21 then
      if t[0] == 'T' then Some(TxCdrOnOffControl) else Some(RxCdrOnOffControl)
    else if |t| == 22 then
      if t[2] == '_' then Some(TxDisableImplemented) else Some(TxSquelchReducesOma)
    else if |t| == 23 then
      if t[0] == 'M' then Some(MemoryPage02)
      else if t[0] == 'R' then Some(RateSelectImplemented)
      else Some(TxSquelchReducesPave)
    else if |t| == 24 then
      if t[0] == 'I' then Some(IntLRxLoslConfigurable)
      else if t[0] == 'T' then Some(TxCdrLossOfLock)
      else if t[0] == 'R' then Some(RxCdrLossOfLock)
      else if t[0] == 'M' then Some(MemoryPage01)
      else Some(Pages20To21Implemented)
    else if |t| == 25 then Some(LpModeTxDisConfigurable)
    else if |t| == 37 then Some(RxOutputEmphasisFixed)
    else if |t| == 38 then
      if t[0] == 'T' then Some(TxInputEqualizersFixed) else Some(RxOutputAmplitudeFixed)
    else if |t| == 41 then Some(TxInputEqualizersAuto)
    else if |t| == 43 then Some(TxInputAdaptiveEqualizers)
    else None
  }

  /** Reading a line's text back gives the line. */
  lemma LineOfText(l: Line)
    ensures LineOf(Text(l)) == Some(l)
  {
    if l.LpModeTxDisConfigurable? || l.IntLRxLoslConfigurable? || l.TxInputAdaptiveEqualizers? || l.TxInputEqualizersAuto? {
      LineOfText0(l);
    } else if l.TxInputEqualizersFixed? || l.RxOutputEmphasisFixed? || l.RxOutputAmplitudeFixed? || l.TxCdrOnOffControl? {
      LineOfText1(l);
    } else if l.RxCdrOnOffControl? || l.TxCdrLossOfLock? || l.RxCdrLossOfLock? || l.RxSquelchDisable? {
      LineOfText2(l);
    } else if l.RxOutputDisable? || l.TxSquelchDisable? || l.TxSquelch? || l.MemoryPage02? {
      LineOfText3(l);
    } else if l.MemoryPage01? || l.RateSelectImplemented? || l.TxDisableImplemented? || l.TxFaultImplemented? {
      LineOfText4(l);
    } else {
      LineOfText5(l);
    }
  }

  lemma LineOfText0(l: Line)
    requires l.LpModeTxDisConfigurable? || l.IntLRxLoslConfigurable?
      || l.TxInputAdaptiveEqualizers? || l.TxInputEqualizersAuto?
    ensures LineOf(Text(l)) == Some(l)
  {
  }

  lemma LineOfText1(l: Line)
    requires l.TxInputEqualizersFixed? || l.RxOutputEmphasisFixed?
      || l.RxOutputAmplitudeFixed? || l.TxCdrOnOffControl?
    ensures LineOf(Text(l)) == Some(l)
  {
  }

  lemma LineOfText2(l: Line)
    requires l.RxCdrOnOffControl? || l.TxCdrLossOfLock?
      || l.RxCdrLossOfLock? || l.RxSquelchDisable?
    ensures LineOf(Text(l)) == Some(l)
  {
  }

  lemma LineOfText3(l: Line)
    requires l.RxOutputDisable? || l.TxSquelchDisable?
      || l.TxSquelch? || l.MemoryPage02?
    ensures LineOf(Text(l)) == Some(l)
  {
  }

  lemma LineOfText4(l: Line)
    requires l.MemoryPage01? || l.RateSelectImplemented?
      || l.TxDisableImplemented? || l.TxFaultImplemented?
    ensures LineOf(Text(l)) == Some(l)
  {
  }

  lemma LineOfText5(l: Line)
    requires l.TxSquelchReducesPave? || l.TxSquelchReducesOma?
      || l.TxLossOfSignal? || l.Pages20To21Implemented?
    ensures LineOf(Text(l)) == Some(l)
  {
  }

  /** Every label can be told from the fixed phrase and holds no comma. */
  lemma TextDistinguishable(l: Line)
    ensures Distinguishable(Text(l), NoOptions) && ',' !in Text(l)
  {
    match l
    case LpModeTxDisConfigurable => LpModeTxDisConfigurablePrintable();
    case IntLRxLoslConfigurable => IntLRxLoslConfigurablePrintable();
    case TxInputAdaptiveEqualizers => TxInputAdaptiveEqualizersPrintable();
    case TxInputEqualizersAuto => TxInputEqualizersAutoPrintable();
    case TxInputEqualizersFixed => TxInputEqualizersFixedPrintable();
    case RxOutputEmphasisFixed => RxOutputEmphasisFixedPrintable();
    case RxOutputAmplitudeFixed => RxOutputAmplitudeFixedPrintable();
    case TxCdrOnOffControl => TxCdrOnOffControlPrintable();
    case RxCdrOnOffControl => RxCdrOnOffControlPrintable();
    case TxCdrLossOfLock => TxCdrLossOfLockPrintable();
    case RxCdrLossOfLock => RxCdrLossOfLockPrintable();
    case RxSquelchDisable => RxSquelchDisablePrintable();
    case RxOutputDisable => RxOutputDisablePrintable();
    case TxSquelchDisable => TxSquelchDisablePrintable();
    case TxSquelch => TxSquelchPrintable();
    case MemoryPage02 => MemoryPage02Printable();
    case MemoryPage01 => MemoryPage01Printable();
    case RateSelectImplemented => RateSelectImplementedPrintable();
    case TxDisableImplemented => TxDisableImplementedPrintable();
    case TxFaultImplemented => TxFaultImplementedPrintable();
    case TxSquelchReducesPave => TxSquelchReducesPavePrintable();
    case TxSquelchReducesOma => TxSquelchReducesOmaPrintable();
    case TxLossOfSignal => TxLossOfSignalPrintable();
    case Pages20To21Implemented => Pages20To21ImplementedPrintable();
  }

  lemma LpModeTxDisConfigurablePrintable()
    ensures Distinguishable(Text(LpModeTxDisConfigurable), NoOptions) && ',' !in Text(LpModeTxDisConfigurable)
  {
  }

  lemma IntLRxLoslConfigurablePrintable()
    ensures Distinguishable(Text(IntLRxLoslConfigurable), NoOptions) && ',' !in Text(IntLRxLoslConfigurable)
  {
  }

  lemma TxInputAdaptiveEqualizersPrintable()
    ensures Distinguishable(Text(TxInputAdaptiveEqualizers), NoOptions) && ',' !in Text(TxInputAdaptiveEqualizers)
  {
  }

  lemma TxInputEqualizersAutoPrintable()
    ensures Distinguishable(Text(TxInputEqualizersAuto), NoOptions) && ',' !in Text(TxInputEqualizersAuto)
  {
  }

  lemma TxInputEqualizersFixedPrintable()
    ensures Distinguishable(Text(TxInputEqualizersFixed), NoOptions) && ',' !in Text(TxInputEqualizersFixed)
  {
  }

  lemma RxOutputEmphasisFixedPrintable()
    ensures Distinguishable(Text(RxOutputEmphasisFixed), NoOptions) && ',' !in Text(RxOutputEmphasisFixed)
  {
  }

  lemma RxOutputAmplitudeFixedPrintable()
    ensures Distinguishable(Text(RxOutputAmplitudeFixed), NoOptions) && ',' !in Text(RxOutputAmplitudeFixed)
  {
  }

  lemma TxCdrOnOffControlPrintable()
    ensures Distinguishable(Text(TxCdrOnOffControl), NoOptions) && ',' !in Text(TxCdrOnOffControl)
  {
  }

  lemma RxCdrOnOffControlPrintable()
    ensures Distinguishable(Text(RxCdrOnOffControl), NoOptions) && ',' !in Text(RxCdrOnOffControl)
  {
  }

  lemma TxCdrLossOfLockPrintable()
    ensures Distinguishable(Text(TxCdrLossOfLock), NoOptions) && ',' !in Text(TxCdrLossOfLock)
  {
  }

  lemma RxCdrLossOfLockPrintable()
    ensures Distinguishable(Text(RxCdrLossOfLock), NoOptions) && ',' !in Text(RxCdrLossOfLock)
  {
  }

  lemma RxSquelchDisablePrintable()
    ensures Distinguishable(Text(RxSquelchDisable), NoOptions) && ',' !in Text(RxSquelchDisable)
  {
  }

  lemma RxOutputDisablePrintable()
    ensures Distinguishable(Text(RxOutputDisable), NoOptions) && ',' !in Text(RxOutputDisable)
  {
  }

  lemma TxSquelchDisablePrintable()
    ensures Distinguishable(Text(TxSquelchDisable), NoOptions) && ',' !in Text(TxSquelchDisable)
  {
  }

  lemma TxSquelchPrintable()
    ensures Distinguishable(Text(TxSquelch), NoOptions) && ',' !in Text(TxSquelch)
  {
  }

  lemma MemoryPage02Printable()
    ensures Distinguishable(Text(MemoryPage02), NoOptions) && ',' !in Text(MemoryPage02)
  {
  }

  lemma MemoryPage01Printable()
    ensures Distinguishable(Text(MemoryPage01), NoOptions) && ',' !in Text(MemoryPage01)
  {
  }

  lemma RateSelectImplementedPrintable()
    ensures Distinguishable(Text(RateSelectImplemented), NoOptions) && ',' !in Text(RateSelectImplemented)
  {
  }

  lemma TxDisableImplementedPrintable()
    ensures Distinguishable(Text(TxDisableImplemented), NoOptions) && ',' !in Text(TxDisableImplemented)
  {
  }

  lemma TxFaultImplementedPrintable()
    ensures Distinguishable(Text(TxFaultImplemented), NoOptions) && ',' !in Text(TxFaultImplemented)
  {
  }

  lemma TxSquelchReducesPavePrintable()
    ensures Distinguishable(Text(TxSquelchReducesPave), NoOptions) && ',' !in Text(TxSquelchReducesPave)
  {
  }

  lemma TxSquelchReducesOmaPrintable()
    ensures Distinguishable(Text(TxSquelchReducesOma), NoOptions) && ',' !in Text(TxSquelchReducesOma)
  {
  }

  lemma TxLossOfSignalPrintable()
    ensures Distinguishable(Text(TxLossOfSignal), NoOptions) && ',' !in Text(TxLossOfSignal)
  {
  }

  lemma Pages20To21ImplementedPrintable()
    ensures Distinguishable(Text(Pages20To21Implemented), NoOptions) && ',' !in Text(Pages20To21Implemented)
  {
  }

  /** No two lines share a text. */
  lemma TextInjective(a: Line, b: Line)
    requires Text(a) == Text(b)
    ensures a == b
  {
    LineOfText(a);
    LineOfText(b);
  }

  /** The lines in list order, one chunk per table below. */
  const Lines: seq<Line> := Lines0 + Lines1 + Lines2 + Lines3

  const Lines0: seq<Line> := [
    LpModeTxDisConfigurable, IntLRxLoslConfigurable, TxInputAdaptiveEqualizers, TxInputEqualizersAuto,
    TxInputEqualizersFixed, RxOutputEmphasisFixed, RxOutputAmplitudeFixed]
  const Lines1: seq<Line> := [
    TxCdrOnOffControl, RxCdrOnOffControl, TxCdrLossOfLock, RxCdrLossOfLock,
    RxSquelchDisable, RxOutputDisable, TxSquelchDisable, TxSquelch]
  const Lines2: seq<Line> := [
    MemoryPage02, MemoryPage01, RateSelectImplemented, TxDisableImplemented, TxFaultImplemented]
  const Lines3: seq<Line> := [
    TxSquelchReducesPave, TxSquelchReducesOma, TxLossOfSignal, Pages20To21Implemented]

  /** Where a line stands in Lines. */
  function LineIndex(l: Line): nat
  {
    match l
    case LpModeTxDisConfigurable => 0
    case IntLRxLoslConfigurable => 1
    case TxInputAdaptiveEqualizers => 2
    case TxInputEqualizersAuto => 3
    case TxInputEqualizersFixed => 4
    case RxOutputEmphasisFixed => 5
    case RxOutputAmplitudeFixed => 6
    case TxCdrOnOffControl => 7
    case RxCdrOnOffControl => 8
    case TxCdrLossOfLock => 9
    case RxCdrLossOfLock => 10
    case RxSquelchDisable => 11
    case RxOutputDisable => 12
    case TxSquelchDisable => 13
    case TxSquelch => 14
    case MemoryPage02 => 15
    case MemoryPage01 => 16
    case RateSelectImplemented => 17
    case TxDisableImplemented => 18
    case TxFaultImplemented => 19
    case TxSquelchReducesPave => 20
    case TxSquelchReducesOma => 21
    case TxLossOfSignal => 22
    case Pages20To21Implemented => 23
  }

  /** The reported flags of byte 193; the reserved bit is not reported. */
  function Entries0(x: OptionsByte0): seq<Labelled>
  {
    [Labelled(Text(LpModeTxDisConfigurable), x.lpModeTxDisConfigurable)]
    + [Labelled(Text(IntLRxLoslConfigurable), x.intLRxLoslConfigurable)]
    + [Labelled(Text(TxInputAdaptiveEqualizers), x.txInputAdaptiveEqualizers)]
    + [Labelled(Text(TxInputEqualizersAuto), x.txInputEqualizersAuto)]
    + [Labelled(Text(TxInputEqualizersFixed), x.txInputEqualizersFixed)]
    + [Labelled(Text(RxOutputEmphasisFixed), x.rxOutputEmphasisFixed)]
    + [Labelled(Text(RxOutputAmplitudeFixed), x.rxOutputAmplitudeFixed)]
  }

  function Entries1(y: OptionsByte1): seq<Labelled>
  {
    [Labelled(Text(TxCdrOnOffControl), y.txCdrOnOffControl)]
    + [Labelled(Text(RxCdrOnOffControl), y.rxCdrOnOffControl)]
    + [Labelled(Text(TxCdrLossOfLock), y.txCdrLossOfLock)]
    + [Labelled(Text(RxCdrLossOfLock), y.rxCdrLossOfLock)]
    + [Labelled(Text(RxSquelchDisable), y.rxSquelchDisable)]
    + [Labelled(Text(RxOutputDisable), y.rxOutputDisable)]
    + [Labelled(Text(TxSquelchDisable), y.txSquelchDisable)]
    + [Labelled(Text(TxSquelch), y.txSquelch)]
  }

  /** Byte 195 up to bit 3. */
  function Entries2(z: OptionsByte2): seq<Labelled>
  {
    [Labelled(Text(MemoryPage02), z.memoryPage02)]
    + [Labelled(Text(MemoryPage01), z.memoryPage01)]
    + [Labelled(Text(RateSelectImplemented), z.rateSelectImplemented)]
    + [Labelled(Text(TxDisableImplemented), z.txDisableImplemented)]
    + [Labelled(Text(TxFaultImplemented), z.txFaultImplemented)]
  }

  /** The rest of byte 195, where the squelch type is reported as one of two
      alternatives, the OMA one only when Tx Squelch itself is declared. */
  function Entries3(y: OptionsByte1, z: OptionsByte2): seq<Labelled>
  {
    [Labelled(Text(TxSquelchReducesPave), z.txSquelchType)]
    + [Labelled(Text(TxSquelchReducesOma), !z.txSquelchType && y.txSquelch)]
    + [Labelled(Text(TxLossOfSignal), z.txLossOfSignal)]
    + [Labelled(Text(Pages20To21Implemented), z.pages20To21Implemented)]
  }

  function Entries(o: Options): seq<Labelled>
  {
    var x, y, z := DecodeByte0(o.b193), DecodeByte1(o.b194), DecodeByte2(o.b195);
    Entries0(x) + Entries1(y) + Entries2(z) + Entries3(y, z)
  }

  /** Options.List: the labels of the declared options, in table order. */
  function List(o: Options): (r: seq<string>)
    ensures |r| == PopCount(o.b193) - (if Bit(o.b193, 7) then 1 else 0)
      + PopCount(o.b194)
      + PopCount(o.b195) - (if Bit(o.b195, 2) then 1 else 0)
      + (if Bit(o.b195, 2) || Bit(o.b194, 0) then 1 else 0)
  {
    ListLength(o);
    Selected(Entries(o))
  }

  lemma ListLength(o: Options)
    ensures |Selected(Entries(o))| == PopCount(o.b193) - (if Bit(o.b193, 7) then 1 else 0)
      + PopCount(o.b194)
      + PopCount(o.b195) - (if Bit(o.b195, 2) then 1 else 0)
      + (if Bit(o.b195, 2) || Bit(o.b194, 0) then 1 else 0)
  {
    var x, y, z := DecodeByte0(o.b193), DecodeByte1(o.b194), DecodeByte2(o.b195);
    var e0, e1, e2, e3 := Entries0(x), Entries1(y), Entries2(z), Entries3(y, z);
    SelectedAppend(e0 + e1 + e2, e3);
    SelectedAppend(e0 + e1, e2);
    SelectedAppend(e0, e1);
    ByteCount0(o.b193);
    ByteCount1(o.b194);
    ByteCount2(o.b194, o.b195);
  }

  lemma ByteCount0(b: bv8)
    ensures |Selected(Entries0(DecodeByte0(b)))| == PopCount(b) - (if Bit(b, 7) then 1 else 0)
  {
    Count0(DecodeByte0(b));
    Bits0(b);
  }

  lemma ByteCount1(b: bv8)
    ensures |Selected(Entries1(DecodeByte1(b)))| == PopCount(b)
  {
    Count1(DecodeByte1(b));
    Bits1(b);
  }

  lemma ByteCount2(b194: bv8, b: bv8)
    ensures |Selected(Entries2(DecodeByte2(b)))| + |Selected(Entries3(DecodeByte1(b194), DecodeByte2(b)))|
      == PopCount(b) - (if Bit(b, 2) then 1 else 0) + (if Bit(b, 2) || Bit(b194, 0) then 1 else 0)
  {
    Count2(DecodeByte2(b));
    Count3(DecodeByte1(b194), DecodeByte2(b));
    Bits2(b194, b);
  }

  lemma Count0(x: OptionsByte0)
    ensures |Selected(Entries0(x))| ==
      (if x.lpModeTxDisConfigurable then 1 else 0) + (if x.intLRxLoslConfigurable then 1 else 0)
      + (if x.txInputAdaptiveEqualizers then 1 else 0) + (if x.txInputEqualizersAuto then 1 else 0)
      + (if x.txInputEqualizersFixed then 1 else 0) + (if x.rxOutputEmphasisFixed then 1 else 0)
      + (if x.rxOutputAmplitudeFixed then 1 else 0)
  {
    SelectedLength(Entries0(x));
    CountSeven(
      Labelled(Text(LpModeTxDisConfigurable), x.lpModeTxDisConfigurable),
      Labelled(Text(IntLRxLoslConfigurable), x.intLRxLoslConfigurable),
      Labelled(Text(TxInputAdaptiveEqualizers), x.txInputAdaptiveEqualizers),
      Labelled(Text(TxInputEqualizersAuto), x.txInputEqualizersAuto),
      Labelled(Text(TxInputEqualizersFixed), x.txInputEqualizersFixed),
      Labelled(Text(RxOutputEmphasisFixed), x.rxOutputEmphasisFixed),
      Labelled(Text(RxOutputAmplitudeFixed), x.rxOutputAmplitudeFixed));
  }

  /** Counting the set entries of a seven-entry table, whatever the labels. */
  lemma CountSeven(a: Labelled, b: Labelled, c: Labelled, d: Labelled, e: Labelled, f: Labelled, g: Labelled)
    ensures CountOn([a] + [b] + [c] + [d] + [e] + [f] + [g]) ==
      (if a.on then 1 else 0) + (if b.on then 1 else 0) + (if c.on then 1 else 0)
      + (if d.on then 1 else 0) + (if e.on then 1 else 0) + (if f.on then 1 else 0)
      + (if g.on then 1 else 0)
  {
    CountOnUnfold();
  }

  lemma Count1(y: OptionsByte1)
    ensures |Selected(Entries1(y))| ==
      (if y.txCdrOnOffControl then 1 else 0) + (if y.rxCdrOnOffControl then 1 else 0)
      + (if y.txCdrLossOfLock then 1 else 0) + (if y.rxCdrLossOfLock then 1 else 0)
      + (if y.rxSquelchDisable then 1 else 0) + (if y.rxOutputDisable then 1 else 0)
      + (if y.txSquelchDisable then 1 else 0) + (if y.txSquelch then 1 else 0)
  {
    SelectedLength(Entries1(y));
    CountOnUnfold();
  }

  lemma Count2(z: OptionsByte2)
    ensures |Selected(Entries2(z))| ==
      (if z.memoryPage02 then 1 else 0) + (if z.memoryPage01 then 1 else 0)
      + (if z.rateSelectImplemented then 1 else 0) + (if z.txDisableImplemented then 1 else 0)
      + (if z.txFaultImplemented then 1 else 0)
  {
    SelectedUnfold();
  }

  lemma Count3(y: OptionsByte1, z: OptionsByte2)
    ensures |Selected(Entries3(y, z))| ==
      (if z.txSquelchType || y.txSquelch then 1 else 0)
      + (if z.txLossOfSignal then 1 else 0) + (if z.pages20To21Implemented then 1 else 0)
  {
    SelectedUnfold();
  }

  // The same counts in terms of the raw bits.

  lemma Bits0(b: bv8)
    ensures var x := DecodeByte0(b);
      (if x.lpModeTxDisConfigurable then 1 else 0) + (if x.intLRxLoslConfigurable then 1 else 0)
      + (if x.txInputAdaptiveEqualizers then 1 else 0) + (if x.txInputEqualizersAuto then 1 else 0)
      + (if x.txInputEqualizersFixed then 1 else 0) + (if x.rxOutputEmphasisFixed then 1 else 0)
      + (if x.rxOutputAmplitudeFixed then 1 else 0)
      == PopCount(b) - (if Bit(b, 7) then 1 else 0)
  {
  }

  lemma Bits1(b: bv8)
    ensures var y := DecodeByte1(b);
      (if y.txCdrOnOffControl then 1 else 0) + (if y.rxCdrOnOffControl then 1 else 0)
      + (if y.txCdrLossOfLock then 1 else 0) + (if y.rxCdrLossOfLock then 1 else 0)
      + (if y.rxSquelchDisable then 1 else 0) + (if y.rxOutputDisable then 1 else 0)
      + (if y.txSquelchDisable then 1 else 0) + (if y.txSquelch then 1 else 0)
      == PopCount(b)
  {
  }

  lemma Bits2(b194: bv8, b: bv8)
    ensures var y, z := DecodeByte1(b194), DecodeByte2(b);
      (if z.memoryPage02 then 1 else 0) + (if z.memoryPage01 then 1 else 0)
      + (if z.rateSelectImplemented then 1 else 0) + (if z.txDisableImplemented then 1 else 0)
      + (if z.txFaultImplemented then 1 else 0)
      + (if z.txSquelchType || y.txSquelch then 1 else 0)
      + (if z.txLossOfSignal then 1 else 0) + (if z.pages20To21Implemented then 1 else 0)
      == PopCount(b) - (if Bit(b, 2) then 1 else 0) + (if Bit(b, 2) || Bit(b194, 0) then 1 else 0)
  {
  }

  const NoOptions := "No options implemented"

  /** Options.String: the list joined by ", ", or a fixed phrase when the
      list is empty. */
  function String(o: Options): (s: string)
    ensures s == NoOptions <==> |List(o)| == 0
    ensures s == NoOptions <==> o.b193 & 0x7F == 0 && o.b194 == 0 && o.b195 == 0
    ensures |List(o)| > 0 ==> s == Join(List(o), ", ")
  {
    ListEmpty(o);
    ListPrintable(o);
    SummaryNone(List(o), NoOptions, ", ");
    Summary(List(o), NoOptions, ", ")
  }

  /** The list is empty exactly when no bit but the reserved one is set. */
  lemma ListEmpty(o: Options)
    ensures |List(o)| == 0 <==> o.b193 & 0x7F == 0 && o.b194 == 0 && o.b195 == 0
  {
    PopCountZero(o.b194);
    PopCountZero(o.b195);
    PopCountBelow7(o.b193);
  }

  lemma PopCountZero(b: bv8)
    ensures PopCount(b) == 0 <==> b == 0
  {
  }

  lemma PopCountBelow7(b: bv8)
    ensures PopCount(b) - (if Bit(b, 7) then 1 else 0) == 0 <==> b & 0x7F == 0
  {
  }

  lemma ListPrintable(o: Options)
    ensures Printable(List(o), NoOptions)
    ensures Separable(List(o), ',')
  {
    var e := Entries(o);
    EntriesFollowLines(o);
    forall i | 0 <= i < |e|
      ensures Distinguishable(e[i].text, NoOptions) && ',' !in e[i].text
    {
      TextDistinguishable(Lines[i]);
    }
    SelectedPrintable(e, NoOptions);
    SelectedSeparable(e, ',');
  }

  /** The squelch type shows as exactly one of its two wordings, or as
      neither when byte 195 says OMA and Tx Squelch is not declared. */
  lemma SquelchTypeReported(o: Options)
    ensures Text(TxSquelchReducesPave) in List(o) <==> Bit(o.b195, 2)
    ensures Text(TxSquelchReducesOma) in List(o) <==> !Bit(o.b195, 2) && Bit(o.b194, 0)
  {
    var e := Entries(o);
    EntriesUnique(o, 20);
    EntriesUnique(o, 21);
    SelectedContains(e, 20);
    SelectedContains(e, 21);
  }

  lemma EntriesFollowLines(o: Options)
    ensures |Entries(o)| == |Lines|
    ensures forall i :: 0 <= i < |Lines| ==> Entries(o)[i].text == Text(Lines[i])
  {
    var x, y, z := DecodeByte0(o.b193), DecodeByte1(o.b194), DecodeByte2(o.b195);
    Chunk0Lines(x);
    Chunk1Lines(y);
    Chunk2Lines(z);
    Chunk3Lines(y, z);
    var e0, e1, e2, e3 := Entries0(x), Entries1(y), Entries2(z), Entries3(y, z);
    assert Entries(o) == e0 + e1 + e2 + e3;
    forall i | 0 <= i < |Lines|
      ensures Entries(o)[i].text == Text(Lines[i])
    {
      if i < 7 {
        assert Entries(o)[i] == e0[i] && Lines[i] == Lines0[i];
      } else if i < 15 {
        assert Entries(o)[i] == e1[i - 7] && Lines[i] == Lines1[i - 7];
      } else if i < 20 {
        assert Entries(o)[i] == e2[i - 15] && Lines[i] == Lines2[i - 15];
      } else {
        assert Entries(o)[i] == e3[i - 20] && Lines[i] == Lines3[i - 20];
      }
    }
  }

  lemma Chunk0Lines(x: OptionsByte0)
    ensures |Entries0(x)| == 7
    ensures forall i :: 0 <= i < 7 ==> Entries0(x)[i].text == Text(Lines0[i])
  {
  }

  lemma Chunk1Lines(y: OptionsByte1)
    ensures |Entries1(y)| == 8
    ensures forall i :: 0 <= i < 8 ==> Entries1(y)[i].text == Text(Lines1[i])
  {
  }

  lemma Chunk2Lines(z: OptionsByte2)
    ensures |Entries2(z)| == 5
    ensures forall i :: 0 <= i < 5 ==> Entries2(z)[i].text == Text(Lines2[i])
  {
  }

  lemma Chunk3Lines(y: OptionsByte1, z: OptionsByte2)
    ensures |Entries3(y, z)| == 4
    ensures forall i :: 0 <= i < 4 ==> Entries3(y, z)[i].text == Text(Lines3[i])
  {
  }

  lemma LinesDistinct(i: nat, j: nat)
    requires i < j < |Lines|
    ensures Lines[i] != Lines[j]
  {
    LineIndexAt(i);
    LineIndexAt(j);
  }

  lemma LineIndexAt(i: nat)
    requires i < |Lines|
    ensures LineIndex(Lines[i]) == i
  {
    if i < 7 {
      assert Lines[i] == Lines0[i];
    } else if i < 15 {
      assert Lines[i] == Lines1[i - 7];
    } else if i < 20 {
      assert Lines[i] == Lines2[i - 15];
    } else {
      assert Lines[i] == Lines3[i - 20];
    }
  }

  lemma EntriesUnique(o: Options, i: nat)
    requires i < |Lines|
    ensures i < |Entries(o)| && UniqueAt(Entries(o), i)
  {
    EntriesFollowLines(o);
    forall j | 0 <= j < |Lines| && j != i
      ensures Entries(o)[j].text != Entries(o)[i].text
    {
      if j < i { LinesDistinct(j, i); } else { LinesDistinct(i, j); }
      if Text(Lines[j]) == Text(Lines[i]) {
        TextInjective(Lines[j], Lines[i]);
      }
    }
  }

  /** Every label of the table shows exactly when its condition holds. */
  lemma ListShowsEntry(o: Options, i: nat)
    requires i < |Entries(o)|
    ensures Entries(o)[i].text in List(o) <==> Entries(o)[i].on
  {
    EntriesUnique(o, i);
    SelectedContains(Entries(o), i);
  }

  /** The list determines the field: everything but the reserved bit 7 of
      byte 193 can be read back from it. */
  lemma ListDeterminesOptions(a: Options, b: Options)
    requires List(a) == List(b)
    ensures a.b193 & 0x7F == b.b193 & 0x7F && a.b194 == b.b194 && a.b195 == b.b195
  {
    OnsAgree(a, b);
    Byte0FromOns(a, b);
    Byte1FromOns(a, b);
    Byte2FromOns(a, b);
  }

  lemma Byte0FromOns(a: Options, b: Options)
    requires |Entries(a)| == |Entries(b)| == 24
    requires forall i :: 0 <= i < 24 ==> Entries(a)[i].on == Entries(b)[i].on
    ensures a.b193 & 0x7F == b.b193 & 0x7F
  {
    EntriesChunks(a);
    EntriesChunks(b);
    var x, x' := DecodeByte0(a.b193), DecodeByte0(b.b193);
    forall i | 0 <= i < 7
      ensures Entries0(x)[i].on == Entries0(x')[i].on
    {
      assert Entries(a)[i].on == Entries(b)[i].on;
    }
    Byte0Determined(a.b193, b.b193);
  }

  lemma Byte1FromOns(a: Options, b: Options)
    requires |Entries(a)| == |Entries(b)| == 24
    requires forall i :: 0 <= i < 24 ==> Entries(a)[i].on == Entries(b)[i].on
    ensures a.b194 == b.b194
  {
    EntriesChunks(a);
    EntriesChunks(b);
    var y, y' := DecodeByte1(a.b194), DecodeByte1(b.b194);
    forall i | 0 <= i < 8
      ensures Entries1(y)[i].on == Entries1(y')[i].on
    {
      assert Entries(a)[7 + i].on == Entries(b)[7 + i].on;
    }
    Byte1Determined(a.b194, b.b194);
  }

  lemma Byte2FromOns(a: Options, b: Options)
    requires |Entries(a)| == |Entries(b)| == 24
    requires forall i :: 0 <= i < 24 ==> Entries(a)[i].on == Entries(b)[i].on
    requires a.b194 == b.b194
    ensures a.b195 == b.b195
  {
    EntriesChunks(a);
    EntriesChunks(b);
    var y, z, z' := DecodeByte1(a.b194), DecodeByte2(a.b195), DecodeByte2(b.b195);
    forall i | 0 <= i < 5
      ensures Entries2(z)[i].on == Entries2(z')[i].on
    {
      assert Entries(a)[15 + i].on == Entries(b)[15 + i].on;
    }
    forall i | 0 <= i < 4
      ensures Entries3(y, z)[i].on == Entries3(y, z')[i].on
    {
      assert Entries(a)[20 + i].on == Entries(b)[20 + i].on;
    }
    Byte2Determined(a.b194, a.b195, b.b194, b.b195);
  }

  lemma OnsAgree(a: Options, b: Options)
    requires List(a) == List(b)
    ensures |Entries(a)| == |Entries(b)| == 24
    ensures forall i :: 0 <= i < 24 ==> Entries(a)[i].on == Entries(b)[i].on
  {
    EntriesFollowLines(a);
    EntriesFollowLines(b);
    forall i | 0 <= i < 24
      ensures Entries(a)[i].on == Entries(b)[i].on
    {
      ListShowsEntry(a, i);
      ListShowsEntry(b, i);
    }
  }

  /** Where each table's entries sit in the whole list of entries. */
  lemma EntriesChunks(o: Options)
    ensures var x, y, z := DecodeByte0(o.b193), DecodeByte1(o.b194), DecodeByte2(o.b195);
      && |Entries(o)| == 24
      && (forall i :: 0 <= i < 7 ==> Entries(o)[i] == Entries0(x)[i])
      && (forall i :: 0 <= i < 8 ==> Entries(o)[7 + i] == Entries1(y)[i])
      && (forall i :: 0 <= i < 5 ==> Entries(o)[15 + i] == Entries2(z)[i])
      && (forall i :: 0 <= i < 4 ==> Entries(o)[20 + i] == Entries3(y, z)[i])
  {
    var x, y, z := DecodeByte0(o.b193), DecodeByte1(o.b194), DecodeByte2(o.b195);
    Chunk0Lines(x);
    Chunk1Lines(y);
    Chunk2Lines(z);
    Chunk3Lines(y, z);
  }

  lemma Byte0Determined(p: bv8, q: bv8)
    requires forall i :: 0 <= i < 7 ==> Entries0(DecodeByte0(p))[i].on == Entries0(DecodeByte0(q))[i].on
    ensures p & 0x7F == q & 0x7F
  {
    Ons0(DecodeByte0(p), DecodeByte0(q));
    SameBits(p, q);
  }

  lemma Byte1Determined(p: bv8, q: bv8)
    requires forall i :: 0 <= i < 8 ==> Entries1(DecodeByte1(p))[i].on == Entries1(DecodeByte1(q))[i].on
    ensures p == q
  {
    Ons1(DecodeByte1(p), DecodeByte1(q));
    PackBits(p);
    PackBits(q);
  }

  /** Byte 195 is read back with the help of byte 194: when the Pave line is
      absent, the OMA line tells the squelch type only if Tx Squelch is set,
      and Tx Squelch itself is known from byte 194. */
  lemma Byte2Determined(p194: bv8, p: bv8, q194: bv8, q: bv8)
    requires p194 == q194
    requires forall i :: 0 <= i < 5 ==> Entries2(DecodeByte2(p))[i].on == Entries2(DecodeByte2(q))[i].on
    requires forall i :: 0 <= i < 4 ==>
      Entries3(DecodeByte1(p194), DecodeByte2(p))[i].on == Entries3(DecodeByte1(q194), DecodeByte2(q))[i].on
    ensures p == q
  {
    Ons2(DecodeByte1(p194), DecodeByte2(p), DecodeByte2(q));
    PackBits(p);
    PackBits(q);
  }

  // The tables' flags in terms of the records' fields.

  lemma Ons0(x: OptionsByte0, x': OptionsByte0)
    requires forall i :: 0 <= i < 7 ==> Entries0(x)[i].on == Entries0(x')[i].on
    ensures x.lpModeTxDisConfigurable == x'.lpModeTxDisConfigurable
    ensures x.intLRxLoslConfigurable == x'.intLRxLoslConfigurable
    ensures x.txInputAdaptiveEqualizers == x'.txInputAdaptiveEqualizers
    ensures x.txInputEqualizersAuto == x'.txInputEqualizersAuto
    ensures x.txInputEqualizersFixed == x'.txInputEqualizersFixed
    ensures x.rxOutputEmphasisFixed == x'.rxOutputEmphasisFixed
    ensures x.rxOutputAmplitudeFixed == x'.rxOutputAmplitudeFixed
  {
    Flags0(x);
    Flags0(x');
  }

  lemma Flags0(x: OptionsByte0)
    ensures |Entries0(x)| == 7
    ensures Entries0(x)[0].on == x.lpModeTxDisConfigurable && Entries0(x)[1].on == x.intLRxLoslConfigurable
    ensures Entries0(x)[2].on == x.txInputAdaptiveEqualizers && Entries0(x)[3].on == x.txInputEqualizersAuto
    ensures Entries0(x)[4].on == x.txInputEqualizersFixed && Entries0(x)[5].on == x.rxOutputEmphasisFixed
    ensures Entries0(x)[6].on == x.rxOutputAmplitudeFixed
  {
  }

  lemma Ons1(y: OptionsByte1, y': OptionsByte1)
    requires forall i :: 0 <= i < 8 ==> Entries1(y)[i].on == Entries1(y')[i].on
    ensures y.txCdrOnOffControl == y'.txCdrOnOffControl
    ensures y.rxCdrOnOffControl == y'.rxCdrOnOffControl
    ensures y.txCdrLossOfLock == y'.txCdrLossOfLock
    ensures y.rxCdrLossOfLock == y'.rxCdrLossOfLock
    ensures y.rxSquelchDisable == y'.rxSquelchDisable
    ensures y.rxOutputDisable == y'.rxOutputDisable
    ensures y.txSquelchDisable == y'.txSquelchDisable
    ensures y.txSquelch == y'.txSquelch
  {
    Flags1(y);
    Flags1(y');
  }

  lemma Flags1(y: OptionsByte1)
    ensures |Entries1(y)| == 8
    ensures Entries1(y)[0].on == y.txCdrOnOffControl && Entries1(y)[1].on == y.rxCdrOnOffControl
    ensures Entries1(y)[2].on == y.txCdrLossOfLock && Entries1(y)[3].on == y.rxCdrLossOfLock
    ensures Entries1(y)[4].on == y.rxSquelchDisable && Entries1(y)[5].on == y.rxOutputDisable
    ensures Entries1(y)[6].on == y.txSquelchDisable && Entries1(y)[7].on == y.txSquelch
  {
  }

  lemma Ons2(y: OptionsByte1, z: OptionsByte2, z': OptionsByte2)
    requires forall i :: 0 <= i < 5 ==> Entries2(z)[i].on == Entries2(z')[i].on
    requires forall i :: 0 <= i < 4 ==> Entries3(y, z)[i].on == Entries3(y, z')[i].on
    ensures z.memoryPage02 == z'.memoryPage02
    ensures z.memoryPage01 == z'.memoryPage01
    ensures z.rateSelectImplemented == z'.rateSelectImplemented
    ensures z.txDisableImplemented == z'.txDisableImplemented
    ensures z.txFaultImplemented == z'.txFaultImplemented
    ensures z.txSquelchType == z'.txSquelchType
    ensures z.txLossOfSignal == z'.txLossOfSignal
    ensures z.pages20To21Implemented == z'.pages20To21Implemented
  {
    Flags2(z);
    Flags2(z');
    Flags3(y, z);
    Flags3(y, z');
  }

  lemma Flags2(z: OptionsByte2)
    ensures |Entries2(z)| == 5
    ensures Entries2(z)[0].on == z.memoryPage02 && Entries2(z)[1].on == z.memoryPage01
    ensures Entries2(z)[2].on == z.rateSelectImplemented && Entries2(z)[3].on == z.txDisableImplemented
    ensures Entries2(z)[4].on == z.txFaultImplemented
  {
  }

  lemma Flags3(y: OptionsByte1, z: OptionsByte2)
    ensures |Entries3(y, z)| == 4
    ensures Entries3(y, z)[0].on == z.txSquelchType
    ensures Entries3(y, z)[2].on == z.txLossOfSignal && Entries3(y, z)[3].on == z.pages20To21Implemented
  {
  }

  lemma SameBits(p: bv8, q: bv8)
    requires Bit(p, 6) == Bit(q, 6) && Bit(p, 5) == Bit(q, 5) && Bit(p, 4) == Bit(q, 4)
    requires Bit(p, 3) == Bit(q, 3) && Bit(p, 2) == Bit(q, 2) && Bit(p, 1) == Bit(q, 1)
    requires Bit(p, 0) == Bit(q, 0)
    ensures p & 0x7F == q & 0x7F
  {
  }

  /** The summary tells exactly the reported bits: byte 193 without its
      reserved bit 7, and bytes 194 and 195 whole. */
  lemma StringDeterminesOptions(a: Options, b: Options)
    ensures String(a) == String(b) <==> a.b193 & 0x7F == b.b193 & 0x7F && a.b194 == b.b194 && a.b195 == b.b195
  {
    if String(a) == String(b) {
      SameStringSameList(a, b);
      ListDeterminesOptions(a, b);
    }
    if a.b193 & 0x7F == b.b193 & 0x7F && a.b194 == b.b194 && a.b195 == b.b195 {
      ReservedBitUnlisted(a.b193, b.b193);
      assert Entries(a) == Entries(b);
    }
  }

  lemma SameStringSameList(a: Options, b: Options)
    requires String(a) == String(b)
    ensures List(a) == List(b)
  {
    ListPrintable(a);
    ListPrintable(b);
    assert [','] + " " == ", ";
    assert Summary(List(a), NoOptions, [','] + " ") == Summary(List(b), NoOptions, [','] + " ");
    SummaryInjective(List(a), List(b), NoOptions, ',', " ");
  }

  lemma ReservedBitUnlisted(p: bv8, q: bv8)
    requires p & 0x7F == q & 0x7F
    ensures Entries0(DecodeByte0(p)) == Entries0(DecodeByte0(q))
  {
    assert DecodeByte0(p).(reserved := false) == DecodeByte0(q).(reserved := false);
  }

  // The worked examples of the package's own tests.

  lemma ListExamples()
    ensures List(Options(0x00, 0x00, 0x00)) == []
    ensures |List(Options(0x10, 0x80, 0x20))| == 3
  {
  }
}

=== FILE: sff8636_page00.dfy ===
/** Three fields of the lower page of an SFF-8636 module: the revision
    compliance byte (byte 1), the per-channel monitors (bytes 34-57) and the
    control and status byte (byte 93). */
module Page00 {
  import opened Base
  import opened Codec

  // ---------------------------------------------------------------------
  // RevisionCompliance (byte 1)

  /** The table of revision names, keyed by the byte; None for a reserved
      value. Long names are written as several literals denoting the same
      text, because the verifier cannot look up single characters in one literal much longer than 40 characters. */
  function RevisionName(r: bv8): Option<string>
  {
    if r == 0x00 then Some("Revision not specified. " + "Do not use for SFF-8636 " + "rev 2.5 or higher.")
    else if r == 0x01 then Some("SFF-8436 Rev 4.8 or earlier")
    else if r == 0x02 then Some("Includes functionality " + "described in revision 4.8 "
      + "or earlier of SFF-8436, " + "except that this byte and " + "Bytes 186-189 are as defined "
      + "in this document")
    else if r == 0x03 then Some("SFF-8636 Rev 1.3 or earlier")
    else if r == 0x04 then Some("SFF-8636 Rev 1.4")
    else if r == 0x05 then Some("SFF-8636 Rev 1.5")
    else if r == 0x06 then Some("SFF-8636 Rev 2.0")
    else if r == 0x07 then Some("SFF-8636 Rev 2.5, " + "2.6 and 2.7")
    else if r == 0x08 then Some("SFF-8636 Rev 2.8, " + "2.9 and 2.10")
    else None
  }

  /** The table names exactly the values 0 to 8. */
  lemma RevisionNamed(r: bv8)
    ensures RevisionName(r).Some? <==> r <= 8
  {
    if r <= 2 { } else if r <= 5 { } else if r <= 8 { }
  }

  /** RevisionCompliance.String: the table's name for values 0 to 8, and
      "Reserved (0xNN)" with two lower-case hex digits for every other. */
  function RevisionString(r: bv8): (s: string)
    ensures r <= 8 ==> RevisionName(r).Some? && s == RevisionName(r).value
    ensures r > 8 ==> s == "Reserved (0x" + Hex2(r) + ")"
  {
    RevisionNamed(r);
    if r <= 8 then RevisionName(r).value else "Reserved (0x" + Hex2(r) + ")"
  }

  /** Reads a revision name back: the inverse of the table. */
  function RevisionOfName(s: string): Option<bv8>
  {
    if |s| == 66 then Some(0x00)
    else if |s| == 27 then (if s[5] == '4' then Some(0x01) else Some(0x03))
    else if |s| == 144 then Some(0x02)
    else if |s| == 16 then (if s[15] == '4' then Some(0x04) else if s[15] == '5' then Some(0x05) else Some(0x06))
    else if |s| == 29 then Some(0x07)
    else if |s| == 30 then Some(0x08)
    else None
  }

  lemma RevisionOfNameInverts(r: bv8)
    requires r <= 8
    ensures RevisionName(r).Some? && RevisionOfName(RevisionName(r).value) == Some(r)
  {
    if r <= 2 {
      RevisionOfNameInverts0(r);
    } else if r <= 5 {
      RevisionOfNameInverts1(r);
    } else {
      RevisionOfNameInverts2(r);
    }
  }

  lemma RevisionOfNameInverts0(r: bv8)
    requires r <= 2
    ensures RevisionName(r).Some? && RevisionOfName(RevisionName(r).value) == Some(r)
  {
  }

  lemma RevisionOfNameInverts1(r: bv8)
    requires 3 <= r <= 5
    ensures RevisionName(r).Some? && RevisionOfName(RevisionName(r).value) == Some(r)
  {
  }

  lemma RevisionOfNameInverts2(r: bv8)
    requires 6 <= r <= 8
    ensures RevisionName(r).Some? && RevisionOfName(RevisionName(r).value) == Some(r)
  {
  }

  /** No two values share a text: the string determines the byte. */
  lemma RevisionStringInjective(a: bv8, b: bv8)
    requires RevisionString(a) == RevisionString(b)
    ensures a == b
  {
    if a <= 8 && b <= 8 {
      RevisionOfNameInverts(a);
      RevisionOfNameInverts(b);
    } else if a > 8 && b > 8 {
      var s := RevisionString(a);
      assert s[12..14] == Hex2(a);
      assert RevisionString(b)[12..14] == Hex2(b);
      Hex2Injective(a, b);
    } else {
      // A reserved text is 15 characters long, no table name is.
      RevisionOfNameInverts(if a <= 8 then a else b);
    }
  }

  /** The worked examples of the package's tests. */
  lemma RevisionExamples()
    ensures RevisionString(0x00) == "Revision not specified. " + "Do not use for SFF-8636 " + "rev 2.5 or higher."
    ensures RevisionString(0x01) == "SFF-8436 Rev 4.8 or earlier"
    ensures RevisionString(0x07) == "SFF-8636 Rev 2.5, " + "2.6 and 2.7"
    ensures RevisionString(0xFF) == "Reserved (0xff)"
  {
    assert Hex2(0xFF) == "ff";
  }

  // ---------------------------------------------------------------------
  // ChannelMonitoring (bytes 34-57)

  /** ChannelMonitoring: twelve big-endian 16-bit monitors. */
  datatype ChannelMonitoring = ChannelMonitoring(
    rx1Power: Bytes2, rx2Power: Bytes2, rx3Power: Bytes2, rx4Power: Bytes2,
    tx1Bias: Bytes2, tx2Bias: Bytes2, tx3Bias: Bytes2, tx4Bias: Bytes2,
    tx1Power: Bytes2, tx2Power: Bytes2, tx3Power: Bytes2, tx4Power: Bytes2)

  /** The monitors at their offsets within the 24 bytes: received power of
      channels 1-4, then transmit bias, then transmit power. */
  function DecodeChannelMonitoring(b: seq<bv8>): (c: ChannelMonitoring)
    requires |b| == 24
    ensures ChannelMonitoringBytes(c) == b
  {
    var c := ChannelMonitoring(
      b[0..2], b[2..4], b[4..6], b[6..8],
      b[8..10], b[10..12], b[12..14], b[14..16],
      b[16..18], b[18..20], b[20..22], b[22..24]);
    QuadOfSlices(b, 0);
    QuadOfSlices(b, 8);
    QuadOfSlices(b, 16);
    Glue(b, 0, 8, 16);
    Glue(b, 0, 16, 24);
    assert b[0..24] == b;
    c
  }

  /** Four 2-byte monitors, one after the other. */
  function Quad(a: Bytes2, b: Bytes2, c: Bytes2, d: Bytes2): (q: seq<bv8>)
    ensures |q| == 8
  {
    a + b + c + d
  }

  /** The 24 bytes the monitors occupy, in order. */
  function ChannelMonitoringBytes(c: ChannelMonitoring): (b: seq<bv8>)
    ensures |b| == 24
  {
    Quad(c.rx1Power, c.rx2Power, c.rx3Power, c.rx4Power)
    + Quad(c.tx1Bias, c.tx2Bias, c.tx3Bias, c.tx4Bias)
    + Quad(c.tx1Power, c.tx2Power, c.tx3Power, c.tx4Power)
  }

  lemma QuadOfSlices(b: seq<bv8>, i: nat)
    requires i + 8 <= |b|
    ensures Quad(b[i..i + 2], b[i + 2..i + 4], b[i + 4..i + 6], b[i + 6..i + 8]) == b[i..i + 8]
  {
    Glue(b, i, i + 2, i + 4);
    Glue(b, i, i + 4, i + 6);
    Glue(b, i, i + 6, i + 8);
  }

  lemma QuadSlices(a: Bytes2, b: Bytes2, c: Bytes2, d: Bytes2)
    ensures var q := Quad(a, b, c, d); q[0..2] == a && q[2..4] == b && q[4..6] == c && q[6..8] == d
  {
  }

  lemma ChannelMonitoringRoundTrip(c: ChannelMonitoring)
    ensures DecodeChannelMonitoring(ChannelMonitoringBytes(c)) == c
  {
    var b := ChannelMonitoringBytes(c);
    var rx := Quad(c.rx1Power, c.rx2Power, c.rx3Power, c.rx4Power);
    var bias := Quad(c.tx1Bias, c.tx2Bias, c.tx3Bias, c.tx4Bias);
    var power := Quad(c.tx1Power, c.tx2Power, c.tx3Power, c.tx4Power);
    assert b[0..8] == rx && b[8..16] == bias && b[16..24] == power;
    QuadSlices(c.rx1Power, c.rx2Power, c.rx3Power, c.rx4Power);
    QuadSlices(c.tx1Bias, c.tx2Bias, c.tx3Bias, c.tx4Bias);
    QuadSlices(c.tx1Power, c.tx2Power, c.tx3Power, c.tx4Power);
    QuadAt(b, 0, rx);
    QuadAt(b, 8, bias);
    QuadAt(b, 16, power);
  }

  /** The slices of a quad found at offset i are the slices of b there. */
  lemma QuadAt(b: seq<bv8>, i: nat, q: seq<bv8>)
    requires i + 8 <= |b| && b[i..i + 8] == q
    ensures b[i..i + 2] == q[0..2] && b[i + 2..i + 4] == q[2..4]
    ensures b[i + 4..i + 6] == q[4..6] && b[i + 6..i + 8] == q[6..8]
  {
    assert forall k :: 0 <= k < 8 ==> q[k] == b[i + k];
  }

  // ---------------------------------------------------------------------
  // ControlStatus (byte 93)

  const SwResetMask: bv8 := 0x80
  const HighPowerClass8Mask: bv8 := 0x08
  const HighPowerClass5to7Mask: bv8 := 0x04
  const PowerSetMask: bv8 := 0x02
  const PowerOverrideMask: bv8 := 0x01

  predicate IsSoftwareReset(c: bv8) { c & SwResetMask == SwResetMask }
  predicate IsHighPowerClass8Enabled(c: bv8) { c & HighPowerClass8Mask == HighPowerClass8Mask }
  predicate IsHighPowerClass5to7Enabled(c: bv8) { c & HighPowerClass5to7Mask == HighPowerClass5to7Mask }
  predicate IsLowPowerMode(c: bv8) { c & PowerSetMask == PowerSetMask }
  predicate IsPowerOverride(c: bv8) { c & PowerOverrideMask == PowerOverrideMask }

  /** Everything the five accessors report about the byte. */
  datatype Status = Status(
    softwareReset: bool, highPowerClass8: bool, highPowerClass5to7: bool,
    lowPowerMode: bool, powerOverride: bool)

  function StatusOf(c: bv8): (s: Status)
    ensures s.softwareReset <==> Bit(c, 7)
    ensures s.highPowerClass8 <==> Bit(c, 3)
    ensures s.highPowerClass5to7 <==> Bit(c, 2)
    ensures s.lowPowerMode <==> Bit(c, 1)
    ensures s.powerOverride <==> Bit(c, 0)
  {
    Status(IsSoftwareReset(c), IsHighPowerClass8Enabled(c), IsHighPowerClass5to7Enabled(c),
      IsLowPowerMode(c), IsPowerOverride(c))
  }

  /** The accessors see bits 7 and 3-0, and the reserved bits 6-4 not at
      all: two bytes report the same status exactly when they agree outside
      the reserved bits. */
  lemma StatusDeterminesBits(a: bv8, b: bv8)
    ensures StatusOf(a) == StatusOf(b) <==> a & 0x8F == b & 0x8F
  {
  }

  /** Toggling a bit changes its own accessor and no other. */
  lemma EachAccessorIsOneBit(c: bv8)
    ensures StatusOf(c ^ 0x80) == StatusOf(c).(softwareReset := !StatusOf(c).softwareReset)
    ensures StatusOf(c ^ 0x08) == StatusOf(c).(highPowerClass8 := !StatusOf(c).highPowerClass8)
    ensures StatusOf(c ^ 0x04) == StatusOf(c).(highPowerClass5to7 := !StatusOf(c).highPowerClass5to7)
    ensures StatusOf(c ^ 0x02) == StatusOf(c).(lowPowerMode := !StatusOf(c).lowPowerMode)
    ensures StatusOf(c ^ 0x01) == StatusOf(c).(powerOverride := !StatusOf(c).powerOverride)
    ensures StatusOf(c ^ 0x40) == StatusOf(c)
    ensures StatusOf(c ^ 0x20) == StatusOf(c)
    ensures StatusOf(c ^ 0x10) == StatusOf(c)
  {
  }

  /** The package's test cases: all bits set and none set. */
  lemma StatusExamples()
    ensures StatusOf(0xFF) == Status(true, true, true, true, true)
    ensures StatusOf(0x00) == Status(false, false, false, false, false)
  {
  }
}
